=== FILE: README.md ===
# fratapp in Dafny

fratapp is a multi-tenant receipt-reimbursement app for student organisations
("chapters"). Members submit receipts with a photo. Treasurers, execs and admins
approve, reject and mark them paid. Organisations hand out invite codes, and users
sign in with a password and an HS256 session cookie.

This project models the app's authorization and workflow core as pure Dafny
functions over immutable data, and proves what the code promises about them:

- **Sessions and authorization.** The session token (`Jwt`), the session helpers and
  role guards (`Auth`), the role predicates (`Permissions`), the request gate
  (`Gate`) and the admin layout's re-check (`AdminLayout`).
- **Credential and invite flows.** `Login`, `Signup`, the invite check
  (`InviteCheck`), `ForgotPassword`, `ResetPassword`, `InviteCodes` (creation,
  listing, revocation) and the chapter bootstrap (`Chapters`).
- **The receipt workflow.** The five states are submitted, approved, paid, rejected
  and needs_review. The modules are creation and listing (`Receipts`), the free-form
  admin update (`ReceiptUpdate`), single and bulk decisions (`Review`) and the review
  buttons (`QuickActions`).
- **Helpers and pages.** The CSV export (`CsvExport`), storage keys and the
  organisation prefix check (`Storage`), photo access (`PhotoAccess`), the profile
  route (`ProfileRoute`), the payment line and submitter grouping (`ApprovedList`),
  and the cent totals of the admin and receipts pages (`AdminPage`, `ReceiptsPage`).

How the outside world appears in the model:

- The database is a `Store` of finite maps, and each route's transaction is one step
  from a store to a store (`Db`). Listing queries take the table as a sequence in the
  order the database returns it.
- Time is an integer clock in milliseconds.
- Signing, SHA-256 and password hashing are symbolic, collision-free terms.
- Random draws, generated ids and salts are parameters.
- The cookie store is an explicit request context, and cookie writes are returned
  as values.
- A guard's thrown "Forbidden" or "Unauthorized" is an uncaught error, modelled as a
  500 failure carrying that message.
- JavaScript's `trim`, `toLowerCase`, `encodeURIComponent` and `JSON.stringify` of
  flat objects of strings and integers are modelled in `Common`, `Uri` and `Json`,
  together with a reader that takes such an object back apart.
- The middleware runs only on the paths its matcher names; `Gate.Gated` is the
  request as Next.js hands it over, gated or passed through untouched.

## Model

| member | source | states |
|---|---|---|
| Permissions.ParseRole | src/lib/permissions.ts:8 | a string read as a role is exactly that role's stored name |
| Permissions.ParseRoleName | src/lib/permissions.ts:8 | every role's name reads back as that role, so role names are distinct |
| Permissions.ViewAllExactly | src/lib/permissions.ts:10-15 | viewing all receipts holds exactly for treasurer, exec and admin, never for member |
| Permissions.ApproveEqualsViewAll | src/lib/permissions.ts:13-19 | approving receipts and viewing all receipts agree for every role |
| Permissions.ManageSettingsExactly | src/lib/permissions.ts:11-23 | managing organisation settings holds exactly for exec and admin |
| Permissions.AccessAdminEqualsApprove | src/lib/permissions.ts:25-27 | admin-area access agrees with approval rights for every role |
| Permissions.ManageImpliesApprove | src/lib/permissions.ts:10-11 | whoever may manage settings may also approve receipts |
| Permissions.PredicatesAreThresholds | src/lib/permissions.ts:8-27 | all four predicates are false for member and closed upwards in the role hierarchy |
| Jwt.SecretKey | src/lib/jwt.ts:5-8 | the key is the secret when one is set and the empty key otherwise |
| Jwt.CreateSessionToken | src/lib/jwt.ts:17-28 | the claims carry sub = user id, the given role and organisation, iat = now and exp = iat + lifetime |
| Jwt.VerifySessionToken | src/lib/jwt.ts:30-33 | a token verifies exactly when it is a signed token whose signature is the HS256 of its claims under the key and whose expiry second is still ahead, and then yields those claims |
| Jwt.LifetimeIsNinetyDays | src/lib/jwt.ts:3 | the lifetime is 7,776,000 seconds, so every token expires strictly after it is issued |
| Jwt.VerifyCreated | src/lib/jwt.ts:17-33 | verifying a fresh token with the same key before expiry returns its subject, role and organisation |
| Jwt.VerifyCreatedIffUnexpired | src/lib/jwt.ts:17-33 | a fresh token verifies exactly while the clock is before its expiry second |
| Jwt.WrongKeyRejected | src/lib/jwt.ts:30-33 | a token signed under one key never verifies under a different key |
| Jwt.ExpiredRejected | src/lib/jwt.ts:30-33 | a token presented at or after its expiry never verifies |
| Jwt.UnsetSecretIsEmptyKey | src/lib/jwt.ts:5-8 | with the secret unset, the key is the empty string, and the model signs and verifies tokens under it |
| Auth.SessionToken | src/lib/auth.ts:80-85 | an absent or empty cookie value means no token |
| Auth.SessionCookie | src/lib/auth.ts:10-37 | the cookie is named fratapp_session, lives 90 days, and holds a token for exactly the given user, role and organisation that verifies under the server key at the time of issue |
| Auth.ClearSessionCookie | src/lib/auth.ts:48-54 | clearing writes an empty fratapp_session value with max age 0, which resolves to no token |
| Auth.GetSessionUser | src/lib/auth.ts:80-97 | no token or a failed verification gives no session; a verified token gives exactly its subject, role and organisation |
| Auth.MaybeRefreshSession | src/lib/auth.ts:57-78 | no token means no cookie write, and a write happens only for a token that verifies |
| Auth.GetCurrentUserAndProfile | src/lib/auth.ts:104-127 | the user id comes from the token, organisation and role from the stored profile, and there is no session without a profile |
| Auth.RequireCurrentUserAndProfile | src/lib/auth.ts:129-135 | succeeds exactly for a verified token naming a user that has a profile, then with the profile's organisation and role; otherwise Unauthorized |
| Auth.RequireRole | src/lib/auth.ts:137-143 | succeeds exactly for a token session whose role equals the requested role, otherwise Forbidden |
| Auth.RequireAdminRole | src/lib/auth.ts:145-154 | succeeds exactly for a token session with role admin, exec or treasurer, that is, exactly when the token's role may approve receipts |
| Auth.RequireExecRole | src/lib/auth.ts:156-162 | succeeds exactly for a token session with role admin or exec, that is, exactly when the token's role may manage organisation settings |
| Auth.SessionRoundTrip | src/lib/auth.ts:29-37 | a cookie holding a token this server issued resolves, before expiry, to exactly the identity it was issued for |
| Auth.RefreshExactlyNearExpiry | src/lib/auth.ts:63-74 | a new token is issued exactly when 0 < exp - now < 14 days, and it carries the same identity |
| Auth.ClearIdempotentAndAnonymous | src/lib/auth.ts:48-54 | clearing twice is clearing once, and a cleared cookie resolves to no session |
| Auth.RequireAdminExactly | src/lib/auth.ts:137-143 | requireRole("admin") admits admin sessions only: exec and treasurer are refused |
| Auth.GuardsAgreeWithPermissions | src/lib/auth.ts:145-162 | the admin and exec guards accept exactly the roles that may approve receipts and manage settings |
| Auth.ProfileOverridesToken | src/lib/auth.ts:104-127 | a token still saying admin resolves to member once the stored profile says member |
| Gate.Middleware | middleware.ts:25-90 | only a public path without a verifiable session passes through, only a protected path with one is forwarded, the cookie is renewed on a redirect only when a signed-in visitor is sent from a public path to /app, and a login redirect carries the requested path as next |
| Gate.MatcherScope | middleware.ts:92-94 | every public path and every path under /app/admin runs through the gate, no /api/ path does, and /app matches by segment: /app/receipts does, /application does not |
| Gate.GateFollowsStateMachine | middleware.ts:25-94 | each of the six request states (outside the matcher, or public or protected with no, bad or good token) gets its one outcome; a path outside the matcher passes untouched |
| Gate.PublicPathsExactly | middleware.ts:23-30 | a path is public exactly when it is one of /, /login, /signup, /invite, /setup-chapter |
| Gate.PublicWithoutSessionPasses | middleware.ts:30-45 | a public path with no token or an unverifiable token passes through with no cookie change |
| Gate.ProtectedWithoutSessionToLogin | middleware.ts:48-53 | a matched protected path with no token or an unverifiable token redirects to /login with next = the path and no cookie; an unmatched one is not gated at all |
| Gate.AdminPathIsProtected | middleware.ts:23 | no public path lies under /app/admin |
| Gate.AdminAreaNeverForwardsMember | middleware.ts:61-64 | under /app/admin a role outside admin, exec and treasurer is redirected to /app and never forwarded |
| Gate.ForwardedHeadersComeFromToken | middleware.ts:66-84 | only a matched protected path is forwarded, and a forwarded request carries the token's user, organisation and role headers and a renewed cookie |
| Gate.ForwardedAdminPassesAdminGuard | middleware.ts:61-64 | every admin-area request the gate forwards would also pass requireAdminRole |
| Gate.TreasurerInMemberOut | middleware.ts:61-64 | with the same valid token body a treasurer reaches /app/admin while a member is sent to /app |
| Gate.ExpiredTokenToLogin | middleware.ts:85-89 | a token that expired five minutes before the request sends the gated path /app/receipts to /login with next |
| AdminLayout.LayoutDecisionExactly | src/app/app/admin/layout.tsx:11-25 | no session goes to /login?next=/app/admin, no profile or a role without admin access goes to /app, otherwise it renders |
| AdminLayout.Layout | src/app/app/admin/layout.tsx:11-25 | the layout renders only for a session whose stored profile role may access the admin area, and otherwise redirects to /login?next=/app/admin or /app |
| AdminLayout.DemotedUserStoppedByLayout | src/app/app/admin/layout.tsx:16-23 | a user whose stored role was lowered to member, holding an old admin token, passes the gate but is stopped by the layout |
| Db.UserByEmail | src/app/api/auth/login/route.ts:20-23 | a user found by email has exactly that email, and while the email index is exact, finding none means no user has it |
| Login.Login | src/app/api/auth/login/route.ts:12-49 | a body failing the schema gives 400, and every other failure is 401 "Invalid credentials." |
| Login.LoginSucceedsExactly | src/app/api/auth/login/route.ts:19-47 | login succeeds exactly for a user found by lowercased email with a profile and the right password, and the session carries the profile's organisation and role |
| Login.FailuresIndistinguishable | src/app/api/auth/login/route.ts:34-41 | an unknown user, a user without a profile and a wrong password get the identical reply |
| Login.LoginIgnoresEmailCase | src/app/api/auth/login/route.ts:19 | changing the case of the address changes nothing |
| Signup.Signup | src/app/api/auth/signup/route.ts:17-123 | the request fails exactly at the first failing check in the route's order, with that check's status and message, and then changes nothing |
| Signup.SignupCreatesAccount | src/app/api/auth/signup/route.ts:62-80 | success adds exactly one user with the lowercased email and its profile with the invite's organisation and role |
| Signup.SignupUserCount | src/app/api/auth/signup/route.ts:28-94 | the users table grows by one row on success and not at all on failure |
| Signup.SignupConsumesOneUse | src/app/api/auth/signup/route.ts:82-87 | success raises the used code's uses by exactly 1 and leaves every other code alone |
| Signup.SignupSignsIn | src/app/api/auth/signup/route.ts:96-100 | the issued session resolves to the new user with the invite's role and organisation |
| Signup.SignupPreservesInvariants | src/app/api/auth/signup/route.ts:49-60 | uses never exceed max uses and the email index stays exact |
| Signup.SignupAgreesWithInvitePage | src/app/api/auth/signup/route.ts:41-51 | for a well-formed request, signup passes the code checks exactly when the invite check calls the code valid |
| Signup.LastUseConsumedOnce | src/app/api/auth/signup/route.ts:49-51 | of two signups for a code's last use, run one after the other, the second is refused as used up |
| InviteCheck.CheckInvite | src/app/api/auth/invite/route.ts:8-45 | the code is valid exactly when present, known, unexpired and not used up, and then the reply carries its role and organisation |
| InviteCheck.CheckInviteFailureOrder | src/app/api/auth/invite/route.ts:11-37 | missing gives 400, unknown 404, expired 400 and exhausted 400, in that order |
| ForgotPassword.ResetBaseUrl | src/app/api/auth/forgot-password/route.ts:68-71 | the link's base is NEXTAUTH_URL when set, else the Vercel host, else the request origin, else localhost |
| ForgotPassword.BaseUrlPrecedenceCounterexample | src/app/api/auth/forgot-password/route.ts:68-70 | with NEXTAUTH_URL set and no Vercel host the written expression yields "https://undefined" where the configured URL was meant |
| ForgotPassword.BaseUrlAgreesWithoutNextAuthUrl | src/app/api/auth/forgot-password/route.ts:68-70 | with NEXTAUTH_URL unset the written and the intended base agree |
| ForgotPassword.RequestReset | src/app/api/auth/forgot-password/route.ts:22-84 | a malformed email gives 400 and no change, success is always the generic acknowledgement, and a change only adds the new token's digest; the mailed link is built on the base URL as the route writes it |
| ForgotPassword.RequestResetIntended | src/app/api/auth/forgot-password/route.ts:68-72 | with the intended base URL the route makes the same store change and reply and mails in the same cases, the link being the intended base with the raw token |
| ForgotPassword.MailedLinkWithConfiguredUrl | src/app/api/auth/forgot-password/route.ts:68-72 | with NEXTAUTH_URL set and no Vercel host the route mails a link on "https://undefined", where the intended link is on NEXTAUTH_URL |
| ForgotPassword.IssuesExactly | src/app/api/auth/forgot-password/route.ts:29-72 | a row is stored exactly for a valid address under the hourly limit that names a user; it holds the digest, not the raw token, for that user, expiring one hour later; the mail goes to that address with the link on the written base URL |
| ForgotPassword.ReplyDoesNotDiscloseAccount | src/app/api/auth/forgot-password/route.ts:39-54 | rate-limited, unknown and served addresses all get the same acknowledgement once the mail goes out |
| ForgotPassword.RecentCountStep | src/app/api/auth/forgot-password/route.ts:31-43 | a request raises its own address's recent count by at most one, only from below 3, and no other address's count |
| ForgotPassword.RateLimitPreserved | src/app/api/auth/forgot-password/route.ts:11-12 | no address ever gets more than 3 tokens within one hour |
| ForgotPassword.RecentCountShrinksOverTime | src/app/api/auth/forgot-password/route.ts:32-38 | the one-hour window only loses rows as time passes |
| ForgotPassword.SendFailureKeepsToken | src/app/api/auth/forgot-password/route.ts:60-79 | a failed delivery answers 500 but the token row stays |
| ResetPassword.UsableRecord | src/app/api/auth/reset-password/route.ts:45-63 | a usable row is the one keyed by the presented token's digest, unexpired, whose user has a profile |
| ResetPassword.ResetPassword | src/app/api/auth/reset-password/route.ts:17-97 | every refusal leaves the store unchanged, and the JSON variant redirects only to /app |
| ResetPassword.ResetSucceedsExactly | src/app/api/auth/reset-password/route.ts:45-94 | the store changes and a session is set exactly for valid fields and a usable row; then only that user's password changes and only that row is deleted |
| ResetPassword.ReplayRefused | src/app/api/auth/reset-password/route.ts:83-85 | presenting the same token again after a reset changes nothing and signs no one in |
| ResetPassword.ExpiredTokenRefused | src/app/api/auth/reset-password/route.ts:47-74 | a row whose expiry is not after now is refused: the form redirects with the token, JSON answers 400 |
| ResetPassword.ShortFormPasswordRedirects | src/app/api/auth/reset-password/route.ts:35-41 | a form with a password under 8 characters goes back to the page with the error, keeping the token only when one was sent |
| ResetPassword.ResetThenLogin | src/app/api/auth/reset-password/route.ts:78-94 | after a reset the user logs in with the new password, with the same organisation, and not with any other password |
| ResetPassword.MailedLinkResets | src/app/api/auth/reset-password/route.ts:45-86 | the raw token of a link mailed by a reset request resets the password until its hour is over |
| InviteCodes.GenerateCode | src/app/api/org/invite-codes/route.ts:8-15 | a code is the prefix followed by one alphabet character per draw, 8 in all |
| InviteCodes.AlphabetIsUnambiguous | src/app/api/org/invite-codes/route.ts:9 | the alphabet has 32 distinct characters and none of 0, O, 1, I |
| InviteCodes.InviteCodeShape | src/app/api/org/invite-codes/route.ts:8-15 | an invite code has length 12 with alphabet characters after "INV-", and different draws give different codes |
| InviteCodes.Candidates | src/app/api/org/invite-codes/route.ts:45-63 | the codes tried are those the generator makes for each successive draw |
| InviteCodes.FirstFree | src/app/api/org/invite-codes/route.ts:45-64 | the chosen code is not yet used and is one of the five candidates still to try |
| InviteCodes.PlaceCode | src/app/api/org/invite-codes/route.ts:45-69 | the loop takes the first of at most five candidates not already a code, and finds none exactly when all five collide |
| InviteCodes.FirstFreeIsFirst | src/app/api/org/invite-codes/route.ts:47-64 | a code is chosen exactly when some remaining attempt is free, and then it is the first free one |
| InviteCodes.ParseCreateBody | src/app/api/org/invite-codes/route.ts:17-21 | the body parses exactly for one of four roles, maxUses absent or in 1..1000 (default 50), and an expiry absent, empty or a date-time; empty or absent gives no expiry, a date-time gives that instant |
| InviteCodes.CreateInviteCode | src/app/api/org/invite-codes/route.ts:34-70 | a non-exec session is refused; a created code is new and stored for the session organisation with uses 0 and the role, maxUses and expiry the body parses to; a failure changes nothing |
| InviteCodes.CreateFailsExactly | src/app/api/org/invite-codes/route.ts:37-69 | a bad body gives 400, and a valid one fails with 500 exactly when all five candidates are taken |
| InviteCodes.CreatePreservesLimits | src/app/api/org/invite-codes/route.ts:49-58 | creating a code keeps every code's uses within its max uses |
| InviteCodes.OrgCodes | src/app/api/org/invite-codes/route.ts:26-29 | every code the query answers is a stored code of the organisation, with its stored row, taken from the database's answer |
| InviteCodes.OrgCodesComplete | src/app/api/org/invite-codes/route.ts:26-29 | every code of the organisation in the database's answer is in the query's answer |
| InviteCodes.OrgCodesKeepOrder | src/app/api/org/invite-codes/route.ts:26-29 | the answer keeps the database's newest-first order: newer codes are listed before older ones |
| InviteCodes.ListInviteCodes | src/app/api/org/invite-codes/route.ts:23-32 | an exec-level session gets exactly the query's answer: its organisation's codes with their stored rows, in newest-first order; any other session is refused |
| InviteCodes.OrgCodesOrdered | src/app/api/org/invite-codes/route.ts:26-29 | of two answered codes, the earlier one comes earlier in the database's created_at-descending order |
| InviteCodes.ListInviteCodesNewestFirst | src/app/api/org/invite-codes/route.ts:23-32 | the GET answer is newest first: two listed codes keep the database's created_at-descending order |
| InviteCodes.ListInviteCodesExactly | src/app/api/org/invite-codes/route.ts:23-32 | when the database returns every code once, each of the organisation's codes is listed exactly once and no other code is |
| InviteCodes.Revoke | src/app/api/org/invite-codes/revoke/route.ts:5-23 | every failure leaves the codes unchanged |
| InviteCodes.RevokeExactly | src/app/api/org/invite-codes/revoke/route.ts:13-22 | an admin deletes a code exactly when it belongs to their organisation, that one code only; otherwise 404 |
| InviteCodes.RevokeTwiceNotFound | src/app/api/org/invite-codes/revoke/route.ts:13-22 | revoking the same code again gives 404 and changes nothing |
| InviteCodes.ExecCreatesButCannotRevoke | src/app/api/org/invite-codes/revoke/route.ts:6 | an exec session may list and create codes but its revoke is refused with Forbidden |
| Chapters.Bootstrap | src/app/api/chapters/route.ts:28-58 | the organisation is always created; the first free of five "CH-" candidates becomes an admin invite with 10 uses, none used; with all five taken only the organisation remains |
| Chapters.ApiName | src/app/api/chapters/route.ts:5-7 | a name is accepted exactly when its untrimmed length is 1..100, and the stored name is its trimmed text |
| Chapters.CreateChapter | src/app/api/chapters/route.ts:18-62 | a refused name gives 400 and no change, and success returns "/signup?code=" with the encoded code |
| Chapters.BootstrapCodeIsValid | src/app/api/chapters/route.ts:38-61 | after success the new organisation exists and its code passes the invite check as an admin invite for it |
| Chapters.OrgSurvivesCodeFailure | src/app/api/chapters/route.ts:28-58 | when all five codes collide the reply is 500 and the organisation created before stays, without a code |
| Chapters.GeneratedCodeNeedsNoEscaping | src/app/api/chapters/route.ts:60 | a generated chapter code goes into the signup URL verbatim |
| Chapters.ActionName | src/app/setup-chapter/actions.ts:21-26 | the form field, missing read as "", is trimmed before its 1..100 length check |
| Chapters.CreateChapterAction | src/app/setup-chapter/actions.ts:20-56 | a refused name redirects to /setup-chapter with the error and changes nothing; the action throws, changing nothing, exactly when an accepted name meets a failed organisation insert |
| Chapters.RouteAndActionAgree | src/app/setup-chapter/actions.ts:28-55 | for a name without surrounding whitespace the route and the action make the same store and point to the same signup URL; when the organisation insert fails the route answers 500 and the action throws, both changing nothing |
| Chapters.RouteAndActionDiverge | src/app/api/chapters/route.ts:6 | the route accepts a blank name and stores it empty, which the action refuses, and refuses a padded name the action accepts |
| Uri.EncodeUriComponent | src/app/setup-chapter/actions.ts:25 | encoding never shortens a text |
| Uri.EncodeUnreservedIdentity | src/app/api/chapters/route.ts:60 | encodeURIComponent leaves a text of unreserved characters unchanged |
| Uri.EncodingIsQuerySafe | src/app/setup-chapter/actions.ts:25 | an encoded text holds only unreserved characters and '%', so it cannot break out of its query parameter |
| Uri.EncodingGrowsOnReserved | src/app/setup-chapter/actions.ts:25 | a text with a reserved character grows by at least two characters when encoded |
| Json.UnescapeEscape | src/app/api/receipts/route.ts:48-54 | the body of a string literal JSON.stringify writes reads back as the original string |
| Json.Quote | src/app/api/receipts/route.ts:48-54 | a string literal starts and ends with a double quote |
| Json.Escape | src/app/api/receipts/route.ts:48-54 | escaping never shortens a string |
| Json.Object | src/app/api/receipts/route.ts:48-54 | an object literal starts with '{' and ends with '}' |
| Json.BodyLengthEscape | src/app/api/receipts/route.ts:48-54 | in an escaped string followed by a quote, the first unescaped quote is that closing one |
| Json.ReadQuote | src/app/api/receipts/route.ts:48-54 | a string literal followed by any text reads back as the original string and that text |
| Json.ReadIntOf | src/app/api/receipts/route.ts:48-54 | a written integer, negative or not, followed by a non-digit text reads back as itself |
| Json.ReadValueOf | src/app/api/receipts/route.ts:48-54 | every written value reads back as itself in front of any text that does not start with a digit |
| Json.ReadMembersOf | src/app/api/receipts/route.ts:48-54 | a written member list followed by '}' reads back as the same names and values in order |
| Json.ObjectReadsBack | src/app/api/receipts/route.ts:48-54 | every object literal reads back as exactly the members it was written from, in order |
| Receipts.Where | src/app/api/receipts/route.ts:64-69 | the query answers exactly the rows matching organisation, owner and status, and never more rows than the table has |
| Receipts.WhereDistributes | src/app/api/receipts/route.ts:64-69 | the query keeps the table's order: it maps a concatenation of rows to the concatenation of the answers |
| Receipts.WhereStatusRefines | src/app/api/receipts/route.ts:64-69 | adding a status condition is the same as filtering the unfiltered answer by that status |
| Receipts.TotalCentsAppend | src/app/app/admin/page.tsx:40-44 | a sum of amounts over a concatenation is the sum of the two sums |
| Receipts.ParseCategory | src/app/api/receipts/route.ts:10 | a string read as a category is exactly that category's name |
| Receipts.ParseCategoryName | src/app/api/receipts/route.ts:10 | every category's name reads back as that category |
| Receipts.CreateReceipt | src/app/api/receipts/route.ts:14-59 | a body failing the schema gives 400 before the session is checked, a missing session gives Unauthorized, and a failure changes nothing |
| Receipts.CreateSucceedsExactly | src/app/api/receipts/route.ts:21-56 | creation succeeds exactly for a valid body, a profile-backed session, a finite positive amount and an id not yet taken |
| Receipts.CreateReceiptFields | src/app/api/receipts/route.ts:21-56 | a created receipt is the only new row: submitted, owned by the session user and the profile's organisation, with the sent amount, text, category and photo key, no payment or rejection, and one "created" edit whose old value is "" |
| Receipts.PositiveAmountMayRoundToZero | src/app/api/receipts/route.ts:22-27 | the sign is checked before rounding, so a positive amount under half a cent is stored as 0 cents while 0 is refused |
| Receipts.SnapshotQuotesDescription | src/app/api/receipts/route.ts:48-54 | the description in the "created" snapshot reads back exactly |
| Receipts.ListQuery | src/app/api/receipts/route.ts:64-68 | the query fails exactly without a profile-backed session and answers at most the table's rows |
| Receipts.Listed | src/app/api/receipts/route.ts:69-77 | a listed record carries the row's id, description, amount, category, status, photo key and creation time |
| Receipts.ListReceipts | src/app/api/receipts/route.ts:61-82 | the list fails exactly without a profile-backed session, and otherwise sends, for each selected row in order, its id, description, amount, category, status, photo key and creation time |
| Receipts.ListHidesPrivateColumns | src/app/api/receipts/route.ts:69-77 | the owner, organisation, payment and rejection columns never reach the client: rows differing only in them are listed alike |
| Receipts.ListScopedToSession | src/app/api/receipts/route.ts:64-68 | every row the list query selects is the caller's organisation's; a member sees exactly their own, any other role all of the organisation's |
| Receipts.MemberFilterIsNotViewAll | src/app/api/receipts/route.ts:67 | the route's "role is member" test is the complement of viewing all receipts |
| ReceiptUpdate.Update | src/app/api/admin/receipts/update/route.ts:19-181 | a failure changes nothing; success happens exactly for an admin-level session and an accepted form, redirects to /app/admin and commits the derived row |
| ReceiptUpdate.Columns | src/app/api/admin/receipts/update/route.ts:136-166 | the tracked columns are seven: status, amount_cents, description, category, paid_via, paid_note, paid_at |
| ReceiptUpdate.DiffExactly | src/app/api/admin/receipts/update/route.ts:136-178 | the edit list is empty exactly when no tracked column changed, has an edit for every changed column, and only edits for this receipt and editor |
| ReceiptUpdate.RouteEditsAreDiff | src/app/api/admin/receipts/update/route.ts:136-166 | the route's field-by-field comparison is the diff of the tracked columns before and after |
| ReceiptUpdate.UpdateSucceedsExactly | src/app/api/admin/receipts/update/route.ts:34-71 | success needs, in this order, a valid form, a receipt of the session organisation (else 404), a positive amount and, for a rejection, a nonblank reason |
| ReceiptUpdate.UpdatedRow | src/app/api/admin/receipts/update/route.ts:49-86 | the stored row keeps identity and owner, takes the form's status and amount, keeps a blank description or absent category, and derives paid_via, paid_at and the rejection fields as the route does |
| ReceiptUpdate.UpdateTouchesOneReceipt | src/app/api/admin/receipts/update/route.ts:88-91 | an update changes its own receipt and no other, and an absent amount keeps the stored positive amount |
| ReceiptUpdate.CommitRecordsChange | src/app/api/admin/receipts/update/route.ts:93-178 | a status change writes one audit entry with its action and notifies the owner for approved, paid and rejected; no change writes neither; the edits are the diff of the tracked columns |
| ReceiptUpdate.UpdatedTwice | src/app/api/admin/receipts/update/route.ts:55-86 | deriving the row again from the row a form produced gives the same row, up to the rejection time |
| ReceiptUpdate.UpdateIdempotent | src/app/api/admin/receipts/update/route.ts:88-178 | the same form sent again is accepted and writes no edit, audit entry or notification, changing only the rejection time |
| ReceiptUpdate.ResubmitAccepted | src/app/api/admin/receipts/update/route.ts:38-86 | after an accepted update the same form is accepted again and derives the same row up to the rejection time |
| ReceiptUpdate.DiffSame | src/app/api/admin/receipts/update/route.ts:136-166 | a row compared with itself yields no edits |
| ReceiptUpdate.EmptyNoteEditLooksUnchanged | src/app/api/admin/receipts/update/route.ts:156-158 | replacing a missing paid note with an empty one writes an edit whose old and new texts are both "" |
| Review.Decide | src/app/api/admin/receipts/bulk-paid/route.ts:33-39 | a decision writes its target status and keeps the receipt's id, organisation, owner and amount |
| Review.Selection | src/app/api/admin/receipts/bulk-approve/route.ts:20-27 | the selection is exactly the requested ids naming a receipt of the organisation in the starting status, each once, never more than were requested |
| Review.AuditsFor | src/app/api/admin/receipts/bulk-approve/route.ts:39-46 | a decision writes one audit entry per selected receipt |
| Review.NoticesFor | src/app/api/admin/receipts/bulk-approve/route.ts:47-55 | a decision sends one notification per selected receipt |
| Review.AuditsAt | src/app/api/admin/receipts/bulk-approve/route.ts:39-46 | the i-th audit entry names the i-th selected receipt with the decision's action and its previous and new status |
| Review.NoticesAt | src/app/api/admin/receipts/bulk-approve/route.ts:47-55 | the i-th notification goes to the owner of the i-th selected receipt |
| Review.Bulk | src/app/api/admin/receipts/bulk-approve/route.ts:13-60 | a refused bulk request changes nothing |
| Review.ApplyInOrder | src/app/api/admin/receipts/bulk-approve/route.ts:33-57 | the per-receipt loop of update, audit entry and notification reaches the same store as the whole transaction |
| Review.DecidedSnoc | src/app/api/admin/receipts/bulk-approve/route.ts:34-56 | each loop turn adds exactly one receipt's update, audit entry and notification |
| Review.DecidedEffect | src/app/api/admin/receipts/bulk-approve/route.ts:33-57 | the transaction over selected stored receipts gives exactly those rows their decided form, keeps every other row, and appends one audit entry and one notification to the owner per selected receipt, in selection order, touching no other table |
| Review.BulkSucceedsExactly | src/app/api/admin/receipts/bulk-approve/route.ts:13-31 | a bulk decision succeeds exactly for an admin-level session, 1..100 well-formed ids (and a 3..500 reason for rejection), and at least one qualifying receipt |
| Review.BulkEffect | src/app/api/admin/receipts/bulk-reject/route.ts:21-71 | exactly the qualifying requested receipts change, each once, to the decision's row; others are untouched; one audit entry and one notification per decided receipt; the count is their number |
| Review.BulkNotRepeated | src/app/api/admin/receipts/bulk-paid/route.ts:20-31 | repeating a successful bulk request finds nothing left to decide, answers 400 and changes nothing |
| Review.EmptySelection | src/app/api/admin/receipts/bulk-approve/route.ts:29-31 | when no requested id qualifies, the selection is empty |
| Review.RejectOne | src/app/api/admin/receipts/reject/route.ts:13-70 | a refused rejection changes nothing |
| Review.RejectOneIsBulkOfOne | src/app/api/admin/receipts/reject/route.ts:21-67 | rejecting one receipt has the same effect as the bulk rejection of that receipt alone |
| Review.DecidedOne | src/app/api/admin/receipts/reject/route.ts:35-67 | the transaction on one receipt sets its row, appends one audit entry and one notification to its owner |
| Review.RejectOnlySubmitted | src/app/api/admin/receipts/reject/route.ts:21-32 | a well-formed rejection succeeds exactly for a submitted receipt of the session organisation, and otherwise gives 404 with no change |
| Review.DecisionsMoveForward | src/app/api/admin/receipts/bulk-paid/route.ts:20-39 | every decision leaves its starting status, only mark-paid starts from approved, and only approve ends in approved |
| QuickActions.Click | src/components/QuickActions.tsx:24-75 | the reject button calls the reject route (or nothing), every other button posts a form to the update route |
| QuickActions.OfferedFollowsWorkflow | src/components/QuickActions.tsx:79-115 | submitted offers exactly approve and reject, approved exactly mark-paid, and paid, rejected and needs_review nothing |
| QuickActions.RejectClickNeedsReason | src/components/QuickActions.tsx:25-36 | a reject click sends a request exactly when the trimmed reason has at least 3 characters, and sends it trimmed |
| QuickActions.RejectClickAccepted | src/components/QuickActions.tsx:33-37 | a reason the button sends, when at most 500 characters, rejects a submitted receipt of the session organisation with that reason |
| QuickActions.ApproveClickClearsPayment | src/components/QuickActions.tsx:50-63 | approving through the button approves the receipt, keeps its amount, and clears its paid note and paid time |
| QuickActions.MarkPaidClickRecordsMethod | src/components/QuickActions.tsx:52-58 | marking paid through the button stores a nonempty method: the stored one, or "venmo" when there was none, with a paid time |
| QuickActions.ZeroCentReceiptNotApprovable | src/components/QuickActions.tsx:50-63 | a receipt stored with 0 cents cannot be approved by the button: the update route answers "Invalid amount." |
| CsvExport.DoubleQuotes | src/app/api/admin/receipts/export/route.ts:84 | escaping never shortens a value |
| CsvExport.DoubleQuotesAddsOnlyQuotes | src/app/api/admin/receipts/export/route.ts:84 | every character of the escaped value other than a quote comes from the value |
| CsvExport.Cell | src/app/api/admin/receipts/export/route.ts:83-86 | every cell is wrapped in double quotes |
| CsvExport.CellReadsBack | src/app/api/admin/receipts/export/route.ts:83-86 | the quoted cell, with its inner quotes doubled, reads back as exactly the value it was written from |
| CsvExport.ParseTextOf | src/app/api/admin/receipts/export/route.ts:80-89 | cells joined by "," and rows by "\n", with no trailing newline, read back as the same rows, whatever quotes, commas or newlines the values hold |
| CsvExport.ToDateOrNull | src/app/api/admin/receipts/export/route.ts:15-19 | an empty or unparsable date is no bound, and any other date is the instant it parses to |
| CsvExport.Columns | src/app/api/admin/receipts/export/route.ts:66-77 | each receipt gives one cell per header column |
| CsvExport.Body | src/app/api/admin/receipts/export/route.ts:66-77 | the data rows are the selected receipts' cells, one row per receipt in order |
| CsvExport.SelectedExactly | src/app/api/admin/receipts/export/route.ts:37-51 | exactly the receipts of the organisation with the requested status (any when empty) created within the inclusive bounds are selected |
| CsvExport.Export | src/app/api/admin/receipts/export/route.ts:21-32 | a non-admin session is refused before the filters are read, and filters failing the schema give 400 "Invalid filters." |
| CsvExport.ExportSucceedsExactly | src/app/api/admin/receipts/export/route.ts:22 | the export is produced exactly for an admin session with valid filters; exec and treasurer sessions are refused |
| CsvExport.MissingParameterRefused | src/app/api/admin/receipts/export/route.ts:6-13 | a request lacking one of status, from or to is refused with 400, because a missing parameter reads as null |
| CsvExport.ExportReadsBack | src/app/api/admin/receipts/export/route.ts:37-89 | the file reads back as the 10-column header followed by one 10-cell row per selected receipt, in table order |
| Storage.ExtensionFor | src/lib/storage.ts:12-19 | the extension is always one of jpg, png, heic, heif, webp, bin |
| Storage.ExtensionExactly | src/lib/storage.ts:12-19 | jpeg maps to jpg, png, heic, heif and webp to themselves, and every other type to bin |
| Storage.UploadKey | src/lib/storage.ts:22-24 | an upload key starts with the organisation id and a slash |
| Storage.LogoKey | src/lib/storage.ts:53-55 | a logo key starts with "logo-" and the organisation id |
| Storage.SignedViewUrl | src/lib/storage.ts:36-44 | a URL is issued exactly when the key passes the organisation's prefix check, for that key with a 600-second lifetime; otherwise Unauthorized |
| Storage.OwnKeysViewable | src/lib/storage.ts:22-40 | the upload and logo keys built for an organisation always pass its own check |
| Storage.OtherOrgKeysRefused | src/lib/storage.ts:36-40 | with uuid organisation ids, another organisation's upload and logo keys are refused |
| Storage.LogoPrefixIsLoose | src/lib/storage.ts:37 | the logo branch is a bare prefix test: organisation "a" passes for the logo key of organisation "ab" |
| Storage.UploadKeyInjective | src/lib/storage.ts:22-24 | for uuid ids, an upload key determines its organisation, receipt and extension |
| PhotoAccess.ViewUrl | src/app/api/storage/view-url/route.ts:12-42 | a missing or empty key gives 400, and an issued URL is for that key with a 600-second lifetime |
| PhotoAccess.ViewUrlExactly | src/app/api/storage/view-url/route.ts:14-39 | a URL is issued exactly for a nonempty key of a receipt the session may see that also passes the prefix check; no session gives Unauthorized, no such receipt 404 |
| PhotoAccess.MemberSeesOnlyOwnPhotos | src/app/api/storage/view-url/route.ts:21-34 | a member obtains URLs only for photos of their own receipts in their own organisation |
| PhotoAccess.ForeignKeyStopsAtPrefixCheck | src/app/api/storage/view-url/route.ts:36-39 | a receipt naming another organisation's upload key passes the lookup and is refused by the prefix check |
| PhotoAccess.OwnPhotoViewable | src/app/api/storage/view-url/route.ts:21-39 | a session obtains a URL for a photo uploaded to its own organisation and recorded on its own receipt |
| ProfileRoute.GetProfile | src/app/api/profile/route.ts:16-45 | a profile is shown only to a profile-backed session |
| ProfileRoute.GetMapsColumns | src/app/api/profile/route.ts:36-44 | GET succeeds exactly when the session user has a profile and a user row, and shows each stored column under its camelCase name, the role by name and the email |
| ProfileRoute.StoredText | src/app/api/profile/route.ts:65-69 | a null or blank phone or handle is stored as null, anything else trimmed and nonempty |
| ProfileRoute.PatchProfile | src/app/api/profile/route.ts:47-73 | a refused PATCH changes nothing, and no PATCH touches users or receipts |
| ProfileRoute.PatchSucceedsExactly | src/app/api/profile/route.ts:6-14 | PATCH succeeds exactly for a profile-backed session and a body within the bounds; no session gives Unauthorized, a bad body 400 |
| ProfileRoute.PatchChangesOnlyPresentFields | src/app/api/profile/route.ts:56-69 | only the session user's profile changes, and in it only the fields the body carries, names trimmed, organisation and role kept |
| ProfileRoute.EmptyPatchKeepsProfile | src/app/api/profile/route.ts:56-69 | an empty body succeeds and changes nothing |
| ProfileRoute.PatchIdempotent | src/app/api/profile/route.ts:56-69 | applying the same body twice gives the same profile as once |
| ProfileRoute.GetAfterPatch | src/app/api/profile/route.ts:36-69 | what PATCH stored, GET shows: trimmed names within 100 characters, a phone within 30, a method from the five |
| ProfileRoute.BlankNameStoredEmpty | src/app/api/profile/route.ts:8-9 | a first name of spaces passes the length check and is stored empty, because trimming follows the check |
| ApprovedList.DropLeading | src/components/ApprovedReceiptsList.tsx:52-53 | one leading sign is removed when present, and the handle is otherwise unchanged |
| ApprovedList.PaymentInfoNeedsHandle | src/components/ApprovedReceiptsList.tsx:50 | a payment line is shown exactly when the handle is present and not whitespace only |
| ApprovedList.PaymentInfoIgnoresCase | src/components/ApprovedReceiptsList.tsx:51 | the method is compared without regard to case |
| ApprovedList.VenmoSignOptional | src/components/ApprovedReceiptsList.tsx:52 | a Venmo handle reads "Venmo @" and the handle, with or without its leading "@" |
| ApprovedList.CashAppSignOptional | src/components/ApprovedReceiptsList.tsx:53 | a CashApp handle reads "CashApp $" and the handle, with or without its leading "$" |
| ApprovedList.UnknownMethodShowsHandle | src/components/ApprovedReceiptsList.tsx:56 | a method other than the four known ones shows the handle unchanged |
| ApprovedList.Find | src/components/ApprovedReceiptsList.tsx:69 | the lookup finds the group with the key, or reports that no group has it |
| ApprovedList.FilterMembers | src/components/ApprovedReceiptsList.tsx:80-82 | a group's receipts are exactly the listed receipts with its key |
| ApprovedList.CollectInvariant | src/components/ApprovedReceiptsList.tsx:60-83 | after the loop there is one group per key, each holding exactly its key's receipts in order with their total, every receipt is covered, and the totals add up |
| ApprovedList.AddKeepsInvariant | src/components/ApprovedReceiptsList.tsx:61-83 | one loop turn keeps that invariant for the receipts seen so far |
| ApprovedList.Insert | src/components/ApprovedReceiptsList.tsx:84 | inserting a group into the sorted list adds exactly that group |
| ApprovedList.SortByName | src/components/ApprovedReceiptsList.tsx:84 | sorting the groups is a permutation of them |
| ApprovedList.SortSorted | src/components/ApprovedReceiptsList.tsx:84 | the sorted groups are in name order |
| ApprovedList.SortSum | src/components/ApprovedReceiptsList.tsx:84 | sorting keeps the sum of the group totals |
| ApprovedList.NameLeqTotal | src/components/ApprovedReceiptsList.tsx:84 | any two names are comparable |
| ApprovedList.NameLeqTrans | src/components/ApprovedReceiptsList.tsx:84 | name order is transitive |
| ApprovedList.GroupBySubmitterCorrect | src/components/ApprovedReceiptsList.tsx:59-85 | the groups are sorted by name with distinct keys; each receipt is in exactly the group of its key; each group's total is the sum of its receipts; the group totals add up to the sum over all receipts |
| AdminPage.AdminReceipts | src/app/app/admin/page.tsx:9-52 | the page is refused exactly when requireAdminRole refuses the session |
| AdminPage.StatusFilterDefault | src/app/app/admin/page.tsx:7-21 | the tab is the requested status when it names one of the five, otherwise submitted |
| AdminPage.ByStatusIsSum | src/app/app/admin/page.tsx:45-51 | a status's total is the sum of the amounts of the receipts with that status |
| AdminPage.StatusTotalsAddUp | src/app/app/admin/page.tsx:44-51 | the five status totals add up to the total of all receipts |
| AdminPage.PageTotals | src/app/app/admin/page.tsx:23-52 | the list is exactly the organisation's receipts with the tab's status; totalAll is the organisation's sum; the status totals add up to it; outstanding is the approved total, 0 when none |
| ReceiptsPage.ReceiptsFor | src/app/app/receipts/page.tsx:11-61 | the page is refused exactly without a profile-backed session |
| ReceiptsPage.StatusFilterValidated | src/app/app/receipts/page.tsx:9-23 | the filter is the requested status exactly when it names one of the five, and none otherwise |
| ReceiptsPage.PageScoped | src/app/app/receipts/page.tsx:25-50 | the list is the organisation's receipts, only the user's own without viewing rights, with the filter's status; totals are computed exactly for roles without viewing rights |
| ReceiptsPage.TotalsAreSums | src/app/app/receipts/page.tsx:49-61 | total is the sum of the listed amounts, and submitted, approved and paid the sums over the receipts with that status |
| ReceiptsPage.TotalsBounded | src/app/app/receipts/page.tsx:52-57 | with no negative amount, submitted + approved + paid never exceeds the total |
| ReceiptsPage.MemberTotalsOfPage | src/app/app/receipts/page.tsx:49-61 | a member's totals describe exactly the receipts on their page, all their own |

## Left out

- Cryptography is symbolic. HS256 signing by jose, SHA-256 token hashing and the password hash are terms that only verify against themselves. `randomBytes`, `Math.random` and `crypto.randomUUID` are parameters.
- The password library is not part of this model. Verification accepts exactly the password the stored hash was made from.
- Prisma, the pg pool and the Supabase storage client are not modelled, and neither is the network. Each transaction is one atomic step; isolation levels and concurrent interleavings are not modelled.
- Email delivery is reduced to a boolean answer from the mailer. Environment access is reduced to optional values.
- Audit and notification rows are appended as records of kind, actor, receipt and status. Their titles, bodies and metadata texts are not modelled.
- Receipts.CreateReceipt: `Number()` and `Math.round(x * 100)` are not modelled. The route receives what `Number()` yields, as "not finite" or as a sign with rounded cents. ReceiptUpdate.Update takes the same parameter.
- CsvExport.Columns: `toISOString` is not modelled. Instants are written as decimal milliseconds, so the cells' contents, not their format, are what the model states.
- ReceiptUpdate.RouteEdits and ReceiptUpdate.TimestampText: the paid_at edit records its old and new values as decimal milliseconds, not the ISO-8601 text `toISOString` writes. Whether a paid_at edit is written is as in the route, because `toISOString` is one-to-one on milliseconds.
- Jwt.UnsetSecretIsEmptyKey: how the HMAC library treats a zero-length key is not modelled. A WebCrypto build may refuse such a key, and then every token is rejected; the lemma states only what the model does with the empty key.
- InviteCodes.ListInviteCodes: invite codes carry no creation time in the model. The created_at-descending order is the database's answer, taken as a parameter; ListInviteCodes returns the query's answer, which keeps it (OrgCodesKeepOrder, ListInviteCodesNewestFirst).
- CsvExport.ToDateOrNull: `new Date(value)` is a parameter, the instant it parses to. A date-only "to" bound therefore means midnight at its start, as in the route.
- Common.ToLower: only ASCII letters are folded. Unicode case mapping is not modelled.
- The zod email, uuid and datetime checks are approximated by shape predicates: an '@' with nonempty sides and no whitespace; 8-4-4-4-12 hex digits.
- String lengths are counted in Dafny characters, while zod counts UTF-16 code units. The two differ only for characters outside the Basic Multilingual Plane.
- ApprovedList.NameLeq: `localeCompare` is replaced by code-unit lexicographic order. The sort is stable, as `Array.prototype.sort` is.
- ApprovedList.NameOf: the "Unknown" fallback is left out, because the email it stands behind is a required column and never undefined.
- Review.Bulk: the database's order for `findMany` is not modelled. Selected receipts are processed in first-request order, which is one order the database may return; the final store does not depend on it.
- Malformed JSON bodies and members of the wrong JSON type are not modelled. Route inputs are typed values, with optional members as `Option`.
- The upload-URL, logo-URL, notifications, audit-history, org-settings and logout routes and the React components without decision logic are not part of this model. `storageService.createSignedUploadUrl` and `createOrgLogoUploadUrl` appear only through the keys they build.
- Storage.SignedViewUrl: the Supabase request behind a signed URL is not modelled. A signed URL is the key it is for and its lifetime, and the storage service's own failures are left out.
- Storage.OtherOrgKeysRefused: stated for uuid organisation ids only. For ids of different lengths the logo branch is loose, as Storage.LogoPrefixIsLoose shows.
- Json.Object: its own contract states only the braces. What the literal says is stated by Json.ObjectReadsBack, which reads back exactly the members the object was written from.
- Json.Escape and Uri.EncodeUriComponent: their own contracts state only that the output is no shorter. What the output means is stated by Json.UnescapeEscape and Json.ReadQuote, and by Uri.EncodingIsQuerySafe and Uri.EncodeUnreservedIdentity.
- Display formatting is not modelled: `Intl.NumberFormat`, `toFixed` and `toLocaleDateString`.
- `prisma/seed.ts` is not part of this model.

## Findings

| source | as written | input that shows it | evidently intended | confidence | as-written member | corrected member |
|---|---|---|---|---|---|---|
| src/app/api/auth/forgot-password/route.ts:68-72 | `NEXTAUTH_URL ?? VERCEL_URL ? "https://" + VERCEL_URL : origin ?? localhost` parses as `(NEXTAUTH_URL ?? VERCEL_URL) ? … : …`, so a set NEXTAUTH_URL selects the Vercel branch | NEXTAUTH_URL = "https://rush.example.org", VERCEL_URL unset: the mailed link starts "https://undefined/reset-password" | NEXTAUTH_URL when set, else the Vercel host, else the request origin, else localhost | high (JavaScript operator precedence); not executed | ForgotPassword.MailedLinkWithConfiguredUrl | ForgotPassword.RequestResetIntended |

=== FILE: admin_layout.dfy ===
/** The admin-area layout (src/app/app/admin/layout.tsx): a second check, against the stored
    profile, behind the gate's token-based check. */
module AdminLayout {
  import opened Common
  import opened Permissions
  import opened Jwt
  import opened Auth
  import Db
  import Gate

  datatype LayoutDecision = Render | RedirectTo(url: string)

  /** The layout of every /app/admin page, run on the server for each render. */
  function Layout(ctx: Ctx, profiles: map<Db.UserId, Db.Profile>): (d: LayoutDecision)
    ensures d == Render ==> GetCurrentUserAndProfile(ctx, profiles).Some?
                            && CanAccessAdmin(GetCurrentUserAndProfile(ctx, profiles).value.role)
    ensures d.RedirectTo? ==> d.url in {"/login?next=/app/admin", "/app"}
  {
    match SessionUserId(ctx)
    case None => RedirectTo("/login?next=/app/admin")
    case Some(userId) =>
      if userId == "" then RedirectTo("/login?next=/app/admin")
      else if userId !in profiles || !CanAccessAdmin(profiles[userId].role) then RedirectTo("/app")
      else Render
  }

  /** The layout renders exactly for a profile-backed session whose stored role may access
      the admin area; otherwise it sends the user to login (no session) or home. */
  lemma LayoutDecisionExactly(ctx: Ctx, profiles: map<Db.UserId, Db.Profile>)
    ensures Layout(ctx, profiles) == Render <==>
              var s := GetCurrentUserAndProfile(ctx, profiles);
              s.Some? && CanAccessAdmin(s.value.role)
    ensures GetSessionUser(ctx).None? ==> Layout(ctx, profiles) == RedirectTo("/login?next=/app/admin")
    ensures GetSessionUser(ctx).Some? && GetSessionUser(ctx).value.userId != ""
            && GetCurrentUserAndProfile(ctx, profiles).None?
            ==> Layout(ctx, profiles) == RedirectTo("/app")
  {
  }

  /** The gate trusts the token's role while the layout trusts the stored role: a user
      demoted to member whose token still says admin is forwarded by the gate and then
      sent home by the layout. */
  lemma DemotedUserStoppedByLayout(p: Payload, key: string, nowMs: int, production: bool,
                                  headers: map<string, string>, profiles: map<Db.UserId, Db.Profile>)
    requires nowMs / 1000 < p.exp && p.role == Admin
    requires p.sub != "" && p.sub in profiles && profiles[p.sub].role == Member
    ensures var cookie := Some(Jws(p, Hs256(key, p)));
            && Gate.Gated(Gate.Request("/app/admin", cookie, headers), key, nowMs, production).Forward?
            && Layout(Ctx(cookie, key, nowMs, production), profiles) == RedirectTo("/app")
  {
    assert !Gate.IsPublic("/app/admin") && Gate.Matched("/app/admin");
  }
}

=== FILE: admin_page.dfy ===
/** The admin receipts page (src/app/app/admin/page.tsx): the status tab it shows and the
    cent totals of its summary cards. */
module AdminPage {
  import opened Common
  import opened Auth
  import opened Db
  import Receipts

  /** The tab: the requested status when it is one of the five, otherwise "submitted". */
  function StatusFilter(param: Option<string>): Status {
    if param.Some? && param.value != "" && ParseStatus(param.value).Some? then ParseStatus(param.value).value
    else Submitted
  }

  /** A status's entry in the totals object, 0 when it has none. */
  function Get(m: map<Status, int>, st: Status): int {
    if st in m then m[st] else 0
  }

  /** The reduce over the organisation's receipts that adds each amount to its status. */
  function ByStatus(rs: seq<Receipt>): map<Status, int> {
    if rs == [] then map[]
    else
      var m := ByStatus(rs[..|rs| - 1]);
      var r := rs[|rs| - 1];
      m[r.status := Get(m, r.status) + r.amountCents]
  }

  datatype Page = Page(
    filter: Status,
    listed: seq<Receipt>,
    totalAll: int,
    byStatus: map<Status, int>,
    outstanding: int)

  /** The page for a request. `rows` is the receipts table in descending creation order. */
  function AdminReceipts(ctx: Ctx, param: Option<string>, rows: seq<Receipt>): (r: Result<Page>)
    ensures r.Fail? <==> RequireAdminRole(ctx).Fail?
    ensures r.Fail? ==> r.failure == Forbidden
  {
    match RequireAdminRole(ctx)
    case Fail(f) => Fail(f)
    case Ok(session) =>
      var filter := StatusFilter(param);
      var all := Receipts.Where(rows, session.orgId, None, None);
      var byStatus := ByStatus(all);
      Ok(Page(filter, Receipts.Where(rows, session.orgId, None, Some(filter)),
              Receipts.TotalCents(all), byStatus, Get(byStatus, Approved)))
  }

  // ---------------------------------------------------------------------------
  // Properties

  /** The tab is the requested status exactly when that names a status; anything else,
      including no parameter, shows submitted receipts. */
  lemma StatusFilterDefault(param: Option<string>)
    ensures param.Some? && ParseStatus(param.value).Some? ==> StatusFilter(param) == ParseStatus(param.value).value
    ensures param.None? || ParseStatus(param.value).None? ==> StatusFilter(param) == Submitted
    ensures forall st :: StatusFilter(Some(StatusName(st))) == st
  {
    forall st: Status
      ensures StatusFilter(Some(StatusName(st))) == st
    {
      ParseStatusName(st);
    }
  }

  /** A status's total is the sum of the amounts of the receipts with that status. */
  lemma {:induction false} ByStatusIsSum(rs: seq<Receipt>, org: OrgId, st: Status)
    requires forall r :: r in rs ==> r.orgId == org
    ensures Get(ByStatus(rs), st) == Receipts.TotalCents(Receipts.Where(rs, org, None, Some(st)))
  {
    if rs != [] {
      var prefix := rs[..|rs| - 1];
      var r := rs[|rs| - 1];
      assert rs == prefix + [r];
      ByStatusIsSum(prefix, org, st);
      ByStatusSnoc(prefix, r, st);
      Receipts.TotalWhereSnoc(prefix, r, org, st);
    }
  }

  /** One more receipt raises its own status's total by its amount and no other. */
  lemma ByStatusSnoc(prefix: seq<Receipt>, r: Receipt, st: Status)
    ensures Get(ByStatus(prefix + [r]), st) == Get(ByStatus(prefix), st) + (if r.status == st then r.amountCents else 0)
  {
    assert (prefix + [r])[..|prefix|] == prefix;
  }

  /** The five status totals add up to the total of all receipts. */
  lemma {:induction false} StatusTotalsAddUp(rs: seq<Receipt>)
    ensures Get(ByStatus(rs), Submitted) + Get(ByStatus(rs), Approved) + Get(ByStatus(rs), Paid)
            + Get(ByStatus(rs), Rejected) + Get(ByStatus(rs), NeedsReview) == Receipts.TotalCents(rs)
  {
    if rs != [] {
      var prefix := rs[..|rs| - 1];
      var r := rs[|rs| - 1];
      assert rs == prefix + [r];
      StatusTotalsAddUp(prefix);
      Receipts.TotalCentsAppend(prefix, [r]);
      assert Receipts.TotalCents([r]) == r.amountCents;
      ByStatusSnoc(prefix, r, Submitted);
      ByStatusSnoc(prefix, r, Approved);
      ByStatusSnoc(prefix, r, Paid);
      ByStatusSnoc(prefix, r, Rejected);
      ByStatusSnoc(prefix, r, NeedsReview);
    }
  }

  /** The page lists exactly the organisation's receipts with the tab's status; the total
      is over all the organisation's receipts, the status totals add up to it, the card of
      the tab's status is the total of the listed receipts, and outstanding is the approved
      total. */
  lemma PageTotals(ctx: Ctx, param: Option<string>, rows: seq<Receipt>)
    requires RequireAdminRole(ctx).Ok?
    ensures var org := GetSessionUser(ctx).value.orgId;
            var p := AdminReceipts(ctx, param, rows).value;
            && (forall x :: x in p.listed <==> x in rows && x.orgId == org && x.status == p.filter)
            && p.totalAll == Receipts.TotalCents(Receipts.Where(rows, org, None, None))
            && Get(p.byStatus, Submitted) + Get(p.byStatus, Approved) + Get(p.byStatus, Paid)
               + Get(p.byStatus, Rejected) + Get(p.byStatus, NeedsReview) == p.totalAll
            && Get(p.byStatus, p.filter) == Receipts.TotalCents(p.listed)
            && p.outstanding == Receipts.TotalCents(Receipts.Where(rows, org, None, Some(Approved)))
  {
    var org := GetSessionUser(ctx).value.orgId;
    var p := AdminReceipts(ctx, param, rows).value;
    var all := Receipts.Where(rows, org, None, None);
    StatusTotalsAddUp(all);
    ByStatusIsSum(all, org, p.filter);
    ByStatusIsSum(all, org, Approved);
    Receipts.WhereStatusRefines(rows, org, None, p.filter);
    Receipts.WhereStatusRefines(rows, org, None, Approved);
  }
}

=== FILE: approved_list.dfy ===
/** The approved-receipts list (src/components/ApprovedReceiptsList.tsx): the payment line
    shown for a submitter, and the grouping of receipts by submitter with per-group totals,
    ordered by name. */
module ApprovedList {
  import opened Common

  // ---------------------------------------------------------------------------
  // Payment line

  /** Drops one leading `c`, as replace(/^c/, "") does. */
  function DropLeading(c: char, s: string): (r: string)
    ensures |s| > 0 && s[0] == c ==> r == s[1..]
    ensures |s| == 0 || s[0] != c ==> r == s
  {
    if |s| > 0 && s[0] == c then s[1..] else s
  }

  /** formatPaymentInfo: nothing for a missing or blank handle; otherwise the handle labelled
      by the method, compared without case, and the bare handle for any other method. */
  function PaymentInfo(via: Option<string>, handle: Option<string>): Option<string> {
    if handle.None? || Trim(handle.value) == "" then None
    else Some(Labelled(ToLower(via.GetOr("")), handle.value))
  }

  /** The handle labelled by a lower-cased method name. */
  function Labelled(m: string, h: string): string {
    if m == "venmo" then "Venmo @" + DropLeading('@', h)
    else if m == "cashapp" then "CashApp $" + DropLeading('$', h)
    else if m == "zelle" then "Zelle " + h
    else if m == "paypal" then "PayPal " + h
    else h
  }

  /** A line is shown exactly when the handle has a non-whitespace character. */
  lemma PaymentInfoNeedsHandle(via: Option<string>, handle: Option<string>)
    ensures PaymentInfo(via, handle).None? <==> handle.None? || IsBlank(handle.value)
  {
    if handle.Some? {
      TrimEmptyIffBlank(handle.value);
    }
  }

  /** The method is compared without regard to case. */
  lemma PaymentInfoIgnoresCase(via: string, handle: Option<string>)
    ensures PaymentInfo(Some(ToLower(via)), handle) == PaymentInfo(Some(via), handle)
  {
    ToLowerIdempotent(via);
  }

  /** A handle with a non-whitespace character stays so behind a sign. */
  lemma SignedHandleShown(c: char, h: string)
    requires !IsBlank(h)
    ensures Trim(h) != "" && Trim([c] + h) != ""
    ensures ([c] + h)[1..] == h
  {
    TrimEmptyIffBlank(h);
    var i :| 0 <= i < |h| && !IsJsWhitespace(h[i]);
    assert ([c] + h)[i + 1] == h[i];
    TrimEmptyIffBlank([c] + h);
  }

  lemma KnownMethodNames()
    ensures ToLower("venmo") == "venmo" && ToLower("cashapp") == "cashapp"
  {
    ToLowerOfLower("venmo");
    ToLowerOfLower("cashapp");
  }

  /** Venmo handles read the same with or without their "@". */
  lemma VenmoSignOptional(h: string)
    requires !IsBlank(h) && (|h| == 0 || h[0] != '@')
    ensures PaymentInfo(Some("venmo"), Some("@" + h)) == PaymentInfo(Some("venmo"), Some(h)) == Some("Venmo @" + h)
  {
    KnownMethodNames();
    SignedHandleShown('@', h);
  }

  /** CashApp handles read the same with or without their "$". */
  lemma CashAppSignOptional(h: string)
    requires !IsBlank(h) && (|h| == 0 || h[0] != '$')
    ensures PaymentInfo(Some("cashapp"), Some("$" + h)) == PaymentInfo(Some("cashapp"), Some(h)) == Some("CashApp $" + h)
  {
    KnownMethodNames();
    SignedHandleShown('$', h);
  }

  /** A method outside the four known ones shows the handle as it is. */
  lemma UnknownMethodShowsHandle(via: Option<string>, h: string)
    requires !IsBlank(h)
    requires ToLower(via.GetOr("")) !in {"venmo", "cashapp", "zelle", "paypal"}
    ensures PaymentInfo(via, Some(h)) == Some(h)
  {
    TrimEmptyIffBlank(h);
  }

  // ---------------------------------------------------------------------------
  // Grouping

  datatype SubmitterProfile = SubmitterProfile(
    firstName: string,
    lastName: string,
    paymentMethod: Option<string>,
    paymentHandle: Option<string>)

  /** The receipt's user row as the list receives it. */
  datatype Submitter = Submitter(id: Option<string>, email: string, profile: Option<SubmitterProfile>)

  datatype Item = Item(receiptId: string, amountCents: int, userId: Option<string>, user: Submitter)

  datatype Group = Group(
    userId: string,
    name: string,
    email: string,
    paymentMethod: Option<string>,
    paymentHandle: Option<string>,
    totalCents: int,
    items: seq<Item>)

  /** The grouping key: the receipt's user id, else the user row's id, else the email. */
  function KeyOf(x: Item): string {
    if x.userId.Some? then x.userId.value
    else if x.user.id.Some? then x.user.id.value
    else x.user.email
  }

  /** The full name when both parts are nonempty, otherwise the email. */
  function NameOf(x: Item): string {
    match x.user.profile
    case Some(p) => if p.firstName != "" && p.lastName != "" then p.firstName + " " + p.lastName else x.user.email
    case None => x.user.email
  }

  /** The group a submitter's first receipt opens. */
  function Opened(x: Item): Group {
    var p := x.user.profile;
    Group(KeyOf(x), NameOf(x), x.user.email,
          if p.Some? then p.value.paymentMethod else None,
          if p.Some? then p.value.paymentHandle else None,
          x.amountCents, [x])
  }

  /** The header of a group is the one its first receipt opened. */
  predicate OpenedBy(g: Group, x: Item) {
    Opened(x).(totalCents := g.totalCents, items := g.items) == g
  }

  /** The index of the group with key `k`, or -1. */
  function Find(gs: seq<Group>, k: string): (i: int)
    ensures -1 <= i < |gs|
    ensures i >= 0 ==> gs[i].userId == k
    ensures i < 0 ==> forall j :: 0 <= j < |gs| ==> gs[j].userId != k
  {
    if gs == [] then -1
    else if gs[0].userId == k then 0
    else
      var j := Find(gs[1..], k);
      if j < 0 then -1 else j + 1
  }

  /** One step of the loop: add the receipt to its submitter's group, opening it if new. */
  function Add(gs: seq<Group>, x: Item): seq<Group> {
    var i := Find(gs, KeyOf(x));
    if i < 0 then gs + [Opened(x)]
    else gs[i := gs[i].(totalCents := gs[i].totalCents + x.amountCents, items := gs[i].items + [x])]
  }

  /** The map's values in insertion order after the loop. */
  function Collect(items: seq<Item>): seq<Group> {
    if items == [] then [] else Add(Collect(items[..|items| - 1]), items[|items| - 1])
  }

  /** The receipts with key `k`, in list order. */
  function Filter(items: seq<Item>, k: string): seq<Item> {
    if items == [] then []
    else Filter(items[..|items| - 1], k) + (if KeyOf(items[|items| - 1]) == k then [items[|items| - 1]] else [])
  }

  /** The filter holds exactly the receipts with the key. */
  lemma {:induction false} FilterMembers(items: seq<Item>, k: string)
    ensures forall x :: x in Filter(items, k) <==> x in items && KeyOf(x) == k
  {
    if items != [] {
      var n := |items| - 1;
      FilterMembers(items[..n], k);
      assert items == items[..n] + [items[n]];
    }
  }

  /** No receipt with the key: nothing is filtered. */
  lemma {:induction false} FilterEmpty(items: seq<Item>, k: string)
    requires forall y :: y in items ==> KeyOf(y) != k
    ensures Filter(items, k) == []
  {
    if items != [] {
      FilterEmpty(items[..|items| - 1], k);
    }
  }

  function TotalOf(items: seq<Item>): int {
    if items == [] then 0 else TotalOf(items[..|items| - 1]) + items[|items| - 1].amountCents
  }

  function SumTotals(gs: seq<Group>): int {
    if gs == [] then 0 else gs[0].totalCents + SumTotals(gs[1..])
  }

  predicate DistinctKeys(gs: seq<Group>) {
    forall i, j :: 0 <= i < j < |gs| ==> gs[i].userId != gs[j].userId
  }

  /** What each collected group holds: the receipts with its key, their total, and the header
      of the first of them. */
  predicate Faithful(g: Group, items: seq<Item>) {
    && g.items == Filter(items, g.userId)
    && g.items != []
    && g.totalCents == TotalOf(g.items)
    && OpenedBy(g, g.items[0])
  }

  lemma SumAppend(gs: seq<Group>, g: Group)
    ensures SumTotals(gs + [g]) == SumTotals(gs) + g.totalCents
  {
    if gs != [] {
      assert (gs + [g])[1..] == gs[1..] + [g];
      SumAppend(gs[1..], g);
    }
  }

  lemma {:induction false} SumUpdate(gs: seq<Group>, i: int, g: Group)
    requires 0 <= i < |gs|
    ensures SumTotals(gs[i := g]) == SumTotals(gs) - gs[i].totalCents + g.totalCents
  {
    if i > 0 {
      assert gs[i := g][1..] == gs[1..][i - 1 := g];
      SumUpdate(gs[1..], i - 1, g);
    }
  }

  /** The loop keeps one group per key, each faithful to the receipts seen so far, covering
      every receipt seen, with totals adding up to theirs. */
  lemma {:induction false} CollectInvariant(items: seq<Item>)
    ensures Collected(Collect(items), items)
  {
    if items != [] {
      var prefix := items[..|items| - 1];
      var x := items[|items| - 1];
      assert items == prefix + [x];
      CollectInvariant(prefix);
      AddKeepsInvariant(Collect(prefix), prefix, x);
    }
  }

  /** The invariant of the loop over the receipts seen so far. */
  predicate Collected(gs: seq<Group>, items: seq<Item>) {
    && DistinctKeys(gs)
    && (forall j :: 0 <= j < |gs| ==> Faithful(gs[j], items))
    && (forall y :: y in items ==> Find(gs, KeyOf(y)) >= 0)
    && SumTotals(gs) == TotalOf(items)
  }

  lemma AddKeepsInvariant(gs: seq<Group>, prefix: seq<Item>, x: Item)
    requires Collected(gs, prefix)
    ensures Collected(Add(gs, x), prefix + [x])
  {
    if Find(gs, KeyOf(x)) < 0 {
      AddNew(gs, prefix, x);
    } else {
      AddExisting(gs, prefix, x);
    }
  }

  /** The receipts with a key after one more receipt. */
  lemma FilterSnoc(prefix: seq<Item>, x: Item, k: string)
    ensures Filter(prefix + [x], k) == Filter(prefix, k) + (if KeyOf(x) == k then [x] else [])
    ensures TotalOf(prefix + [x]) == TotalOf(prefix) + x.amountCents
  {
    assert (prefix + [x])[..|prefix|] == prefix;
  }

  lemma AddNew(gs: seq<Group>, prefix: seq<Item>, x: Item)
    requires Collected(gs, prefix)
    requires Find(gs, KeyOf(x)) < 0
    ensures Collected(Add(gs, x), prefix + [x])
  {
    var hs := Add(gs, x);
    assert hs == gs + [Opened(x)];
    SumAppend(gs, Opened(x));
    FilterSnoc(prefix, x, KeyOf(x));
    AddNewFaithful(gs, prefix, x);
    AddNewCovers(gs, prefix, x);
  }

  lemma AddNewFaithful(gs: seq<Group>, prefix: seq<Item>, x: Item)
    requires forall j :: 0 <= j < |gs| ==> Faithful(gs[j], prefix)
    requires forall y :: y in prefix ==> Find(gs, KeyOf(y)) >= 0
    requires Find(gs, KeyOf(x)) < 0
    ensures var hs := gs + [Opened(x)];
            forall j :: 0 <= j < |hs| ==> Faithful(hs[j], prefix + [x])
  {
    var hs := gs + [Opened(x)];
    forall j | 0 <= j < |hs|
      ensures Faithful(hs[j], prefix + [x])
    {
      FilterSnoc(prefix, x, hs[j].userId);
      if j == |gs| {
        FilterEmpty(prefix, KeyOf(x));
      }
    }
  }

  lemma AddNewCovers(gs: seq<Group>, prefix: seq<Item>, x: Item)
    requires forall y :: y in prefix ==> Find(gs, KeyOf(y)) >= 0
    ensures var hs := gs + [Opened(x)];
            forall y :: y in prefix + [x] ==> Find(hs, KeyOf(y)) >= 0
  {
    var hs := gs + [Opened(x)];
    assert hs[..|gs|] == gs && hs[|gs|].userId == KeyOf(x);
    forall y | y in prefix + [x]
      ensures Find(hs, KeyOf(y)) >= 0
    {
      if y in prefix {
        FindInPrefix(gs, hs, KeyOf(y));
      }
    }
  }

  lemma AddExisting(gs: seq<Group>, prefix: seq<Item>, x: Item)
    requires Collected(gs, prefix)
    requires Find(gs, KeyOf(x)) >= 0
    ensures Collected(Add(gs, x), prefix + [x])
  {
    var i := Find(gs, KeyOf(x));
    var g := gs[i].(totalCents := gs[i].totalCents + x.amountCents, items := gs[i].items + [x]);
    var hs := gs[i := g];
    AddFound(gs, x, i, g);
    AddExistingSum(gs, prefix, x, i, g);
    AddExistingFaithful(gs, prefix, x, i, g, hs);
    AddExistingCovers(gs, prefix, x, i, g, hs);
    DistinctUnderUpdate(gs, i, g, hs);
    assert Collected(hs, prefix + [x]);
  }

  /** A receipt with a known key joins the group at its index. */
  lemma AddFound(gs: seq<Group>, x: Item, i: int, g: Group)
    requires i == Find(gs, KeyOf(x)) >= 0
    requires g == gs[i].(totalCents := gs[i].totalCents + x.amountCents, items := gs[i].items + [x])
    ensures Add(gs, x) == gs[i := g]
  {
  }

  lemma AddExistingSum(gs: seq<Group>, prefix: seq<Item>, x: Item, i: int, g: Group)
    requires SumTotals(gs) == TotalOf(prefix)
    requires 0 <= i < |gs|
    requires g == gs[i].(totalCents := gs[i].totalCents + x.amountCents, items := gs[i].items + [x])
    ensures SumTotals(gs[i := g]) == TotalOf(prefix + [x])
  {
    SumUpdate(gs, i, g);
    FilterSnoc(prefix, x, KeyOf(x));
  }

  lemma AddExistingFaithful(gs: seq<Group>, prefix: seq<Item>, x: Item, i: int, g: Group, hs: seq<Group>)
    requires forall j :: 0 <= j < |gs| ==> Faithful(gs[j], prefix)
    requires DistinctKeys(gs)
    requires 0 <= i < |gs| && gs[i].userId == KeyOf(x)
    requires g == gs[i].(totalCents := gs[i].totalCents + x.amountCents, items := gs[i].items + [x])
    requires hs == gs[i := g]
    ensures forall j :: 0 <= j < |hs| ==> Faithful(hs[j], prefix + [x])
  {
    forall j | 0 <= j < |hs|
      ensures Faithful(hs[j], prefix + [x])
    {
      FilterSnoc(prefix, x, gs[j].userId);
      if j == i {
        assert g.items[0] == gs[i].items[0];
      }
    }
  }

  lemma AddExistingCovers(gs: seq<Group>, prefix: seq<Item>, x: Item, i: int, g: Group, hs: seq<Group>)
    requires forall y :: y in prefix ==> Find(gs, KeyOf(y)) >= 0
    requires 0 <= i < |gs| && gs[i].userId == KeyOf(x) && g.userId == KeyOf(x)
    requires hs == gs[i := g]
    ensures forall y :: y in prefix + [x] ==> Find(hs, KeyOf(y)) >= 0
  {
    forall y | y in prefix + [x]
      ensures Find(hs, KeyOf(y)) >= 0
    {
      FindUnderUpdate(gs, i, g, KeyOf(y));
    }
  }

  lemma DistinctUnderUpdate(gs: seq<Group>, i: int, g: Group, hs: seq<Group>)
    requires DistinctKeys(gs)
    requires 0 <= i < |gs| && g.userId == gs[i].userId
    requires hs == gs[i := g]
    ensures DistinctKeys(hs)
  {
    assert forall j :: 0 <= j < |hs| ==> hs[j].userId == gs[j].userId;
  }

  /** Appending a group keeps every key that was found. */
  lemma FindInPrefix(gs: seq<Group>, hs: seq<Group>, k: string)
    requires |gs| <= |hs| && hs[..|gs|] == gs
    requires Find(gs, k) >= 0
    ensures Find(hs, k) >= 0
  {
    var i := Find(gs, k);
    assert hs[i] == gs[i];
  }

  /** Updating a group without changing its key keeps every key findable that was. */
  lemma FindUnderUpdate(gs: seq<Group>, i: int, g: Group, k: string)
    requires 0 <= i < |gs| && g.userId == gs[i].userId
    ensures Find(gs[i := g], k) >= 0 <==> Find(gs, k) >= 0
  {
    var hs := gs[i := g];
    if Find(gs, k) >= 0 {
      var j := Find(gs, k);
      assert hs[j].userId == k;
    }
    if Find(hs, k) >= 0 {
      var j := Find(hs, k);
      assert gs[j].userId == k;
    }
  }

  // ---------------------------------------------------------------------------
  // Ordering by name

  /** Lexicographic order of code units; localeCompare's locale rules are not modelled. */
  predicate NameLeq(a: string, b: string)
    decreases |a|
  {
    a == [] || (b != [] && (a[0] < b[0] || (a[0] == b[0] && NameLeq(a[1..], b[1..]))))
  }

  lemma {:induction false} NameLeqTotal(a: string, b: string)
    ensures NameLeq(a, b) || NameLeq(b, a)
    decreases |a|
  {
    if a != [] && b != [] && a[0] == b[0] {
      NameLeqTotal(a[1..], b[1..]);
    }
  }

  lemma {:induction false} NameLeqTrans(a: string, b: string, c: string)
    requires NameLeq(a, b) && NameLeq(b, c)
    ensures NameLeq(a, c)
    decreases |a|
  {
    if a != [] && a[0] == b[0] && b[0] == c[0] {
      NameLeqTrans(a[1..], b[1..], c[1..]);
    }
  }

  predicate SortedByName(gs: seq<Group>) {
    forall i, j :: 0 <= i < j < |gs| ==> NameLeq(gs[i].name, gs[j].name)
  }

  /** Inserts before the first group whose name is not smaller, so earlier groups stay
      ahead of later ones with the same name. */
  function Insert(g: Group, s: seq<Group>): (r: seq<Group>)
    ensures multiset(r) == multiset(s) + multiset{g}
  {
    if s == [] then [g]
    else if NameLeq(g.name, s[0].name) then [g] + s
    else
      assert s == [s[0]] + s[1..];
      [s[0]] + Insert(g, s[1..])
  }

  function SortByName(gs: seq<Group>): (r: seq<Group>)
    ensures multiset(r) == multiset(gs)
  {
    if gs == [] then []
    else
      assert gs == [gs[0]] + gs[1..];
      Insert(gs[0], SortByName(gs[1..]))
  }

  lemma {:induction false} InsertSorted(g: Group, s: seq<Group>)
    requires SortedByName(s)
    ensures SortedByName(Insert(g, s))
  {
    if s == [] {
    } else if NameLeq(g.name, s[0].name) {
      forall j | 1 <= j < |s|
        ensures NameLeq(g.name, s[j].name)
      {
        NameLeqTrans(g.name, s[0].name, s[j].name);
      }
    } else {
      NameLeqTotal(g.name, s[0].name);
      InsertSorted(g, s[1..]);
      var rest := Insert(g, s[1..]);
      forall j | 0 <= j < |rest|
        ensures NameLeq(s[0].name, rest[j].name)
      {
        assert rest[j] in multiset(rest);
        assert rest[j] == g || rest[j] in s[1..];
      }
    }
  }

  lemma {:induction false} SortSorted(gs: seq<Group>)
    ensures SortedByName(SortByName(gs))
  {
    if gs != [] {
      SortSorted(gs[1..]);
      InsertSorted(gs[0], SortByName(gs[1..]));
    }
  }

  lemma {:induction false} InsertSum(g: Group, s: seq<Group>)
    ensures SumTotals(Insert(g, s)) == g.totalCents + SumTotals(s)
  {
    if s != [] && !NameLeq(g.name, s[0].name) {
      InsertSum(g, s[1..]);
    }
  }

  lemma {:induction false} SortSum(gs: seq<Group>)
    ensures SumTotals(SortByName(gs)) == SumTotals(gs)
  {
    if gs != [] {
      SortSum(gs[1..]);
      InsertSum(gs[0], SortByName(gs[1..]));
    }
  }

  /** A permutation of groups with distinct keys has distinct keys. */
  lemma DistinctUnderPermutation(a: seq<Group>, b: seq<Group>)
    requires multiset(a) == multiset(b) && DistinctKeys(a)
    ensures DistinctKeys(b)
  {
    forall i, j | 0 <= i < j < |b|
      ensures b[i].userId != b[j].userId
    {
      TwoPlaces(a, b, i, j);
    }
  }

  /** Two places of a permutation of `a` hold groups at two places of `a`, and distinct
      places of `a` hold different keys. */
  lemma TwoPlaces(a: seq<Group>, b: seq<Group>, i: int, j: int)
    requires multiset(a) == multiset(b) && DistinctKeys(a)
    requires 0 <= i < j < |b|
    ensures b[i].userId != b[j].userId
  {
    assert b[i] in multiset(a) && b[j] in multiset(a);
    var p :| 0 <= p < |a| && a[p] == b[i];
    var q :| 0 <= q < |a| && a[q] == b[j];
    OnlyOnce(a, p);
    Twice(b, i, j);
  }

  /** Equal groups at two places of a list occur at least twice in its multiset. */
  lemma Twice(b: seq<Group>, i: int, j: int)
    requires 0 <= i < j < |b|
    ensures b[i] == b[j] ==> multiset(b)[b[i]] >= 2
  {
    assert b == b[..i] + [b[i]] + b[i + 1..j] + [b[j]] + b[j + 1..];
  }

  /** In a list with distinct keys an element occurs once. */
  lemma OnlyOnce(a: seq<Group>, p: int)
    requires DistinctKeys(a) && 0 <= p < |a|
    ensures multiset(a)[a[p]] == 1
  {
    assert a == a[..p] + [a[p]] + a[p + 1..];
    assert forall y :: y in a[..p] ==> y.userId != a[p].userId;
    assert forall y :: y in a[p + 1..] ==> y.userId != a[p].userId;
    assert a[p] !in a[..p];
    assert a[p] !in a[p + 1..];
  }

  /** groupBySubmitter. */
  function GroupBySubmitter(items: seq<Item>): seq<Group> {
    SortByName(Collect(items))
  }

  /** The groups are ordered by name and have distinct keys; each holds exactly the
      receipts with its key, in list order, with their total and the first one's header;
      every receipt is in the group of its key; and the group totals add up to the total of
      all receipts. */
  lemma GroupBySubmitterCorrect(items: seq<Item>)
    ensures var gs := GroupBySubmitter(items);
            && SortedByName(gs)
            && DistinctKeys(gs)
            && (forall g :: g in gs ==> Faithful(g, items))
            && (forall x, g :: x in items && g in gs ==> (x in g.items <==> g.userId == KeyOf(x)))
            && (forall x :: x in items ==> exists g :: g in gs && g.userId == KeyOf(x))
            && SumTotals(gs) == TotalOf(items)
  {
    var cs := Collect(items);
    var gs := GroupBySubmitter(items);
    CollectInvariant(items);
    SortSorted(cs);
    SortSum(cs);
    DistinctUnderPermutation(cs, gs);
    forall g | g in gs
      ensures Faithful(g, items)
      ensures forall x :: x in items ==> (x in g.items <==> g.userId == KeyOf(x))
    {
      assert g in multiset(cs);
      FilterMembers(items, g.userId);
    }
    forall x | x in items
      ensures exists g :: g in gs && g.userId == KeyOf(x)
    {
      var i := Find(cs, KeyOf(x));
      assert cs[i] in multiset(gs);
    }
  }
}

=== FILE: auth.dfy ===
/** Session helpers (src/lib/auth.ts): reading the session cookie, sliding renewal,
    clearing, resolving the current user, and the role guards used by the routes.
    The ambient cookie store becomes an explicit request context, and cookie writes are
    returned as values instead of being performed. */
module Auth {
  import opened Common
  import opened Permissions
  import opened Jwt
  import Db

  const SESSION_COOKIE_NAME: string := "fratapp_session"

  /** Renew a session once fewer than 14 days remain. */
  const REFRESH_THRESHOLD_SECONDS: int := 60 * 60 * 24 * 14

  datatype CookieOptions = CookieOptions(httpOnly: bool, secure: bool, sameSiteLax: bool, path: string, maxAge: int)

  /** HttpOnly, Secure in production, SameSite=Lax, Path=/, Max-Age = token lifetime. */
  function SessionCookieOptions(production: bool): CookieOptions {
    CookieOptions(true, production, true, "/", SESSION_MAX_AGE_SECONDS)
  }

  /** An instruction to set one cookie on the outgoing response. */
  datatype CookieWrite = CookieWrite(name: string, value: Token, options: CookieOptions)

  /** The cookies a response carries, by name. */
  type CookieJar = map<string, CookieWrite>

  function SetCookie(jar: CookieJar, w: CookieWrite): CookieJar {
    jar[w.name := w]
  }

  /** What every session helper reads: the session cookie as sent (if any), the signing
      key, the clock in milliseconds, and whether NODE_ENV is "production". */
  datatype Ctx = Ctx(cookie: Option<Token>, key: string, nowMs: int, production: bool)

  /** The identity a verified session token carries. */
  datatype SessionUser = SessionUser(userId: string, role: Role, orgId: string)

  /** cookieStore.get(name)?.value, where an empty value counts as no token (`!token`). */
  function SessionToken(cookie: Option<Token>): (t: Option<Token>)
    ensures t.Some? <==> cookie.Some? && cookie.value != Opaque("")
    ensures t.Some? ==> t == cookie
  {
    if cookie.Some? && cookie.value != Opaque("") then cookie else None
  }

  /** The cookie write carrying a freshly signed token for the given identity. */
  function SessionCookie(userId: string, role: Role, orgId: string, ctx: Ctx): (w: CookieWrite)
    ensures w.name == SESSION_COOKIE_NAME && w.options.maxAge == SESSION_MAX_AGE_SECONDS
    ensures w.value.Jws? && w.value.payload.sub == userId && w.value.payload.role == role
            && w.value.payload.orgId == orgId
    ensures VerifySessionToken(w.value, ctx.key, ctx.nowMs) == Some(w.value.payload)
  {
    CookieWrite(SESSION_COOKIE_NAME, CreateSessionToken(userId, role, orgId, ctx.key, ctx.nowMs),
                SessionCookieOptions(ctx.production))
  }

  /** getSessionUser: the claims of a verified token; no token, or any verification
      failure, gives no session (the failure is never passed on). */
  function GetSessionUser(ctx: Ctx): (r: Option<SessionUser>)
    ensures SessionToken(ctx.cookie).None? ==> r.None?
    ensures r.Some? ==> exists p :: ctx.cookie == Some(Jws(p, Hs256(ctx.key, p)))
                               && ctx.nowMs / 1000 < p.exp
                               && r.value == SessionUser(p.sub, p.role, p.orgId)
  {
    match SessionToken(ctx.cookie)
    case None => None
    case Some(t) =>
      match VerifySessionToken(t, ctx.key, ctx.nowMs)
      case None => None
      case Some(p) => Some(SessionUser(p.sub, p.role, p.orgId))
  }

  /** getSessionUserId. */
  function SessionUserId(ctx: Ctx): Option<string> {
    match GetSessionUser(ctx)
    case None => None
    case Some(s) => Some(s.userId)
  }

  /** maybeRefreshSession: re-issue the token only when it verifies and has strictly
      between 0 and 14 days left; otherwise the cookie is left untouched (None). */
  function MaybeRefreshSession(ctx: Ctx): (w: Option<CookieWrite>)
    ensures SessionToken(ctx.cookie).None? ==> w.None?
    ensures w.Some? ==> GetSessionUser(ctx).Some?
  {
    match SessionToken(ctx.cookie)
    case None => None
    case Some(t) =>
      match VerifySessionToken(t, ctx.key, ctx.nowMs)
      case None => None
      case Some(p) =>
        var timeLeft := p.exp - EpochSeconds(ctx.nowMs);
        if timeLeft > 0 && timeLeft < REFRESH_THRESHOLD_SECONDS
        then Some(SessionCookie(p.sub, p.role, p.orgId, ctx))
        else None
  }

  /** clearSessionCookie: the session cookie overwritten with an empty value and max-age 0. */
  function ClearSessionCookie(production: bool): (w: CookieWrite)
    ensures w.name == SESSION_COOKIE_NAME && w.options.maxAge == 0
    ensures SessionToken(Some(w.value)).None?
  {
    CookieWrite(SESSION_COOKIE_NAME, Opaque(""), SessionCookieOptions(production).(maxAge := 0))
  }

  /** getCurrentUserAndProfile: the user id from the token, but the organisation and the
      role from the stored profile; no profile (or an empty subject) gives no session. */
  function GetCurrentUserAndProfile(ctx: Ctx, profiles: map<Db.UserId, Db.Profile>): (r: Option<SessionUser>)
    ensures r.Some? ==> && GetSessionUser(ctx).Some?
                        && r.value.userId == GetSessionUser(ctx).value.userId
                        && r.value.userId in profiles
                        && r.value.orgId == profiles[r.value.userId].orgId
                        && r.value.role == profiles[r.value.userId].role
    ensures r.None? ==> || GetSessionUser(ctx).None?
                        || GetSessionUser(ctx).value.userId == ""
                        || GetSessionUser(ctx).value.userId !in profiles
  {
    match GetSessionUser(ctx)
    case None => None
    case Some(s) =>
      if s.userId == "" || s.userId !in profiles then None
      else Some(SessionUser(s.userId, profiles[s.userId].role, profiles[s.userId].orgId))
  }

  /** requireCurrentUserAndProfile: throws "Unauthorized" without a profile-backed session. */
  function RequireCurrentUserAndProfile(ctx: Ctx, profiles: map<Db.UserId, Db.Profile>): (r: Result<SessionUser>)
    ensures r.Ok? <==> GetSessionUser(ctx).Some? && GetSessionUser(ctx).value.userId != ""
                       && GetSessionUser(ctx).value.userId in profiles
    ensures r.Ok? ==> r.value.userId in profiles && r.value.orgId == profiles[r.value.userId].orgId
                      && r.value.role == profiles[r.value.userId].role
    ensures r.Fail? ==> r.failure == Unauthorized
  {
    match GetCurrentUserAndProfile(ctx, profiles)
    case None => Fail(Unauthorized)
    case Some(s) => Ok(s)
  }

  /** requireRole: a token session whose role is exactly `role`. */
  function RequireRole(ctx: Ctx, role: Role): (r: Result<SessionUser>)
    ensures r.Ok? <==> GetSessionUser(ctx).Some? && GetSessionUser(ctx).value.role == role
    ensures r.Ok? ==> r.value == GetSessionUser(ctx).value
    ensures r.Fail? ==> r.failure == Forbidden
  {
    match GetSessionUser(ctx)
    case None => Fail(Forbidden)
    case Some(s) => if s.role != role then Fail(Forbidden) else Ok(s)
  }

  /** The guard lists of auth.ts, written out independently of permissions.ts. */
  const GuardAdminRoles: seq<Role> := [Admin, Exec, Treasurer]
  const GuardExecRoles: seq<Role> := [Admin, Exec]

  /** requireAdminRole: a token session with role admin, exec or treasurer. */
  function RequireAdminRole(ctx: Ctx): (r: Result<SessionUser>)
    ensures r.Ok? <==> GetSessionUser(ctx).Some? && CanApproveReceipts(GetSessionUser(ctx).value.role)
    ensures r.Ok? ==> GetSessionUser(ctx) == Some(r.value)
    ensures r.Fail? ==> r.failure == Forbidden
  {
    match GetSessionUser(ctx)
    case None => Fail(Forbidden)
    case Some(s) => if s.role !in GuardAdminRoles then Fail(Forbidden) else Ok(s)
  }

  /** requireExecRole: a token session with role admin or exec. */
  function RequireExecRole(ctx: Ctx): (r: Result<SessionUser>)
    ensures r.Ok? <==> GetSessionUser(ctx).Some? && CanManageOrgSettings(GetSessionUser(ctx).value.role)
    ensures r.Ok? ==> GetSessionUser(ctx) == Some(r.value)
    ensures r.Fail? ==> r.failure == Forbidden
  {
    match GetSessionUser(ctx)
    case None => Fail(Forbidden)
    case Some(s) => if s.role !in GuardExecRoles then Fail(Forbidden) else Ok(s)
  }

  // ---------------------------------------------------------------------------
  // Properties

  /** A cookie holding a token this server issued resolves, before expiry, to exactly the
      identity it was issued for; under another key it resolves to no session. */
  lemma SessionRoundTrip(userId: string, role: Role, orgId: string, issuer: Ctx, ctx: Ctx)
    requires ctx.cookie == Some(SessionCookie(userId, role, orgId, issuer).value)
    ensures ctx.key == issuer.key && ctx.nowMs / 1000 < issuer.nowMs / 1000 + SESSION_MAX_AGE_SECONDS
            ==> GetSessionUser(ctx) == Some(SessionUser(userId, role, orgId))
    ensures ctx.key != issuer.key ==> GetSessionUser(ctx) == None
  {
  }

  /** A renewal happens exactly for a verified token with less than 14 days left; the new
      cookie keeps the identity, lasts a full 90 days from now, and carries the normal
      cookie attributes. */
  lemma RefreshExactlyNearExpiry(ctx: Ctx)
    ensures MaybeRefreshSession(ctx).Some? <==>
              (exists p :: ctx.cookie == Some(Jws(p, Hs256(ctx.key, p)))
                        && 0 < p.exp - ctx.nowMs / 1000 < 1209600)
    ensures MaybeRefreshSession(ctx).Some? ==>
              var w := MaybeRefreshSession(ctx).value;
              var s := GetSessionUser(ctx).value;
              && w.value.Jws?
              && w.value.payload.sub == s.userId && w.value.payload.role == s.role
              && w.value.payload.orgId == s.orgId
              && w.value.payload.exp == ctx.nowMs / 1000 + SESSION_MAX_AGE_SECONDS
              && w.options == SessionCookieOptions(ctx.production)
  {
    if MaybeRefreshSession(ctx).Some? {
      var p := ctx.cookie.value.payload;
      assert ctx.cookie == Some(Jws(p, Hs256(ctx.key, p)));
    }
  }

  /** Clearing the cookie is idempotent, and a cleared cookie resolves to no session. */
  lemma ClearIdempotentAndAnonymous(jar: CookieJar, production: bool, ctx: Ctx)
    requires ctx.cookie == Some(ClearSessionCookie(production).value)
    ensures SetCookie(SetCookie(jar, ClearSessionCookie(production)), ClearSessionCookie(production))
            == SetCookie(jar, ClearSessionCookie(production))
    ensures ClearSessionCookie(production).options == SessionCookieOptions(production).(maxAge := 0)
    ensures GetSessionUser(ctx) == None && MaybeRefreshSession(ctx) == None
  {
  }

  /** requireRole("admin") admits exactly admin sessions: exec and treasurer are refused. */
  lemma RequireAdminExactly(ctx: Ctx)
    requires GetSessionUser(ctx).Some?
    ensures RequireRole(ctx, Admin).Ok? <==> GetSessionUser(ctx).value.role == Admin
    ensures GetSessionUser(ctx).value.role in {Exec, Treasurer} ==> RequireRole(ctx, Admin).Fail?
  {
  }

  /** The auth.ts guard lists agree with the permissions.ts predicates on every session. */
  lemma GuardsAgreeWithPermissions(ctx: Ctx)
    ensures RequireAdminRole(ctx).Ok? <==>
              GetSessionUser(ctx).Some? && CanApproveReceipts(GetSessionUser(ctx).value.role)
    ensures RequireExecRole(ctx).Ok? <==>
              GetSessionUser(ctx).Some? && CanManageOrgSettings(GetSessionUser(ctx).value.role)
  {
  }

  /** The profile, not the token, decides organisation and role: a token still saying
      admin for a user whose stored role is now member resolves to a member. */
  lemma ProfileOverridesToken(ctx: Ctx, profiles: map<Db.UserId, Db.Profile>, p: Payload)
    requires ctx.cookie == Some(Jws(p, Hs256(ctx.key, p))) && ctx.nowMs / 1000 < p.exp
    requires p.sub != "" && p.sub in profiles
    requires p.role == Admin && profiles[p.sub].role == Member
    ensures GetSessionUser(ctx).value.role == Admin
    ensures GetCurrentUserAndProfile(ctx, profiles).value.role == Member
    ensures RequireAdminRole(ctx).Ok?
  {
  }
}

=== FILE: chapters.dfy ===
/** Chapter bootstrap: a new organisation and its first admin invite code, either through
    the JSON route (src/app/api/chapters/route.ts) or through the setup page's server action
    (src/app/setup-chapter/actions.ts). */
module Chapters {
  import opened Common
  import opened Permissions
  import opened Db
  import InviteCodes
  import InviteCheck
  import Uri

  const NAME_MAX_LENGTH: nat := 100
  /** The bootstrap code admits up to ten admins of the new chapter. */
  const BOOTSTRAP_MAX_USES: int := 10

  const BadNameMessage: string := "Chapter name must be 1\U{2013}100 characters."
  const NoCodeMessage: string := "Failed to create invite code. Please try again."
  const BadName: Failure := Failure(400, BadNameMessage)
  const NoCode: Failure := Failure(500, NoCodeMessage)
  /** A failed organisation insert is not caught; the framework answers 500. */
  const InsertFailed: Failure := Failure(500, "Internal Server Error")

  datatype ChapterCreated = ChapterCreated(inviteCode: string, redirectUrl: string)

  function SignupUrl(code: string): string {
    "/signup?code=" + Uri.EncodeUriComponent(code)
  }

  predicate NameLengthOk(name: string) {
    1 <= |name| <= NAME_MAX_LENGTH
  }

  /** The chapter codes generated from the draws: "CH-" and eight alphabet characters. */
  function ChapterCodes(draws: seq<InviteCodes.Draw>): seq<string> {
    InviteCodes.Candidates("CH-", draws)
  }

  /** The bootstrap invite of a new organisation: admin role, ten uses, none used, no expiry. */
  function BootstrapInvite(orgId: OrgId): InviteCode {
    InviteCode(orgId, Admin, BOOTSTRAP_MAX_USES, 0, None)
  }

  /** Creates the organisation and then places the bootstrap code; the organisation stays
      when no code can be placed. Shared by the route and the action. */
  function Bootstrap(s: Store, name: string, newOrgId: OrgId, draws: seq<InviteCodes.Draw>): (step: Step<string>)
    requires |draws| >= InviteCodes.MAX_ATTEMPTS
    requires newOrgId !in s.orgs
    ensures step.store.orgs == s.orgs[newOrgId := Organization(name)]
    ensures step.reply.Fail? ==> step.store == s.(orgs := s.orgs[newOrgId := Organization(name)])
    ensures step.reply.Fail? <==> forall i :: 0 <= i < InviteCodes.MAX_ATTEMPTS ==> ChapterCodes(draws)[i] in s.invites
    ensures step.reply.Ok? ==>
              && step.reply.value in ChapterCodes(draws)[..InviteCodes.MAX_ATTEMPTS]
              && step.reply.value !in s.invites
              && step.store.invites == s.invites[step.reply.value := BootstrapInvite(newOrgId)]
  {
    InviteCodes.FirstFreeIsFirst(s.invites.Keys, ChapterCodes(draws), 0);
    var s1 := s.(orgs := s.orgs[newOrgId := Organization(name)]);
    match InviteCodes.FirstFree(s1.invites.Keys, ChapterCodes(draws), 0)
    case None => Step(s1, Fail(NoCode))
    case Some(code) => Step(s1.(invites := s1.invites[code := BootstrapInvite(newOrgId)]), Ok(code))
  }

  // ---------------------------------------------------------------------------
  // POST /api/chapters

  /** The route's schema checks the length first and trims afterwards, so the stored name is
      the trimmed text of a name whose untrimmed length is 1 to 100. */
  function ApiName(name: Option<string>): (r: Option<string>)
    ensures r.Some? <==> name.Some? && NameLengthOk(name.value)
    ensures r.Some? ==> r.value == Trim(name.value)
  {
    if name.Some? && NameLengthOk(name.value) then Some(Trim(name.value)) else None
  }

  /** POST { name }: `newOrgId` is the id the database generates; `draws` the random draws
      behind the codes the generator produces, in order. */
  function CreateChapter(s: Store, name: Option<string>, newOrgId: OrgId, draws: seq<InviteCodes.Draw>): (step: Step<ChapterCreated>)
    requires |draws| >= InviteCodes.MAX_ATTEMPTS
    ensures ApiName(name).None? ==> step == Step(s, Fail(BadName))
    ensures step.reply.Ok? ==> step.reply.value.redirectUrl == SignupUrl(step.reply.value.inviteCode)
  {
    match ApiName(name)
    case None => Step(s, Fail(BadName))
    case Some(n) =>
      if newOrgId in s.orgs then Step(s, Fail(InsertFailed))
      else
        var b := Bootstrap(s, n, newOrgId, draws);
        match b.reply
        case Fail(f) => Step(b.store, Fail(f))
        case Ok(code) => Step(b.store, Ok(ChapterCreated(code, SignupUrl(code))))
  }

  /** A successful bootstrap leaves a valid admin invite for the new organisation, which the
      invite page accepts at any time. */
  lemma BootstrapCodeIsValid(s: Store, name: Option<string>, newOrgId: OrgId, draws: seq<InviteCodes.Draw>, nowMs: int)
    requires |draws| >= InviteCodes.MAX_ATTEMPTS
    requires CreateChapter(s, name, newOrgId, draws).reply.Ok?
    ensures var step := CreateChapter(s, name, newOrgId, draws);
            var code := step.reply.value.inviteCode;
            && newOrgId !in s.orgs
            && step.store.orgs == s.orgs[newOrgId := Organization(Trim(name.value))]
            && step.store.invites == s.invites[code := BootstrapInvite(newOrgId)]
            && InviteCheck.CheckInvite(step.store, Some(code), nowMs).Ok?
            && InviteCheck.CheckInvite(step.store, Some(code), nowMs).value.role == Admin
            && InviteCheck.CheckInvite(step.store, Some(code), nowMs).value.orgId == newOrgId
  {
    var step := CreateChapter(s, name, newOrgId, draws);
    var code := step.reply.value.inviteCode;
    var b := Bootstrap(s, Trim(name.value), newOrgId, draws);
    assert code == b.reply.value;
    var i :| 0 <= i < InviteCodes.MAX_ATTEMPTS && code == ChapterCodes(draws)[i];
    assert |code| == 11;
  }

  /** When all five codes collide the route answers 500 but the organisation it created
      stays, without any invite code. */
  lemma OrgSurvivesCodeFailure(s: Store, name: Option<string>, newOrgId: OrgId, draws: seq<InviteCodes.Draw>)
    requires |draws| >= InviteCodes.MAX_ATTEMPTS
    requires ApiName(name).Some? && newOrgId !in s.orgs
    requires forall i :: 0 <= i < InviteCodes.MAX_ATTEMPTS ==> ChapterCodes(draws)[i] in s.invites
    ensures CreateChapter(s, name, newOrgId, draws)
            == Step(s.(orgs := s.orgs[newOrgId := Organization(Trim(name.value))]), Fail(NoCode))
  {
  }

  /** A generated chapter code needs no escaping: the redirect carries it verbatim. */
  lemma GeneratedCodeNeedsNoEscaping(picks: InviteCodes.Draw)
    ensures SignupUrl(InviteCodes.GenerateCode("CH-", picks)) == "/signup?code=" + InviteCodes.GenerateCode("CH-", picks)
  {
    var code := InviteCodes.GenerateCode("CH-", picks);
    assert code[..3] == "CH-";
    forall i | 0 <= i < |code|
      ensures Uri.Unreserved(code[i])
    {
      if i < 3 {
        assert code[i] == "CH-"[i];
      } else {
        assert code[i] == InviteCodes.CodeAlphabet[picks[i - 3]];
      }
    }
    Uri.EncodeUnreservedIdentity(code);
  }

  // ---------------------------------------------------------------------------
  // The setup page's server action

  /** The action trims the form field (missing reads as "") before the length check. */
  function ActionName(name: Option<string>): (r: Option<string>)
    ensures r.Some? <==> NameLengthOk(Trim(name.GetOr("")))
    ensures r.Some? ==> r.value == Trim(name.GetOr(""))
  {
    var n := Trim(name.GetOr(""));
    if NameLengthOk(n) then Some(n) else None
  }

  /** Where the action redirects: the signup page for the new code, or back to the setup
      page with an error message. */
  datatype Redirect = ToSignup(code: string) | ToSetupError(message: string)

  /** The action ends in a redirect, or the organisation insert throws and the error escapes
      the action uncaught. */
  datatype ActionOutcome = ActionOutcome(store: Store, redirectTo: Redirect) | ActionThrew(store: Store)

  /** The redirect's URL; the message travels URI-encoded in the query. */
  function RedirectUrl(r: Redirect): string {
    match r
    case ToSignup(code) => SignupUrl(code)
    case ToSetupError(message) => "/setup-chapter?error=" + Uri.EncodeUriComponent(message)
  }

  /** createChapter(formData): every outcome is a redirect, except that a failed organisation
      insert (modelled, as in the route, by a generated id already in use) throws. */
  function CreateChapterAction(s: Store, name: Option<string>, newOrgId: OrgId, draws: seq<InviteCodes.Draw>): (o: ActionOutcome)
    requires |draws| >= InviteCodes.MAX_ATTEMPTS
    ensures ActionName(name).None? ==> o == ActionOutcome(s, ToSetupError(BadNameMessage))
    ensures o.ActionThrew? <==> ActionName(name).Some? && newOrgId in s.orgs
    ensures o.ActionThrew? ==> o.store == s
  {
    match ActionName(name)
    case None => ActionOutcome(s, ToSetupError(BadNameMessage))
    case Some(n) =>
      if newOrgId in s.orgs then ActionThrew(s)
      else
        var b := Bootstrap(s, n, newOrgId, draws);
        match b.reply
        case Fail(_) => ActionOutcome(b.store, ToSetupError(NoCodeMessage))
        case Ok(code) => ActionOutcome(b.store, ToSignup(code))
  }

  /** The route and the action perform the same bootstrap whenever both accept the name and
      the name has no surrounding whitespace; a failed organisation insert changes nothing in
      either, the route answering 500 and the action throwing. */
  lemma RouteAndActionAgree(s: Store, name: string, newOrgId: OrgId, draws: seq<InviteCodes.Draw>)
    requires |draws| >= InviteCodes.MAX_ATTEMPTS
    requires Trim(name) == name && NameLengthOk(name)
    ensures var step := CreateChapter(s, Some(name), newOrgId, draws);
            var o := CreateChapterAction(s, Some(name), newOrgId, draws);
            && step.store == o.store
            && (newOrgId in s.orgs ==> step == Step(s, Fail(InsertFailed)) && o == ActionThrew(s))
            && (newOrgId !in s.orgs ==> o.ActionOutcome?)
            && (o.ActionOutcome? && step.reply.Ok? ==> RedirectUrl(o.redirectTo) == step.reply.value.redirectUrl)
            && (o.ActionOutcome? && step.reply.Fail? ==> o.redirectTo == ToSetupError(NoCodeMessage))
  {
    assert ApiName(Some(name)) == Some(name);
    assert ActionName(Some(name)) == Some(name);
    if newOrgId in s.orgs {
      return;
    }
    var b := Bootstrap(s, name, newOrgId, draws);
    assert CreateChapter(s, Some(name), newOrgId, draws)
           == if b.reply.Ok? then Step(b.store, Ok(ChapterCreated(b.reply.value, SignupUrl(b.reply.value))))
              else Step(b.store, Fail(b.reply.failure));
    assert CreateChapterAction(s, Some(name), newOrgId, draws)
           == if b.reply.Ok? then ActionOutcome(b.store, ToSignup(b.reply.value))
              else ActionOutcome(b.store, ToSetupError(NoCodeMessage));
  }

  /** The two disagree on padded names: the route accepts three spaces (creating a chapter
      with an empty name) that the action refuses, and refuses a padded name of 101
      characters that the action accepts. */
  lemma RouteAndActionDiverge()
    ensures ApiName(Some("   ")) == Some("")
    ensures ActionName(Some("   ")).None?
    ensures var padded := "x" + seq(100, _ => ' ');
            ApiName(Some(padded)).None? && ActionName(Some(padded)) == Some("x")
  {
    var blank := "   ";
    assert IsBlank(blank) by {
      assert forall i :: 0 <= i < |blank| ==> blank[i] == ' ';
    }
    TrimEmptyIffBlank(blank);
    var padded := "x" + seq(100, _ => ' ');
    TrimOfPadded(padded);
  }

  /** "x" followed by spaces trims to "x". */
  lemma TrimOfPadded(padded: string)
    requires |padded| >= 1 && padded[0] == 'x'
    requires forall i :: 1 <= i < |padded| ==> padded[i] == ' '
    ensures Trim(padded) == "x"
  {
    assert TrimStart(padded) == padded;
    TrimEndOfSpaces(padded);
  }

  lemma {:induction false} TrimEndOfSpaces(t: string)
    requires |t| >= 1 && t[0] == 'x'
    requires forall i :: 1 <= i < |t| ==> t[i] == ' '
    ensures TrimEnd(t) == "x"
  {
    if |t| > 1 {
      TrimEndOfSpaces(t[..|t| - 1]);
    }
  }
}

=== FILE: common.dfy ===
/** Shared vocabulary: optional values, route failures, and the JavaScript string
    operations the application relies on (trim, toLowerCase, startsWith, String(n)). */
module Common {

  /** A value that may be absent: TypeScript's `T | null | undefined`. */
  datatype Option<+T> = None | Some(value: T) {
    function GetOr(default: T): T {
      match this
      case Some(v) => v
      case None => default
    }
  }

  /** An HTTP error reply, or an error thrown out of a route handler (which the
      framework turns into a 500 reply). */
  datatype Failure = Failure(status: int, message: string)

  /** The result of a route or guard: a value, or a failure reply. */
  datatype Result<+T> = Ok(value: T) | Fail(failure: Failure)

  /** The thrown guard errors of the session helpers surface as 500 replies. */
  const Forbidden: Failure := Failure(500, "Forbidden")
  const Unauthorized: Failure := Failure(500, "Unauthorized")

  /** ECMAScript WhiteSpace and LineTerminator code points, the set String.prototype.trim removes. */
  predicate IsJsWhitespace(c: char) {
    || c == ' ' || c == '\t' || c == '\n' || c == '\U{0B}' || c == '\U{0C}' || c == '\r'
    || c == '\U{A0}' || c == '\U{1680}' || ('\U{2000}' <= c <= '\U{200A}')
    || c == '\U{2028}' || c == '\U{2029}' || c == '\U{202F}' || c == '\U{205F}'
    || c == '\U{3000}' || c == '\U{FEFF}'
  }

  /** True when every character is whitespace (the empty string included). */
  predicate IsBlank(s: string) {
    forall i :: 0 <= i < |s| ==> IsJsWhitespace(s[i])
  }

  /** Drops leading whitespace. */
  function TrimStart(s: string): (r: string)
    ensures |r| <= |s| && r == s[|s| - |r|..]
    ensures forall i :: 0 <= i < |s| - |r| ==> IsJsWhitespace(s[i])
    ensures r == [] || !IsJsWhitespace(r[0])
  {
    if |s| > 0 && IsJsWhitespace(s[0]) then TrimStart(s[1..]) else s
  }

  /** Drops trailing whitespace. */
  function TrimEnd(s: string): (r: string)
    ensures |r| <= |s| && r == s[..|r|]
    ensures forall i :: |r| <= i < |s| ==> IsJsWhitespace(s[i])
    ensures r == [] || !IsJsWhitespace(r[|r| - 1])
  {
    if |s| > 0 && IsJsWhitespace(s[|s| - 1]) then TrimEnd(s[..|s| - 1]) else s
  }

  /** String.prototype.trim. */
  function Trim(s: string): (r: string)
    ensures |r| <= |s|
    ensures r == [] || (!IsJsWhitespace(r[0]) && !IsJsWhitespace(r[|r| - 1]))
  {
    TrimEnd(TrimStart(s))
  }

  /** A string trims to nothing exactly when it is blank. */
  lemma TrimEmptyIffBlank(s: string)
    ensures Trim(s) == [] <==> IsBlank(s)
  {
    if Trim(s) == [] {
      assert TrimStart(s) == [];
    }
  }

  /** Trimming is idempotent. */
  lemma TrimIdempotent(s: string)
    ensures Trim(Trim(s)) == Trim(s)
  {
    var r := Trim(s);
    if r != [] {
      assert TrimStart(r) == r;
      assert TrimEnd(r) == r;
    }
  }

  /** ASCII case folding of one character (the model's toLowerCase). */
  function LowerChar(c: char): char {
    if 'A' <= c <= 'Z' then (c as int + 32) as char else c
  }

  /** String.prototype.toLowerCase, restricted to ASCII letters. */
  function ToLower(s: string): (r: string)
    ensures |r| == |s|
    ensures forall i :: 0 <= i < |s| ==> r[i] == LowerChar(s[i])
    ensures forall i :: 0 <= i < |r| ==> !('A' <= r[i] <= 'Z')
  {
    seq(|s|, i requires 0 <= i < |s| => LowerChar(s[i]))
  }

  /** A string without capitals is its own lowercase. */
  lemma ToLowerOfLower(s: string)
    requires forall i :: 0 <= i < |s| ==> !('A' <= s[i] <= 'Z')
    ensures ToLower(s) == s
  {
  }

  /** Lowercasing twice is lowercasing once. */
  lemma ToLowerIdempotent(s: string)
    ensures ToLower(ToLower(s)) == ToLower(s)
  {
  }

  /** String.prototype.startsWith. */
  predicate StartsWith(s: string, prefix: string) {
    prefix <= s
  }

  function DigitChar(d: int): char
    requires 0 <= d < 10
  {
    "0123456789"[d]
  }

  /** Decimal rendering of a natural number. */
  function NatToString(n: nat): (r: string)
    ensures |r| >= 1
    ensures forall i :: 0 <= i < |r| ==> '0' <= r[i] <= '9'
    decreases n
  {
    if n < 10 then [DigitChar(n)] else NatToString(n / 10) + [DigitChar(n % 10)]
  }

  /** String(n) for an integer number of cents. */
  function IntToString(i: int): string {
    if i < 0 then "-" + NatToString(-i) else NatToString(i)
  }

  function Sum(xs: seq<int>): int {
    if xs == [] then 0 else xs[0] + Sum(xs[1..])
  }

  /** A hexadecimal digit, either case. */
  predicate IsHexDigit(c: char) {
    ('0' <= c <= '9') || ('a' <= c <= 'f') || ('A' <= c <= 'F')
  }

  /** The shape zod's uuid() accepts: 8-4-4-4-12 hexadecimal digits. */
  predicate IsUuid(s: string) {
    && |s| == 36
    && (forall i :: 0 <= i < 36 && i in {8, 13, 18, 23} ==> s[i] == '-')
    && (forall i :: 0 <= i < 36 && i !in {8, 13, 18, 23} ==> IsHexDigit(s[i]))
  }

  /** The shape the model accepts for zod's email(): one '@' with a nonempty local part
      and a domain holding an inner '.', no whitespace. */
  predicate IsEmail(s: string) {
    exists at :: 0 < at < |s| - 1 && s[at] == '@' && ValidEmailSplit(s, at)
  }

  predicate ValidEmailSplit(s: string, at: int)
    requires 0 < at < |s| - 1
  {
    && (forall i :: 0 <= i < |s| && i != at ==> s[i] != '@' && !IsJsWhitespace(s[i]))
    && (exists d :: at + 1 < d < |s| - 1 && s[d] == '.')
  }

  /** Lowercasing neither creates nor removes an '@', a '.' or whitespace, so it does not
      change whether a string has the email shape. */
  lemma EmailShapeIgnoresCase(s: string)
    ensures IsEmail(ToLower(s)) <==> IsEmail(s)
  {
    var l := ToLower(s);
    forall i | 0 <= i < |s|
      ensures (l[i] == '@') == (s[i] == '@')
      ensures (l[i] == '.') == (s[i] == '.')
      ensures IsJsWhitespace(l[i]) == IsJsWhitespace(s[i])
    {
    }
    if IsEmail(s) {
      var at :| 0 < at < |s| - 1 && s[at] == '@' && ValidEmailSplit(s, at);
      var d :| at + 1 < d < |s| - 1 && s[d] == '.';
      assert l[d] == '.';
      assert ValidEmailSplit(l, at);
    }
    if IsEmail(l) {
      var at :| 0 < at < |l| - 1 && l[at] == '@' && ValidEmailSplit(l, at);
      var d :| at + 1 < d < |l| - 1 && l[d] == '.';
      assert s[d] == '.';
      assert ValidEmailSplit(s, at);
    }
  }

  /** Adding a fresh key grows a map by exactly one entry. */
  lemma AddKeyCardinality<K, V>(m: map<K, V>, k: K, v: V)
    requires k !in m
    ensures |m[k := v]| == |m| + 1
  {
    assert m[k := v].Keys == m.Keys + {k};
  }

  /** A subset is no larger than its superset. */
  lemma SubsetCardinality<T>(a: set<T>, b: set<T>)
    requires a <= b
    ensures |a| <= |b|
  {
    assert b == a + (b - a);
  }
}

=== FILE: csv_export.dfy ===
/** The admin CSV export (src/app/api/admin/receipts/export/route.ts): the filters it reads,
    the receipts it selects, and the quoted comma-separated text it writes, together with a
    reader for that text. */
module CsvExport {
  import opened Common
  import opened Permissions
  import opened Auth
  import opened Db
  import ReceiptUpdate

  const InvalidFilters: Failure := Failure(400, "Invalid filters.")

  const Header: seq<string> :=
    ["id", "description", "amount_cents", "category", "status", "photo_key",
     "created_at", "paid_at", "paid_via", "paid_note"]

  // ---------------------------------------------------------------------------
  // Writing

  /** A value with every double quote doubled. */
  function DoubleQuotes(v: string): (e: string)
    ensures |e| >= |v|
  {
    if v == [] then ""
    else (if v[0] == '"' then "\"\"" else [v[0]]) + DoubleQuotes(v[1..])
  }

  /** Escaping adds nothing but quotes: every other character comes from the value. */
  lemma {:induction false} DoubleQuotesAddsOnlyQuotes(v: string)
    ensures var e := DoubleQuotes(v);
            forall i :: 0 <= i < |e| && e[i] != '"' ==> e[i] in v
  {
    if v != [] {
      DoubleQuotesAddsOnlyQuotes(v[1..]);
      var h: string := if v[0] == '"' then "\"\"" else [v[0]];
      var e := DoubleQuotes(v);
      assert e == h + DoubleQuotes(v[1..]);
      forall i | 0 <= i < |e| && e[i] != '"'
        ensures e[i] in v
      {
        if i >= |h| {
          assert e[i] == DoubleQuotes(v[1..])[i - |h|];
          assert e[i] in v[1..];
        }
      }
    }
  }

  /** One cell: the escaped value between double quotes. */
  function Cell(v: string): (c: string)
    ensures |c| >= 2 && c[0] == '"' && c[|c| - 1] == '"'
  {
    "\"" + DoubleQuotes(v) + "\""
  }

  /** A row's cells joined by commas. */
  function Line(cells: seq<string>): string {
    if cells == [] then ""
    else if |cells| == 1 then Cell(cells[0])
    else Cell(cells[0]) + "," + Line(cells[1..])
  }

  /** The rows joined by newlines. */
  function Text(rows: seq<seq<string>>): string {
    if rows == [] then ""
    else if |rows| == 1 then Line(rows[0])
    else Line(rows[0]) + ("\n" + Text(rows[1..]))
  }

  // ---------------------------------------------------------------------------
  // Reading

  /** Reads a quoted cell after its opening quote: its value and the text after the closing
      quote. A doubled quote stands for one quote; a single one closes the cell. */
  function Unquote(u: string): (r: Option<(string, string)>)
    ensures r.Some? ==> |r.value.1| < |u|
    decreases |u|
  {
    if u == [] then None
    else if u[0] == '"' then
      if |u| >= 2 && u[1] == '"' then
        match Unquote(u[2..])
        case None => None
        case Some(p) => Some(("\"" + p.0, p.1))
      else Some(("", u[1..]))
    else
      match Unquote(u[1..])
      case None => None
      case Some(p) => Some(([u[0]] + p.0, p.1))
  }

  /** The cells of one line, and the text after its newline when there is one. */
  datatype Cells = Cells(values: seq<string>, next: Option<string>)

  function ParseLine(t: string): (r: Option<Cells>)
    ensures r.Some? ==> |r.value.values| >= 1
    ensures r.Some? && r.value.next.Some? ==> |r.value.next.value| < |t|
    decreases |t|, 1
  {
    if t == [] || t[0] != '"' then None
    else
      match Unquote(t[1..])
      case None => None
      case Some(p) => AfterCell(p.0, p.1)
  }

  /** The line after a cell with value `v`: it ends at the end of the text or at a newline,
      goes on after a comma, and is malformed otherwise. */
  function AfterCell(v: string, rest: string): (r: Option<Cells>)
    ensures r.Some? ==> |r.value.values| >= 1
    ensures r.Some? && r.value.next.Some? ==> |r.value.next.value| < |rest|
    decreases |rest|, 0
  {
    if rest == [] then Some(Cells([v], None))
    else if rest[0] == '\n' then Some(Cells([v], Some(rest[1..])))
    else if rest[0] == ',' then
      match ParseLine(rest[1..])
      case None => None
      case Some(more) => Some(Cells([v] + more.values, more.next))
    else None
  }

  /** Reads a whole export back into its rows of cells. */
  function ParseText(t: string): (r: Option<seq<seq<string>>>)
    ensures r.Some? ==> |r.value| >= 1
    decreases |t|
  {
    match ParseLine(t)
    case None => None
    case Some(line) =>
      if line.next.None? then Some([line.values])
      else
        match ParseText(line.next.value)
        case None => None
        case Some(rows) => Some([line.values] + rows)
  }

  /** A cell body reads back as its value, provided no quote follows the closing one. */
  lemma {:induction false} UnquoteDoubled(v: string, rest: string)
    requires rest == [] || rest[0] != '"'
    ensures Unquote(DoubleQuotes(v) + "\"" + rest) == Some((v, rest))
  {
    if v == [] {
      UnquoteDoubledEmpty(rest);
    } else {
      UnquoteDoubled(v[1..], rest);
      UnquoteDoubledStep(v, rest);
    }
  }

  lemma UnquoteDoubledEmpty(rest: string)
    requires rest == [] || rest[0] != '"'
    ensures Unquote(DoubleQuotes("") + "\"" + rest) == Some(("", rest))
  {
    assert DoubleQuotes("") + "\"" + rest == "\"" + rest;
    UnquoteClose(rest);
  }

  lemma UnquoteDoubledStep(v: string, rest: string)
    requires v != []
    requires Unquote(DoubleQuotes(v[1..]) + "\"" + rest) == Some((v[1..], rest))
    ensures Unquote(DoubleQuotes(v) + "\"" + rest) == Some((v, rest))
  {
    var d := DoubleQuotes(v[1..]);
    var h: string := if v[0] == '"' then "\"\"" else [v[0]];
    assert DoubleQuotes(v) == h + d;
    Regroup(h, d, "\"", rest);
    if v[0] == '"' {
      UnquotePair(d + "\"" + rest);
      assert "\"" + v[1..] == v;
    } else {
      UnquoteOther(v[0], d + "\"" + rest);
      assert [v[0]] + v[1..] == v;
    }
  }

  lemma Regroup(a: string, b: string, c: string, d: string)
    ensures a + b + c + d == a + (b + c + d)
  {
  }

  /** A single quote not followed by another closes the cell. */
  lemma UnquoteClose(rest: string)
    requires rest == [] || rest[0] != '"'
    ensures Unquote("\"" + rest) == Some(("", rest))
  {
    assert ("\"" + rest)[1..] == rest;
  }

  /** A doubled quote reads as one quote of the value. */
  lemma UnquotePair(t: string)
    ensures Unquote("\"\"" + t) == if Unquote(t).None? then None else Some(("\"" + Unquote(t).value.0, Unquote(t).value.1))
  {
    assert ("\"\"" + t)[2..] == t;
  }

  /** Any other character is the value's own. */
  lemma UnquoteOther(c: char, t: string)
    requires c != '"'
    ensures Unquote([c] + t) == if Unquote(t).None? then None else Some(([c] + Unquote(t).value.0, Unquote(t).value.1))
  {
    assert ([c] + t)[1..] == t;
  }

  /** A cell followed by anything but a quote reads back as its value, and the line goes on
      from the text after it. */
  lemma CellThen(v: string, after: string)
    requires after == [] || after[0] != '"'
    ensures ParseLine(Cell(v) + after) == AfterCell(v, after)
  {
    var t := Cell(v) + after;
    assert t[0] == '"';
    assert t[1..] == DoubleQuotes(v) + "\"" + after;
    UnquoteDoubled(v, after);
  }

  /** A line followed by the end of the text or by a newline reads back as its cells. */
  lemma {:induction false} ParseLineOf(cells: seq<string>, tail: string)
    requires |cells| >= 1
    requires tail == [] || tail[0] == '\n'
    ensures ParseLine(Line(cells) + tail) == Some(Cells(cells, if tail == [] then None else Some(tail[1..])))
  {
    if |cells| == 1 {
      CellThen(cells[0], tail);
      assert [cells[0]] == cells;
    } else {
      ParseLineOf(cells[1..], tail);
      ParseLineStep(cells, tail);
    }
  }

  lemma ParseLineStep(cells: seq<string>, tail: string)
    requires |cells| >= 2
    requires tail == [] || tail[0] == '\n'
    requires ParseLine(Line(cells[1..]) + tail) == Some(Cells(cells[1..], if tail == [] then None else Some(tail[1..])))
    ensures ParseLine(Line(cells) + tail) == Some(Cells(cells, if tail == [] then None else Some(tail[1..])))
  {
    var rest := Line(cells[1..]);
    assert Line(cells) == Cell(cells[0]) + "," + rest;
    Regroup(Cell(cells[0]), ",", rest, tail);
    var after := "," + rest + tail;
    DropFirst(',', rest, tail);
    CellThen(cells[0], after);
    assert [cells[0]] + cells[1..] == cells;
  }

  lemma DropFirst(c: char, a: string, b: string)
    ensures ([c] + a + b)[0] == c && ([c] + a + b)[1..] == a + b
  {
  }

  /** Reading inverts writing for any nonempty list of nonempty rows, whatever the cells
      hold: quotes, commas and newlines inside a value survive. */
  lemma {:induction false} ParseTextOf(rows: seq<seq<string>>)
    requires |rows| >= 1
    requires forall i :: 0 <= i < |rows| ==> |rows[i]| >= 1
    ensures ParseText(Text(rows)) == Some(rows)
  {
    if |rows| == 1 {
      assert Text(rows) == Line(rows[0]) + "";
      ParseLineOf(rows[0], "");
      assert [rows[0]] == rows;
    } else {
      ParseTextOf(rows[1..]);
      ParseTextStep(rows);
    }
  }

  lemma ParseTextStep(rows: seq<seq<string>>)
    requires |rows| >= 2 && |rows[0]| >= 1
    requires ParseText(Text(rows[1..])) == Some(rows[1..])
    ensures ParseText(Text(rows)) == Some(rows)
  {
    TextFirstLine(rows);
    ParseTextCons(Text(rows), rows[0], Text(rows[1..]), rows[1..]);
    assert [rows[0]] + rows[1..] == rows;
  }

  /** The first line of a text of several rows reads as the first row, up to the rest. */
  lemma TextFirstLine(rows: seq<seq<string>>)
    requires |rows| >= 2 && |rows[0]| >= 1
    ensures ParseLine(Text(rows)) == Some(Cells(rows[0], Some(Text(rows[1..]))))
  {
    var tail := "\n" + Text(rows[1..]);
    assert tail[1..] == Text(rows[1..]);
    ParseLineOf(rows[0], tail);
  }

  /** A text whose first line is followed by more lines reads as that line, then those. */
  lemma ParseTextCons(t: string, cells: seq<string>, more: string, rows: seq<seq<string>>)
    requires ParseLine(t) == Some(Cells(cells, Some(more)))
    requires ParseText(more) == Some(rows)
    ensures ParseText(t) == Some([cells] + rows)
  {
  }

  // ---------------------------------------------------------------------------
  // GET /api/admin/receipts/export

  /** The three query parameters; a parameter missing from the URL is None (null). */
  datatype Query = Query(status: Option<string>, from: Option<string>, to: Option<string>)

  /** The filter schema: each parameter optional or empty. An optional member accepts an
      absent value but not null, and a missing query parameter reads as null, so all three
      must be present; the admin page's export form always sends them. */
  predicate ValidQuery(q: Query) {
    && q.status.Some? && (q.status.value == "" || ParseStatus(q.status.value).Some?)
    && q.from.Some?
    && q.to.Some?
  }

  /** A date parameter: none when empty, otherwise the instant `parsed` the date parser makes
      of it, none when that is not a valid date. */
  function ToDateOrNull(value: string, parsed: Option<int>): (d: Option<int>)
    ensures d.Some? <==> value != "" && parsed.Some?
    ensures d.Some? ==> d == parsed
  {
    if value == "" then None else parsed
  }

  /** The receipts of the organisation with the status, if one is given, created within
      the bounds that are given (both inclusive). */
  predicate Selects(r: Receipt, org: OrgId, status: Option<Status>, from: Option<int>, to: Option<int>) {
    && r.orgId == org
    && (status.Some? ==> r.status == status.value)
    && (from.Some? ==> r.createdAt >= from.value)
    && (to.Some? ==> r.createdAt <= to.value)
  }

  function Selected(rows: seq<Receipt>, org: OrgId, status: Option<Status>, from: Option<int>, to: Option<int>): (r: seq<Receipt>)
    ensures |r| <= |rows|
  {
    if rows == [] then []
    else
      var rest := Selected(rows[1..], org, status, from, to);
      if Selects(rows[0], org, status, from, to) then [rows[0]] + rest else rest
  }

  /** A receipt's ten cells, in header order; instants are written as their milliseconds. */
  function Columns(r: Receipt): (c: seq<string>)
    ensures |c| == |Header|
  {
    [r.id, r.description, IntToString(r.amountCents), CategoryName(r.category), StatusName(r.status),
     r.photoKey, ReceiptUpdate.TimestampText(Some(r.createdAt)), ReceiptUpdate.TimestampText(r.paidAt),
     r.paidVia.GetOr(""), r.paidNote.GetOr("")]
  }

  function Body(rs: seq<Receipt>): (b: seq<seq<string>>)
    ensures |b| == |rs|
    ensures forall i :: 0 <= i < |rs| ==> b[i] == Columns(rs[i])
  {
    if rs == [] then [] else [Columns(rs[0])] + Body(rs[1..])
  }

  /** GET. `rows` is the receipts table in descending creation order; `fromDate` and
      `toDate` are what the date parser makes of the two bounds. The reply is the CSV. */
  function Export(ctx: Ctx, q: Query, fromDate: Option<int>, toDate: Option<int>, rows: seq<Receipt>): (r: Result<string>)
    ensures RequireRole(ctx, Admin).Fail? ==> r == Fail(Forbidden)
    ensures RequireRole(ctx, Admin).Ok? && !ValidQuery(q) ==> r == Fail(InvalidFilters)
  {
    match RequireRole(ctx, Admin)
    case Fail(f) => Fail(f)
    case Ok(session) =>
      if !ValidQuery(q) then Fail(InvalidFilters)
      else
        var status := if q.status.value == "" then None else ParseStatus(q.status.value);
        var picked := Selected(rows, session.orgId, status,
                               ToDateOrNull(q.from.value, fromDate), ToDateOrNull(q.to.value, toDate));
        Ok(Text([Header] + Body(picked)))
  }

  // ---------------------------------------------------------------------------
  // Properties

  /** The selection keeps the table's order and holds exactly the receipts that match. */
  lemma {:induction false} SelectedExactly(rows: seq<Receipt>, org: OrgId, status: Option<Status>, from: Option<int>, to: Option<int>)
    ensures forall x :: x in Selected(rows, org, status, from, to) <==> x in rows && Selects(x, org, status, from, to)
  {
    if rows != [] {
      SelectedExactly(rows[1..], org, status, from, to);
      assert forall x :: x in rows <==> x == rows[0] || x in rows[1..];
    }
  }

  /** The export is produced exactly for an admin session (not exec or treasurer, who see
      the export form on the admin page) with all three parameters present and a known or
      empty status. */
  lemma ExportSucceedsExactly(ctx: Ctx, q: Query, fromDate: Option<int>, toDate: Option<int>, rows: seq<Receipt>)
    ensures Export(ctx, q, fromDate, toDate, rows).Ok? <==>
              && GetSessionUser(ctx).Some? && GetSessionUser(ctx).value.role == Admin
              && ValidQuery(q)
    ensures GetSessionUser(ctx).Some? && GetSessionUser(ctx).value.role in {Exec, Treasurer} ==>
              Export(ctx, q, fromDate, toDate, rows) == Fail(Forbidden)
  {
  }

  /** A request without one of the parameters is refused, even though each is declared
      optional. */
  lemma MissingParameterRefused(ctx: Ctx, fromDate: Option<int>, toDate: Option<int>, rows: seq<Receipt>)
    requires RequireRole(ctx, Admin).Ok?
    ensures Export(ctx, Query(None, Some(""), Some("")), fromDate, toDate, rows) == Fail(InvalidFilters)
    ensures Export(ctx, Query(Some(""), None, Some("")), fromDate, toDate, rows) == Fail(InvalidFilters)
    ensures Export(ctx, Query(Some(""), Some(""), None), fromDate, toDate, rows) == Fail(InvalidFilters)
  {
  }

  /** The export reads back as the header followed by one row of ten cells per selected
      receipt, in table order; the selected receipts are exactly the session organisation's
      receipts that have the requested status (every status when it is empty) and were
      created within the bounds that are nonempty and parse. */
  lemma ExportReadsBack(ctx: Ctx, q: Query, fromDate: Option<int>, toDate: Option<int>, rows: seq<Receipt>)
    requires Export(ctx, q, fromDate, toDate, rows).Ok?
    ensures var session := GetSessionUser(ctx).value;
            var status := if q.status.value == "" then None else ParseStatus(q.status.value);
            var from := ToDateOrNull(q.from.value, fromDate);
            var to := ToDateOrNull(q.to.value, toDate);
            var picked := Selected(rows, session.orgId, status, from, to);
            && ParseText(Export(ctx, q, fromDate, toDate, rows).value) == Some([Header] + Body(picked))
            && (forall x :: x in picked <==> x in rows && Selects(x, session.orgId, status, from, to))
            && (forall x :: x in picked ==> x.orgId == session.orgId)
  {
    var session := GetSessionUser(ctx).value;
    var status := if q.status.value == "" then None else ParseStatus(q.status.value);
    var from := ToDateOrNull(q.from.value, fromDate);
    var to := ToDateOrNull(q.to.value, toDate);
    var picked := Selected(rows, session.orgId, status, from, to);
    assert Export(ctx, q, fromDate, toDate, rows).value == Text([Header] + Body(picked));
    TableReadsBack(picked);
    SelectedExactly(rows, session.orgId, status, from, to);
  }

  /** The header and the receipts' rows read back from their text. */
  lemma TableReadsBack(picked: seq<Receipt>)
    ensures ParseText(Text([Header] + Body(picked))) == Some([Header] + Body(picked))
  {
    var table := [Header] + Body(picked);
    assert forall i :: 0 <= i < |table| ==> |table[i]| == |Header|;
    ParseTextOf(table);
  }

  /** Every cell of the export reads back as the value it was written from. */
  lemma CellReadsBack(v: string)
    ensures var c := Cell(v); Unquote(c[1..]) == Some((v, ""))
  {
    var c := Cell(v);
    assert c[1..] == DoubleQuotes(v) + "\"" + "";
    UnquoteDoubled(v, "");
  }
}

=== FILE: forgot_password.dfy ===
/** Requesting a password-reset link (src/app/api/auth/forgot-password/route.ts): a
    rate-limited, non-disclosing request that stores only the digest of a fresh token and
    mails the raw token inside a link. */
module ForgotPassword {
  import opened Common
  import opened Db

  const RATE_LIMIT_WINDOW_MS: int := 60 * 60 * 1000
  const RATE_LIMIT_MAX: nat := 3
  /** A reset token lives for one hour from its creation. */
  const RESET_TOKEN_TTL_MS: int := 60 * 60 * 1000

  const Acknowledged: string := "If that email exists, we sent a reset link."
  const InvalidEmail: Failure := Failure(400, "Invalid email.")
  const SendFailed: Failure := Failure(500, "Failed to send email. Please try again later.")
  /** An insert that violates the unique token digest throws; the framework answers 500. */
  const InsertFailed: Failure := Failure(500, "Internal Server Error")

  /** The deployment's environment variables that the link's base URL is built from. */
  datatype Env = Env(nextAuthUrl: Option<string>, vercelUrl: Option<string>)

  /** The request's JSON email field and its Origin header. A missing or non-string email is
      represented by "", which is not an email. */
  datatype ForgotRequest = ForgotRequest(email: string, origin: Option<string>)

  datatype Mail = Mail(to: string, url: string)

  /** The route's effect: the store afterwards, the reply, and the mail handed to the mailer. */
  datatype Outcome = Outcome(store: Store, reply: Result<string>, mail: Option<Mail>)

  /** A JavaScript string conversion of an optional value in a template literal. */
  function JsString(v: Option<string>): string {
    if v.Some? then v.value else "undefined"
  }

  /** JavaScript truthiness of an optional string: present and nonempty. */
  predicate Truthy(v: Option<string>) {
    v.Some? && v.value != ""
  }

  /** `a ?? b` on optional strings. */
  function Coalesce(a: Option<string>, b: Option<string>): Option<string> {
    if a.Some? then a else b
  }

  const LocalBaseUrl: string := "http://localhost:3000"

  /** The base URL as the expression is written: the conditional operator binds looser than
      `??`, so the test is `NEXTAUTH_URL ?? VERCEL_URL` and a set NEXTAUTH_URL selects the
      Vercel branch. */
  function ResetBaseUrlAsWritten(env: Env, origin: Option<string>): string {
    if Truthy(Coalesce(env.nextAuthUrl, env.vercelUrl)) then "https://" + JsString(env.vercelUrl)
    else Coalesce(origin, Some(LocalBaseUrl)).value
  }

  /** The base URL as evidently intended: NEXTAUTH_URL when set, else the Vercel host, else
      the request's origin, else localhost. */
  function ResetBaseUrl(env: Env, origin: Option<string>): (url: string)
    ensures env.nextAuthUrl.Some? ==> url == env.nextAuthUrl.value
    ensures env.nextAuthUrl.None? && Truthy(env.vercelUrl) ==> url == "https://" + env.vercelUrl.value
    ensures env.nextAuthUrl.None? && !Truthy(env.vercelUrl) && origin.Some? ==> url == origin.value
    ensures env.nextAuthUrl.None? && !Truthy(env.vercelUrl) && origin.None? ==> url == LocalBaseUrl
  {
    if env.nextAuthUrl.Some? then env.nextAuthUrl.value
    else if Truthy(env.vercelUrl) then "https://" + env.vercelUrl.value
    else if origin.Some? then origin.value
    else LocalBaseUrl
  }

  /** With NEXTAUTH_URL configured and no Vercel host, the written expression builds links
      to "https://undefined" instead of the configured URL. */
  lemma BaseUrlPrecedenceCounterexample()
    ensures var env := Env(Some("https://rush.example.org"), None);
            && ResetBaseUrlAsWritten(env, None) == "https://undefined"
            && ResetBaseUrl(env, None) == "https://rush.example.org"
  {
  }

  /** The two readings agree whenever NEXTAUTH_URL is unset: the precedence slip only
      matters once it is configured. */
  lemma BaseUrlAgreesWithoutNextAuthUrl(env: Env, origin: Option<string>)
    requires env.nextAuthUrl.None?
    ensures ResetBaseUrlAsWritten(env, origin) == ResetBaseUrl(env, origin)
  {
  }

  /** The link mailed to the user. */
  function ResetUrl(baseUrl: string, rawToken: string): string {
    baseUrl + "/reset-password?token=" + rawToken
  }

  /** A token row counts toward an address's limit when its user has that address and it
      was created no earlier than one window before now. */
  predicate CountsToward(s: Store, d: Digest, email: string, nowMs: int)
    requires d in s.resetTokens
  {
    var t := s.resetTokens[d];
    t.userId in s.users && s.users[t.userId].email == email && t.createdAt >= nowMs - RATE_LIMIT_WINDOW_MS
  }

  function RecentTokens(s: Store, email: string, nowMs: int): set<Digest> {
    set d | d in s.resetTokens && CountsToward(s, d, email, nowMs)
  }

  function RecentCount(s: Store, email: string, nowMs: int): nat {
    |RecentTokens(s, email, nowMs)|
  }

  /** POST. `rawToken` stands for the 32 random bytes in hex and `sent` for the mailer's
      answer. The link's base is computed as the route writes it. */
  function RequestReset(s: Store, req: ForgotRequest, env: Env, nowMs: int, rawToken: string, sent: bool): (o: Outcome)
    ensures !IsEmail(req.email) ==> o == Outcome(s, Fail(InvalidEmail), None)
    ensures o.reply.Fail? ==> o.reply.failure in {InvalidEmail, SendFailed, InsertFailed}
    ensures o.reply.Ok? ==> o.reply.value == Acknowledged
    ensures o.store != s ==> o.store.resetTokens.Keys == s.resetTokens.Keys + {HashToken(rawToken)}
  {
    Issue(s, req, ResetBaseUrlAsWritten(env, req.origin), nowMs, rawToken, sent)
  }

  /** POST with the base URL as evidently intended. */
  function RequestResetIntended(s: Store, req: ForgotRequest, env: Env, nowMs: int, rawToken: string, sent: bool): (o: Outcome)
    ensures o.store == RequestReset(s, req, env, nowMs, rawToken, sent).store
    ensures o.reply == RequestReset(s, req, env, nowMs, rawToken, sent).reply
    ensures o.mail.Some? <==> RequestReset(s, req, env, nowMs, rawToken, sent).mail.Some?
    ensures o.mail.Some? ==> o.mail.value.url == ResetUrl(ResetBaseUrl(env, req.origin), rawToken)
  {
    Issue(s, req, ResetBaseUrl(env, req.origin), nowMs, rawToken, sent)
  }

  /** The route's steps once the link's base URL is known. */
  function Issue(s: Store, req: ForgotRequest, baseUrl: string, nowMs: int, rawToken: string, sent: bool): (o: Outcome)
    ensures o.mail.Some? ==> o.mail.value.url == ResetUrl(baseUrl, rawToken)
    ensures !IsEmail(req.email) ==> o == Outcome(s, Fail(InvalidEmail), None)
    ensures o.reply.Fail? ==> o.reply.failure in {InvalidEmail, SendFailed, InsertFailed}
    ensures o.reply.Ok? ==> o.reply.value == Acknowledged
    ensures o.store != s ==> o.store.resetTokens.Keys == s.resetTokens.Keys + {HashToken(rawToken)}
  {
    if !IsEmail(req.email) then Outcome(s, Fail(InvalidEmail), None)
    else
      var email := ToLower(req.email);
      if RecentCount(s, email, nowMs) >= RATE_LIMIT_MAX then Outcome(s, Ok(Acknowledged), None)
      else match UserByEmail(s, email)
        case None => Outcome(s, Ok(Acknowledged), None)
        case Some(userId) =>
          var digest := HashToken(rawToken);
          if digest in s.resetTokens then Outcome(s, Fail(InsertFailed), None)
          else
            var s' := s.(resetTokens := s.resetTokens[digest := ResetToken(userId, nowMs + RESET_TOKEN_TTL_MS, nowMs)]);
            var mail := Mail(email, ResetUrl(baseUrl, rawToken));
            Outcome(s', if sent then Ok(Acknowledged) else Fail(SendFailed), Some(mail))
  }

  /** A token is issued exactly for a well-formed, known address under its limit (and a fresh
      digest); the row holds the digest, never the raw token, belongs to that user, and
      expires one hour after its creation. Nothing else in the store changes. */
  lemma IssuesExactly(s: Store, req: ForgotRequest, env: Env, nowMs: int, rawToken: string, sent: bool)
    ensures var o := RequestReset(s, req, env, nowMs, rawToken, sent);
            var email := ToLower(req.email);
            o.store != s <==>
              IsEmail(req.email) && RecentCount(s, email, nowMs) < RATE_LIMIT_MAX
              && UserByEmail(s, email).Some? && HashToken(rawToken) !in s.resetTokens
    ensures var o := RequestReset(s, req, env, nowMs, rawToken, sent);
            var email := ToLower(req.email);
            o.store != s ==>
              && o.store == s.(resetTokens := s.resetTokens[HashToken(rawToken) :=
                                 ResetToken(UserByEmail(s, email).value, nowMs + RESET_TOKEN_TTL_MS, nowMs)])
              && o.mail == Some(Mail(email, ResetUrl(ResetBaseUrlAsWritten(env, req.origin), rawToken)))
  {
    var o := RequestReset(s, req, env, nowMs, rawToken, sent);
    if IsEmail(req.email) && RecentCount(s, ToLower(req.email), nowMs) < RATE_LIMIT_MAX
       && UserByEmail(s, ToLower(req.email)).Some? && HashToken(rawToken) !in s.resetTokens {
      assert HashToken(rawToken) in o.store.resetTokens;
    }
  }

  /** With a nonempty NEXTAUTH_URL and no Vercel host, the route mails a link to host
      "undefined", while the intended route mails the configured URL. */
  lemma MailedLinkWithConfiguredUrl(s: Store, req: ForgotRequest, env: Env, nowMs: int, rawToken: string, sent: bool)
    requires Truthy(env.nextAuthUrl) && env.vercelUrl.None?
    requires RequestReset(s, req, env, nowMs, rawToken, sent).mail.Some?
    ensures RequestReset(s, req, env, nowMs, rawToken, sent).mail.value.url
            == ResetUrl("https://undefined", rawToken)
    ensures RequestResetIntended(s, req, env, nowMs, rawToken, sent).mail.value.url
            == ResetUrl(env.nextAuthUrl.value, rawToken)
  {
    assert ResetBaseUrlAsWritten(env, req.origin) == "https://undefined";
  }

  /** The reply does not tell a registered address from an unregistered one: with the mail
      delivered, both get the same acknowledgement, as does a rate-limited address. */
  lemma ReplyDoesNotDiscloseAccount(s: Store, req: ForgotRequest, env: Env, nowMs: int, rawToken: string)
    requires IsEmail(req.email) && HashToken(rawToken) !in s.resetTokens
    ensures RequestReset(s, req, env, nowMs, rawToken, true).reply == Ok(Acknowledged)
  {
  }

  /** A new token row is counted toward its own user's address and no other, so a request
      raises its address's count by at most one and only from below the limit; other
      addresses keep their counts. */
  lemma RecentCountStep(s: Store, req: ForgotRequest, env: Env, nowMs: int, rawToken: string, sent: bool, other: string)
    requires IsEmail(req.email) && other != ToLower(req.email)
    ensures var o := RequestReset(s, req, env, nowMs, rawToken, sent);
            var email := ToLower(req.email);
            && (o.store == s || (RecentCount(s, email, nowMs) < RATE_LIMIT_MAX
                                && RecentCount(o.store, email, nowMs) == RecentCount(s, email, nowMs) + 1))
            && RecentCount(o.store, other, nowMs) == RecentCount(s, other, nowMs)
  {
    var o := RequestReset(s, req, env, nowMs, rawToken, sent);
    var email := ToLower(req.email);
    if o.store != s {
      var d := HashToken(rawToken);
      var row := ResetToken(UserByEmail(s, email).value, nowMs + RESET_TOKEN_TTL_MS, nowMs);
      assert o.store == s.(resetTokens := s.resetTokens[d := row]);
      RecentTokensAfterInsert(s, d, row, email, nowMs);
      RecentTokensAfterInsert(s, d, row, other, nowMs);
    }
  }

  /** Inserting a fresh token row adds it to the recent tokens of its user's address, if it
      is recent, and to no other address's. */
  lemma RecentTokensAfterInsert(s: Store, d: Digest, row: ResetToken, e: string, nowMs: int)
    requires d !in s.resetTokens
    ensures var t := s.(resetTokens := s.resetTokens[d := row]);
            var counts := row.userId in s.users && s.users[row.userId].email == e
                          && row.createdAt >= nowMs - RATE_LIMIT_WINDOW_MS;
            && RecentTokens(t, e, nowMs) == RecentTokens(s, e, nowMs) + (if counts then {d} else {})
            && RecentCount(t, e, nowMs) == RecentCount(s, e, nowMs) + (if counts then 1 else 0)
  {
    var t := s.(resetTokens := s.resetTokens[d := row]);
    var counts := row.userId in s.users && s.users[row.userId].email == e
                  && row.createdAt >= nowMs - RATE_LIMIT_WINDOW_MS;
    var added: set<Digest> := if counts then {d} else {};
    forall x
      ensures x in RecentTokens(t, e, nowMs) <==> x in RecentTokens(s, e, nowMs) + added
    {
      if x != d && x in s.resetTokens {
        assert CountsToward(t, x, e, nowMs) == CountsToward(s, x, e, nowMs);
      }
    }
    assert RecentTokens(t, e, nowMs) == RecentTokens(s, e, nowMs) + added;
    assert d !in RecentTokens(s, e, nowMs);
  }

  /** Under the limit at most three links per address per hour: a store within the limit
      stays within it. */
  lemma RateLimitPreserved(s: Store, req: ForgotRequest, env: Env, nowMs: int, rawToken: string, sent: bool, e: string)
    requires RecentCount(s, e, nowMs) <= RATE_LIMIT_MAX
    ensures RecentCount(RequestReset(s, req, env, nowMs, rawToken, sent).store, e, nowMs) <= RATE_LIMIT_MAX
  {
    if IsEmail(req.email) && e != ToLower(req.email) {
      RecentCountStep(s, req, env, nowMs, rawToken, sent, e);
    } else if IsEmail(req.email) {
      var other := if e == "" then "x" else "";
      RecentCountStep(s, req, env, nowMs, rawToken, sent, other);
    }
  }

  /** As time passes the window only loses rows: a later count is never larger. */
  lemma RecentCountShrinksOverTime(s: Store, email: string, t1: int, t2: int)
    requires t1 <= t2
    ensures RecentCount(s, email, t2) <= RecentCount(s, email, t1)
  {
    SubsetCardinality(RecentTokens(s, email, t2), RecentTokens(s, email, t1));
  }

  /** A failed delivery still leaves the token row behind: the row is written first. */
  lemma SendFailureKeepsToken(s: Store, req: ForgotRequest, env: Env, nowMs: int, rawToken: string)
    requires RequestReset(s, req, env, nowMs, rawToken, false).mail.Some?
    ensures var o := RequestReset(s, req, env, nowMs, rawToken, false);
            o.reply == Fail(SendFailed) && HashToken(rawToken) in o.store.resetTokens
  {
  }
}

=== FILE: gate.dfy ===
/** The request gate (middleware.ts): runs before every matched page request and decides,
    from the path and the session cookie alone, whether to pass the request through,
    redirect it, or forward it with identity headers and a renewed cookie. */
module Gate {
  import opened Common
  import opened Permissions
  import opened Jwt
  import opened Auth

  const PublicPaths: seq<string> := ["/", "/login", "/signup", "/invite", "/setup-chapter"]

  /** Public pages: an explicit static table, compared by exact equality. */
  predicate IsPublic(path: string) {
    path in PublicPaths
  }

  /** The paths the gate runs on: the public pages, "/app" and everything under "/app/". */
  predicate Matched(path: string) {
    IsPublic(path) || path == "/app" || StartsWith(path, "/app/")
  }

  const AdminPrefix: string := "/app/admin"

  /** The role names the gate admits under /app/admin, written out in middleware.ts. */
  const GateAdminRoles: seq<string> := ["admin", "exec", "treasurer"]

  datatype Location = AppHome | LoginWithNext(next: string)

  datatype Request = Request(path: string, cookie: Option<Token>, headers: map<string, string>)

  datatype Decision =
    | PassThrough
    | Redirect(to: Location, setCookie: Option<CookieWrite>)
    | Forward(headers: map<string, string>, renewed: CookieWrite)

  /** The incoming headers with x-user-id, x-org-id and x-role overwritten from the token;
      each header is set only when its claim is a nonempty string. */
  function IdentityHeaders(incoming: map<string, string>, p: Payload): map<string, string> {
    var h1 := if p.sub != "" then incoming["x-user-id" := p.sub] else incoming;
    var h2 := if p.orgId != "" then h1["x-org-id" := p.orgId] else h1;
    h2["x-role" := RoleName(p.role)]
  }

  /** middleware(request). */
  function Middleware(req: Request, key: string, nowMs: int, production: bool): (d: Decision)
    ensures d.PassThrough? ==> IsPublic(req.path) && GetSessionUser(Ctx(req.cookie, key, nowMs, production)).None?
    ensures d.Forward? ==> !IsPublic(req.path) && GetSessionUser(Ctx(req.cookie, key, nowMs, production)).Some?
    ensures d.Redirect? && d.setCookie.Some? ==> d.to == AppHome && IsPublic(req.path)
    ensures d.Redirect? && d.to.LoginWithNext? ==> d.to.next == req.path && d.setCookie.None?
  {
    var ctx := Ctx(req.cookie, key, nowMs, production);
    if IsPublic(req.path) then
      match SessionToken(req.cookie)
      case None => PassThrough
      case Some(t) =>
        match VerifySessionToken(t, key, nowMs)
        case None => PassThrough
        case Some(p) => Redirect(AppHome, Some(SessionCookie(p.sub, p.role, p.orgId, ctx)))
    else
      match SessionToken(req.cookie)
      case None => Redirect(LoginWithNext(req.path), None)
      case Some(t) =>
        match VerifySessionToken(t, key, nowMs)
        case None => Redirect(LoginWithNext(req.path), None)
        case Some(p) =>
          if StartsWith(req.path, AdminPrefix) && RoleName(p.role) !in GateAdminRoles then
            Redirect(AppHome, None)
          else
            Forward(IdentityHeaders(req.headers, p), SessionCookie(p.sub, p.role, p.orgId, ctx))
  }

  /** A request as the framework serves it: the gate runs only on the matcher's paths, and
      every other request (the API routes among them) reaches its page or route as sent. */
  function Gated(req: Request, key: string, nowMs: int, production: bool): Decision {
    if Matched(req.path) then Middleware(req, key, nowMs, production) else PassThrough
  }

  /** The request states of the gate, defined from the matcher, the session resolver and
      the permission predicates rather than from the gate's own checks. */
  datatype GateState =
    | Ungated
    | PublicAnonymousOk
    | PublicAuthenticatedRedirect
    | ProtectedUnauthenticatedRedirect
    | ProtectedAuthenticatedAllow
    | ProtectedAuthenticatedForbidden

  function Classify(req: Request, key: string, nowMs: int): GateState {
    var session := GetSessionUser(Ctx(req.cookie, key, nowMs, false));
    if !Matched(req.path) then Ungated
    else if IsPublic(req.path) then
      (if session.None? then PublicAnonymousOk else PublicAuthenticatedRedirect)
    else if session.None? then ProtectedUnauthenticatedRedirect
    else if StartsWith(req.path, AdminPrefix) && !CanAccessAdmin(session.value.role) then
      ProtectedAuthenticatedForbidden
    else ProtectedAuthenticatedAllow
  }

  /** The gate realises the state machine: each state has its one outcome, the renewed
      cookie keeps the token's identity, and login redirects carry the requested path. */
  lemma GateFollowsStateMachine(req: Request, key: string, nowMs: int, production: bool)
    ensures var d := Gated(req, key, nowMs, production);
            var ctx := Ctx(req.cookie, key, nowMs, production);
            match Classify(req, key, nowMs)
            case Ungated => d == PassThrough
            case PublicAnonymousOk => d == PassThrough
            case PublicAuthenticatedRedirect =>
              var s := GetSessionUser(ctx).value;
              d == Redirect(AppHome, Some(SessionCookie(s.userId, s.role, s.orgId, ctx)))
            case ProtectedUnauthenticatedRedirect => d == Redirect(LoginWithNext(req.path), None)
            case ProtectedAuthenticatedForbidden => d == Redirect(AppHome, None)
            case ProtectedAuthenticatedAllow =>
              var s := GetSessionUser(ctx).value;
              d.Forward? && d.renewed == SessionCookie(s.userId, s.role, s.orgId, ctx)
  {
    var ctx := Ctx(req.cookie, key, nowMs, production);
    assert GetSessionUser(ctx) == GetSessionUser(Ctx(req.cookie, key, nowMs, false));
  }

  /** The matcher gates the public pages, /app and every path under /app/, which includes
      the whole admin area; the API routes and look-alikes such as /application are not
      gated and answer for themselves. */
  lemma MatcherScope(path: string)
    ensures IsPublic(path) ==> Matched(path)
    ensures StartsWith(path, AdminPrefix) ==> Matched(path) && !IsPublic(path)
    ensures StartsWith(path, "/api/") ==> !Matched(path)
    ensures Matched("/app") && Matched("/app/receipts") && !Matched("/application")
  {
    if StartsWith(path, AdminPrefix) {
      AdminPathIsProtected(path);
      assert path[..5] == AdminPrefix[..5];
    }
    if StartsWith(path, "/api/") {
      assert path[3] == 'i' != "/app/"[3];
    }
    assert "/application"[4] != "/app/"[4];
    assert forall q :: q in PublicPaths ==> q != "/application";
  }

  /** Public pages: exactly the five listed paths. */
  lemma PublicPathsExactly(path: string)
    ensures IsPublic(path) <==> path in {"/", "/login", "/signup", "/invite", "/setup-chapter"}
  {
  }

  /** A public page with no token, or with a token that does not verify, passes unchanged. */
  lemma PublicWithoutSessionPasses(req: Request, key: string, nowMs: int, production: bool)
    requires IsPublic(req.path)
    requires GetSessionUser(Ctx(req.cookie, key, nowMs, production)).None?
    ensures Gated(req, key, nowMs, production) == PassThrough
  {
  }

  /** A gated protected path (/app and below) without a usable session always goes to login
      with next = path; an ungated path is not redirected whatever its cookie. */
  lemma ProtectedWithoutSessionToLogin(req: Request, key: string, nowMs: int, production: bool)
    requires !IsPublic(req.path)
    requires GetSessionUser(Ctx(req.cookie, key, nowMs, production)).None?
    ensures Matched(req.path) ==> Gated(req, key, nowMs, production) == Redirect(LoginWithNext(req.path), None)
    ensures !Matched(req.path) ==> Gated(req, key, nowMs, production) == PassThrough
  {
  }

  /** No public page lies under /app/admin. */
  lemma AdminPathIsProtected(path: string)
    requires StartsWith(path, AdminPrefix)
    ensures !IsPublic(path)
  {
    assert "/setup-chapter"[1] != AdminPrefix[1];
    assert forall q :: q in PublicPaths ==> !StartsWith(q, AdminPrefix);
  }

  /** Under /app/admin a role outside admin/exec/treasurer is redirected home, never forwarded. */
  lemma AdminAreaNeverForwardsMember(req: Request, key: string, nowMs: int, production: bool)
    requires StartsWith(req.path, AdminPrefix)
    requires var s := GetSessionUser(Ctx(req.cookie, key, nowMs, production));
             s.Some? && !CanAccessAdmin(s.value.role)
    ensures Gated(req, key, nowMs, production) == Redirect(AppHome, None)
  {
    MatcherScope(req.path);
  }

  /** A forwarded request carries the token's identity in the three headers, overriding
      whatever the client sent under those names; other headers are kept. */
  lemma ForwardedHeadersComeFromToken(req: Request, key: string, nowMs: int, production: bool)
    requires Gated(req, key, nowMs, production).Forward?
    ensures Matched(req.path) && !IsPublic(req.path)
    ensures var s := GetSessionUser(Ctx(req.cookie, key, nowMs, production));
            var h := Gated(req, key, nowMs, production).headers;
            && s.Some?
            && h["x-role"] == RoleName(s.value.role)
            && (s.value.userId != "" ==> h["x-user-id"] == s.value.userId)
            && (s.value.orgId != "" ==> h["x-org-id"] == s.value.orgId)
            && (forall n :: n in req.headers && n !in {"x-user-id", "x-org-id", "x-role"}
                  ==> n in h && h[n] == req.headers[n])
  {
  }

  /** Every forwarded admin-area request would also pass requireAdminRole. */
  lemma ForwardedAdminPassesAdminGuard(req: Request, key: string, nowMs: int, production: bool)
    requires StartsWith(req.path, AdminPrefix)
    requires Gated(req, key, nowMs, production).Forward?
    ensures RequireAdminRole(Ctx(req.cookie, key, nowMs, production)).Ok?
  {
    MatcherScope(req.path);
  }

  /** Scenario: with the same valid token body, a treasurer reaches /app/admin while a member
      is sent back to /app. */
  lemma TreasurerInMemberOut(p: Payload, key: string, nowMs: int, production: bool, headers: map<string, string>)
    requires nowMs / 1000 < p.exp
    ensures var t := p.(role := Treasurer);
            Gated(Request("/app/admin", Some(Jws(t, Hs256(key, t))), headers), key, nowMs, production).Forward?
    ensures var m := p.(role := Member);
            Gated(Request("/app/admin", Some(Jws(m, Hs256(key, m))), headers), key, nowMs, production)
            == Redirect(AppHome, None)
  {
    assert Matched("/app/admin");
    assert !IsPublic("/app/admin");
    assert StartsWith("/app/admin", AdminPrefix);
  }

  /** Scenario: a token that expired five minutes ago on /app/receipts goes to login with next. */
  lemma ExpiredTokenToLogin(p: Payload, key: string, nowMs: int, production: bool, headers: map<string, string>)
    requires p.exp == nowMs / 1000 - 300
    ensures Gated(Request("/app/receipts", Some(Jws(p, Hs256(key, p))), headers), key, nowMs, production)
            == Redirect(LoginWithNext("/app/receipts"), None)
  {
    assert Matched("/app/receipts");
    assert !IsPublic("/app/receipts");
  }
}

=== FILE: invite.dfy ===
/** The read-only invite-code check (src/app/api/auth/invite/route.ts) used by the signup
    page before the form is submitted. */
module InviteCheck {
  import opened Common
  import opened Permissions
  import opened Db

  /** What a valid code reveals: the organisation's name, the granted role and the org id. */
  datatype InviteInfo = InviteInfo(orgName: Option<string>, role: Role, orgId: OrgId)

  const MissingCode: Failure := Failure(400, "Missing code.")
  const UnknownCode: Failure := Failure(404, "Invalid code.")
  const ExpiredCode: Failure := Failure(400, "Expired code.")
  const NoRemainingUses: Failure := Failure(400, "No remaining uses.")

  /** A code with an expiry before now is expired; an expiry equal to now is not yet. */
  predicate Expired(inv: InviteCode, nowMs: int) {
    inv.expiresAt.Some? && inv.expiresAt.value < nowMs
  }

  predicate Exhausted(inv: InviteCode) {
    inv.uses >= inv.maxUses
  }

  /** GET ?code=: every failure carries valid=false; the store is only read. */
  function CheckInvite(s: Store, code: Option<string>, nowMs: int): (r: Result<InviteInfo>)
    ensures r.Ok? <==> code.Some? && code.value != "" && code.value in s.invites
                       && !Expired(s.invites[code.value], nowMs) && !Exhausted(s.invites[code.value])
    ensures r.Ok? ==> r.value.role == s.invites[code.value].role && r.value.orgId == s.invites[code.value].orgId
  {
    if code.None? || code.value == "" then Fail(MissingCode)
    else if code.value !in s.invites then Fail(UnknownCode)
    else
      var inv := s.invites[code.value];
      if Expired(inv, nowMs) then Fail(ExpiredCode)
      else if Exhausted(inv) then Fail(NoRemainingUses)
      else
        var name := if inv.orgId in s.orgs then Some(s.orgs[inv.orgId].name) else None;
        Ok(InviteInfo(name, inv.role, inv.orgId))
  }

  /** The failures come in the route's order: missing, unknown (404), expired, exhausted. */
  lemma CheckInviteFailureOrder(s: Store, code: string, nowMs: int)
    ensures code == "" ==> CheckInvite(s, Some(code), nowMs) == Fail(MissingCode)
    ensures code != "" && code !in s.invites ==> CheckInvite(s, Some(code), nowMs) == Fail(UnknownCode)
    ensures code != "" && code in s.invites && Expired(s.invites[code], nowMs)
            ==> CheckInvite(s, Some(code), nowMs) == Fail(ExpiredCode)
    ensures code != "" && code in s.invites && !Expired(s.invites[code], nowMs) && Exhausted(s.invites[code])
            ==> CheckInvite(s, Some(code), nowMs) == Fail(NoRemainingUses)
  {
  }
}

=== FILE: invite_codes.dfy ===
/** Invite codes an organisation hands out (src/app/api/org/invite-codes/route.ts and
    src/app/api/org/invite-codes/revoke/route.ts): the code format, placing a fresh code with
    a bounded number of retries, creation, the org-scoped listing, and revocation. */
module InviteCodes {
  import opened Common
  import opened Permissions
  import opened Auth
  import opened Db

  /** 32 characters: the upper-case letters without I and O, and the digits 2 to 9. */
  const CodeAlphabet: string := "ABCDEFGHJKLMNPQRSTUVWXYZ23456789"
  const CODE_RANDOM_LENGTH: nat := 8
  const MAX_ATTEMPTS: nat := 5

  /** One draw of Math.floor(Math.random() * 32). */
  type Pick = i: int | 0 <= i < 32

  /** The eight draws behind one generated code. */
  type Draw = p: seq<Pick> | |p| == CODE_RANDOM_LENGTH witness [0, 0, 0, 0, 0, 0, 0, 0]

  /** generateInviteCode: the prefix followed by one alphabet character per draw. */
  function GenerateCode(prefix: string, picks: Draw): (code: string)
    ensures |code| == |prefix| + CODE_RANDOM_LENGTH
    ensures code[..|prefix|] == prefix
    ensures forall i :: |prefix| <= i < |code| ==> code[i] == CodeAlphabet[picks[i - |prefix|]]
  {
    prefix + seq(CODE_RANDOM_LENGTH, i requires 0 <= i < CODE_RANDOM_LENGTH => CodeAlphabet[picks[i]])
  }

  /** The alphabet has 32 distinct characters, none of them the look-alikes 0, O, 1 or I. */
  lemma AlphabetIsUnambiguous()
    ensures |CodeAlphabet| == 32
    ensures forall i, j :: 0 <= i < j < |CodeAlphabet| ==> CodeAlphabet[i] != CodeAlphabet[j]
    ensures forall i :: 0 <= i < |CodeAlphabet| ==> CodeAlphabet[i] !in {'0', 'O', '1', 'I'}
  {
    AlphabetPositionInverts();
  }

  /** The position of a character in the alphabet: the letters without I and O, then the
      digits from 2. */
  function AlphabetPosition(c: char): int {
    if 'A' <= c <= 'H' then c as int - 'A' as int
    else if 'J' <= c <= 'N' then c as int - 'A' as int - 1
    else if 'P' <= c <= 'Z' then c as int - 'A' as int - 2
    else if '2' <= c <= '9' then c as int - '2' as int + 24
    else -1
  }

  /** Every character of the alphabet reads back as its own position, and none of them is a
      character the alphabet leaves out. */
  lemma AlphabetPositionInverts()
    ensures forall i :: 0 <= i < |CodeAlphabet| ==> AlphabetPosition(CodeAlphabet[i]) == i
    ensures forall i :: 0 <= i < |CodeAlphabet| ==> CodeAlphabet[i] !in {'0', 'O', '1', 'I'}
  {
  }

  /** An organisation's codes are "INV-" and 8 alphabet characters, 12 in all; different
      draws give different codes. */
  lemma InviteCodeShape(picks: Draw, other: Draw)
    ensures |GenerateCode("INV-", picks)| == 12
    ensures forall i :: 4 <= i < 12 ==> GenerateCode("INV-", picks)[i] in CodeAlphabet
    ensures GenerateCode("INV-", picks) == GenerateCode("INV-", other) <==> picks == other
  {
    AlphabetIsUnambiguous();
    var a := GenerateCode("INV-", picks);
    var b := GenerateCode("INV-", other);
    if a == b {
      forall i | 0 <= i < CODE_RANDOM_LENGTH
        ensures picks[i] == other[i]
      {
        assert a[4 + i] == b[4 + i];
      }
    }
  }

  /** The codes the generator produces for a sequence of draws, in order. */
  function Candidates(prefix: string, draws: seq<Draw>): (codes: seq<string>)
    ensures |codes| == |draws|
    ensures forall i :: 0 <= i < |draws| ==> codes[i] == GenerateCode(prefix, draws[i])
  {
    seq(|draws|, i requires 0 <= i < |draws| => GenerateCode(prefix, draws[i]))
  }

  /** The retry loop's choice as a function, for use in the route transitions: the first
      candidate from `attempts` on that is not taken, within the five attempts. */
  function FirstFree(taken: set<string>, candidates: seq<string>, attempts: nat): (r: Option<string>)
    requires attempts <= MAX_ATTEMPTS <= |candidates|
    ensures r.Some? ==> r.value !in taken && r.value in candidates[attempts..MAX_ATTEMPTS]
    decreases MAX_ATTEMPTS - attempts
  {
    if attempts == MAX_ATTEMPTS then None
    else if candidates[attempts] !in taken then Some(candidates[attempts])
    else FirstFree(taken, candidates, attempts + 1)
  }

  /** The retry loop itself: try the candidates in order, at most five, and take the first one not
      already used as a code. None when the first five all collide. */
  method PlaceCode(taken: set<string>, candidates: seq<string>) returns (r: Option<string>)
    requires |candidates| >= MAX_ATTEMPTS
    ensures r.Some? <==> exists i :: 0 <= i < MAX_ATTEMPTS && candidates[i] !in taken
    ensures r.Some? ==> exists i :: 0 <= i < MAX_ATTEMPTS && r.value == candidates[i] && r.value !in taken
                               && forall j :: 0 <= j < i ==> candidates[j] in taken
    ensures r == FirstFree(taken, candidates, 0)
  {
    var attempts := 0;
    while attempts < MAX_ATTEMPTS
      invariant 0 <= attempts <= MAX_ATTEMPTS
      invariant forall j :: 0 <= j < attempts ==> candidates[j] in taken
      invariant FirstFree(taken, candidates, attempts) == FirstFree(taken, candidates, 0)
    {
      var code := candidates[attempts];
      if code !in taken {
        return Some(code);
      }
      attempts := attempts + 1;
    }
    return None;
  }

  /** The choice is the first free candidate, and there is one unless all five collide. */
  lemma {:induction false} FirstFreeIsFirst(taken: set<string>, candidates: seq<string>, attempts: nat)
    requires attempts <= MAX_ATTEMPTS <= |candidates|
    ensures FirstFree(taken, candidates, attempts).Some?
            <==> exists i :: attempts <= i < MAX_ATTEMPTS && candidates[i] !in taken
    ensures FirstFree(taken, candidates, attempts).Some? ==>
              exists i :: attempts <= i < MAX_ATTEMPTS && FirstFree(taken, candidates, attempts).value == candidates[i]
                       && forall j :: attempts <= j < i ==> candidates[j] in taken
    decreases MAX_ATTEMPTS - attempts
  {
    if attempts < MAX_ATTEMPTS && candidates[attempts] in taken {
      FirstFreeIsFirst(taken, candidates, attempts + 1);
    }
  }

  // ---------------------------------------------------------------------------
  // POST /api/org/invite-codes

  /** The expiresAt field: absent, the empty string, an ISO datetime (as its instant in
      milliseconds), or text that is not a datetime. */
  datatype ExpiryField = Absent | Empty | DateTime(ms: int) | Malformed

  /** The JSON body; maxUses is absent or an integer (a non-integer number fails the schema
      like an out-of-range one). */
  datatype CreateBody = CreateBody(role: string, maxUses: Option<int>, expiresAt: ExpiryField)

  datatype Created = Created(code: string, role: Role, maxUses: int, expiresAt: Option<int>)

  const DEFAULT_MAX_USES: int := 50
  const InvalidInput: Failure := Failure(400, "Invalid input.")
  const NoUniqueCode: Failure := Failure(500, "Failed to generate unique code. Try again.")

  /** The parsed body: role, maxUses (default 50) and expiry (null for absent or ""). */
  function ParseCreateBody(body: CreateBody): (r: Option<(Role, int, Option<int>)>)
    ensures r.Some? <==> ParseRole(body.role).Some?
                         && (body.maxUses.None? || 1 <= body.maxUses.value <= 1000)
                         && !body.expiresAt.Malformed?
    ensures r.Some? ==> && RoleName(r.value.0) == body.role
                        && 1 <= r.value.1 <= 1000
                        && (body.maxUses.None? ==> r.value.1 == DEFAULT_MAX_USES)
                        && (body.maxUses.Some? ==> r.value.1 == body.maxUses.value)
                        && (r.value.2.Some? <==> body.expiresAt.DateTime?)
                        && (body.expiresAt.DateTime? ==> r.value.2 == Some(body.expiresAt.ms))
  {
    var role := ParseRole(body.role);
    var maxUses := body.maxUses.GetOr(DEFAULT_MAX_USES);
    if role.None? || !(1 <= maxUses <= 1000) || body.expiresAt.Malformed? then None
    else
      var expires := if body.expiresAt.DateTime? then Some(body.expiresAt.ms) else None;
      Some((role.value, maxUses, expires))
  }

  /** POST: an exec-level session creates a code for its own organisation with no uses. */
  function CreateInviteCode(s: Store, ctx: Ctx, body: CreateBody, draws: seq<Draw>): (step: Step<Created>)
    requires |draws| >= MAX_ATTEMPTS
    ensures step.reply.Fail? ==> step.store == s
    ensures RequireExecRole(ctx).Fail? ==> step.reply == Fail(Forbidden)
    ensures step.reply.Ok? ==>
              var c := step.reply.value;
              && RequireExecRole(ctx).Ok?
              && ParseCreateBody(body) == Some((c.role, c.maxUses, c.expiresAt))
              && c.code !in s.invites
              && step.store == s.(invites := s.invites[c.code :=
                   InviteCode(RequireExecRole(ctx).value.orgId, c.role, c.maxUses, 0, c.expiresAt)])
  {
    match RequireExecRole(ctx)
    case Fail(f) => Step(s, Fail(f))
    case Ok(session) =>
      match ParseCreateBody(body)
      case None => Step(s, Fail(InvalidInput))
      case Some(parsed) =>
        var (role, maxUses, expiresAt) := parsed;
        match FirstFree(s.invites.Keys, Candidates("INV-", draws), 0)
        case None => Step(s, Fail(NoUniqueCode))
        case Some(code) =>
          Step(s.(invites := s.invites[code := InviteCode(session.orgId, role, maxUses, 0, expiresAt)]),
               Ok(Created(code, role, maxUses, expiresAt)))
  }

  /** The route's failures in order: guard, schema, five collisions. A valid request from an
      exec or admin fails only when all five candidates are taken. */
  lemma CreateFailsExactly(s: Store, ctx: Ctx, body: CreateBody, draws: seq<Draw>)
    requires |draws| >= MAX_ATTEMPTS
    ensures var candidates := Candidates("INV-", draws);
            var step := CreateInviteCode(s, ctx, body, draws);
            && (RequireExecRole(ctx).Ok? && ParseCreateBody(body).None? ==> step.reply == Fail(InvalidInput))
            && (RequireExecRole(ctx).Ok? && ParseCreateBody(body).Some? ==>
                  (step.reply == Fail(NoUniqueCode) <==> forall i :: 0 <= i < MAX_ATTEMPTS ==> candidates[i] in s.invites))
            && (step.reply.Ok? ==> step.reply.value.code in candidates[..MAX_ATTEMPTS])
  {
    FirstFreeIsFirst(s.invites.Keys, Candidates("INV-", draws), 0);
  }

  /** A new code is within its limits, so signups against it keep uses at most maxUses. */
  lemma CreatePreservesLimits(s: Store, ctx: Ctx, body: CreateBody, draws: seq<Draw>)
    requires |draws| >= MAX_ATTEMPTS
    requires InvitesWithinLimits(s)
    ensures InvitesWithinLimits(CreateInviteCode(s, ctx, body, draws).store)
  {
  }

  // ---------------------------------------------------------------------------
  // GET /api/org/invite-codes

  /** The findMany over the code table: `newestFirst` is the codes in the order the
      database returns for created_at descending, and the answer keeps the organisation's
      codes, with their rows, in that order. */
  function OrgCodes(invites: map<string, InviteCode>, org: OrgId, newestFirst: seq<string>): (r: seq<(string, InviteCode)>)
    ensures |r| <= |newestFirst|
    ensures forall i :: 0 <= i < |r| ==> r[i].0 in newestFirst && r[i].0 in invites && r[i].1 == invites[r[i].0] && r[i].1.orgId == org
  {
    if newestFirst == [] then []
    else
      var c := newestFirst[0];
      var rest := OrgCodes(invites, org, newestFirst[1..]);
      assert forall i :: 0 <= i < |rest| ==> rest[i].0 in newestFirst;
      if c in invites && invites[c].orgId == org then
        var r := [(c, invites[c])] + rest;
        assert forall i :: 1 <= i < |r| ==> r[i] == rest[i - 1];
        r
      else rest
  }

  /** Every code of the organisation that the database returns is in the answer. */
  lemma {:induction false} OrgCodesComplete(invites: map<string, InviteCode>, org: OrgId, newestFirst: seq<string>, c: string)
    requires c in newestFirst && c in invites && invites[c].orgId == org
    ensures exists i :: 0 <= i < |OrgCodes(invites, org, newestFirst)| && OrgCodes(invites, org, newestFirst)[i].0 == c
  {
    var r := OrgCodes(invites, org, newestFirst);
    var rest := OrgCodes(invites, org, newestFirst[1..]);
    var head := newestFirst[0];
    if c == head {
      assert r[0].0 == c;
    } else {
      assert c in newestFirst[1..];
      OrgCodesComplete(invites, org, newestFirst[1..], c);
      var k :| 0 <= k < |rest| && rest[k].0 == c;
      if head in invites && invites[head].orgId == org {
        assert r[k + 1] == rest[k];
      } else {
        assert r[k] == rest[k];
      }
    }
  }

  /** The query keeps the database's order: a newer code comes before an older one. */
  lemma {:induction false} OrgCodesKeepOrder(invites: map<string, InviteCode>, org: OrgId, newer: seq<string>, older: seq<string>)
    ensures OrgCodes(invites, org, newer + older) == OrgCodes(invites, org, newer) + OrgCodes(invites, org, older)
  {
    if newer == [] {
      assert newer + older == older;
    } else {
      assert (newer + older)[0] == newer[0];
      assert (newer + older)[1..] == newer[1..] + older;
      OrgCodesKeepOrder(invites, org, newer[1..], older);
    }
  }

  /** One step of the query: the head is kept exactly when it is a stored code of the organisation. */
  lemma OrgCodesUnfold(invites: map<string, InviteCode>, org: OrgId, newestFirst: seq<string>)
    requires newestFirst != []
    ensures var head := newestFirst[0];
            var rest := OrgCodes(invites, org, newestFirst[1..]);
            OrgCodes(invites, org, newestFirst)
              == if head in invites && invites[head].orgId == org then [(head, invites[head])] + rest else rest
  {
  }

  /** Two listed codes appear in the database's order: the earlier one was returned first,
      at position a, and the later one after it, at position b. */
  lemma {:induction false} OrgCodesOrdered(invites: map<string, InviteCode>, org: OrgId, newestFirst: seq<string>, i: nat, j: nat)
      returns (a: nat, b: nat)
    requires i < j < |OrgCodes(invites, org, newestFirst)|
    ensures a < b < |newestFirst|
    ensures newestFirst[a] == OrgCodes(invites, org, newestFirst)[i].0
    ensures newestFirst[b] == OrgCodes(invites, org, newestFirst)[j].0
  {
    var r := OrgCodes(invites, org, newestFirst);
    var tail := newestFirst[1..];
    var rest := OrgCodes(invites, org, tail);
    var head := newestFirst[0];
    OrgCodesUnfold(invites, org, newestFirst);
    if head in invites && invites[head].orgId == org {
      assert r == [(head, invites[head])] + rest;
      if i == 0 {
        assert r[j] == rest[j - 1];
        assert rest[j - 1].0 in tail;
        var k :| 0 <= k < |tail| && tail[k] == rest[j - 1].0;
        a, b := 0, k + 1;
      } else {
        var a', b' := OrgCodesOrdered(invites, org, tail, i - 1, j - 1);
        assert r[i] == rest[i - 1] && r[j] == rest[j - 1];
        a, b := a' + 1, b' + 1;
      }
    } else {
      assert r == rest;
      var a', b' := OrgCodesOrdered(invites, org, tail, i, j);
      a, b := a' + 1, b' + 1;
    }
  }

  /** GET: the session organisation's codes, newest first. */
  function ListInviteCodes(s: Store, ctx: Ctx, newestFirst: seq<string>): (r: Result<seq<(string, InviteCode)>>)
    ensures RequireExecRole(ctx).Fail? <==> r.Fail?
    ensures r.Ok? ==> r.value == OrgCodes(s.invites, RequireExecRole(ctx).value.orgId, newestFirst)
    ensures r.Ok? ==> forall i :: 0 <= i < |r.value| ==>
              r.value[i].0 in s.invites && r.value[i].1 == s.invites[r.value[i].0]
              && r.value[i].1.orgId == RequireExecRole(ctx).value.orgId
    ensures r.Ok? ==> forall c :: c in newestFirst && c in s.invites && s.invites[c].orgId == RequireExecRole(ctx).value.orgId ==>
              exists i :: 0 <= i < |r.value| && r.value[i].0 == c
  {
    match RequireExecRole(ctx)
    case Fail(f) => Fail(f)
    case Ok(session) =>
      var listed := OrgCodes(s.invites, session.orgId, newestFirst);
      assert forall c :: c in newestFirst && c in s.invites && s.invites[c].orgId == session.orgId ==>
               exists i :: 0 <= i < |listed| && listed[i].0 == c by {
        forall c | c in newestFirst && c in s.invites && s.invites[c].orgId == session.orgId
          ensures exists i :: 0 <= i < |listed| && listed[i].0 == c
        {
          OrgCodesComplete(s.invites, session.orgId, newestFirst, c);
        }
      }
      Ok(listed)
  }

  /** The GET answer is newest first: of two listed codes, the earlier one comes earlier in
      the database's created_at-descending order. */
  lemma ListInviteCodesNewestFirst(s: Store, ctx: Ctx, newestFirst: seq<string>, i: nat, j: nat)
    requires ListInviteCodes(s, ctx, newestFirst).Ok?
    requires i < j < |ListInviteCodes(s, ctx, newestFirst).value|
    ensures var listed := ListInviteCodes(s, ctx, newestFirst).value;
            exists a, b :: 0 <= a < b < |newestFirst| && newestFirst[a] == listed[i].0 && newestFirst[b] == listed[j].0
  {
    var a, b := OrgCodesOrdered(s.invites, RequireExecRole(ctx).value.orgId, newestFirst, i, j);
  }

  /** When the database's order lists every code once, the answer lists each of the
      organisation's codes exactly once and no other code. */
  lemma {:induction false} ListInviteCodesExactly(s: Store, ctx: Ctx, newestFirst: seq<string>)
    requires RequireExecRole(ctx).Ok?
    requires forall c :: c in s.invites <==> c in newestFirst
    requires forall i, j :: 0 <= i < j < |newestFirst| ==> newestFirst[i] != newestFirst[j]
    ensures var listed := ListInviteCodes(s, ctx, newestFirst).value;
            var org := RequireExecRole(ctx).value.orgId;
            && (forall c :: (exists i :: 0 <= i < |listed| && listed[i].0 == c) <==> c in s.invites && s.invites[c].orgId == org)
            && DistinctCodes(listed)
  {
    var org := RequireExecRole(ctx).value.orgId;
    var listed := ListInviteCodes(s, ctx, newestFirst).value;
    assert listed == OrgCodes(s.invites, org, newestFirst);
    OrgCodesDistinct(s.invites, org, newestFirst);
    forall c | c in s.invites && s.invites[c].orgId == org
      ensures exists i :: 0 <= i < |listed| && listed[i].0 == c
    {
      OrgCodesComplete(s.invites, org, newestFirst, c);
    }
  }

  /** No code is listed twice. */
  predicate DistinctCodes(r: seq<(string, InviteCode)>) {
    forall i, j :: 0 <= i < j < |r| ==> r[i].0 != r[j].0
  }

  lemma {:induction false} OrgCodesDistinct(invites: map<string, InviteCode>, org: OrgId, newestFirst: seq<string>)
    requires forall i, j :: 0 <= i < j < |newestFirst| ==> newestFirst[i] != newestFirst[j]
    ensures DistinctCodes(OrgCodes(invites, org, newestFirst))
  {
    if newestFirst != [] {
      var tail := newestFirst[1..];
      assert forall i, j :: 0 <= i < j < |tail| ==> tail[i] != tail[j] by {
        forall i, j | 0 <= i < j < |tail| ensures tail[i] != tail[j] {
          assert tail[i] == newestFirst[i + 1] && tail[j] == newestFirst[j + 1];
        }
      }
      OrgCodesDistinct(invites, org, tail);
      assert newestFirst[0] !in tail by {
        forall k | 0 <= k < |tail| ensures tail[k] != newestFirst[0] {
          assert tail[k] == newestFirst[k + 1];
        }
      }
      var r := OrgCodes(invites, org, newestFirst);
      var rest := OrgCodes(invites, org, tail);
      if newestFirst[0] in invites && invites[newestFirst[0]].orgId == org {
        assert r == [(newestFirst[0], invites[newestFirst[0]])] + rest;
        forall i, j | 0 <= i < j < |r| ensures r[i].0 != r[j].0 {
          assert r[j] == rest[j - 1] && rest[j - 1].0 in tail;
          if i > 0 {
            assert r[i] == rest[i - 1];
          } else {
            assert r[i].0 == newestFirst[0];
          }
        }
      } else {
        assert r == rest;
      }
    }
  }

  // ---------------------------------------------------------------------------
  // DELETE /api/org/invite-codes/revoke

  const MissingCode: Failure := Failure(400, "Missing code.")
  const NotFound: Failure := Failure(404, "Not found.")

  /** DELETE ?code=: an admin session deletes one of its organisation's codes. */
  function Revoke(s: Store, ctx: Ctx, code: Option<string>): (step: Step<bool>)
    ensures step.reply.Fail? ==> step.store == s
    ensures step.reply.Ok? ==> step.reply.value
  {
    match RequireRole(ctx, Admin)
    case Fail(f) => Step(s, Fail(f))
    case Ok(session) =>
      if code.None? || code.value == "" then Step(s, Fail(MissingCode))
      else if code.value !in s.invites || s.invites[code.value].orgId != session.orgId then Step(s, Fail(NotFound))
      else Step(s.(invites := s.invites - {code.value}), Ok(true))
  }

  /** An admin revokes exactly the codes of their own organisation, deleting that one code
      and nothing else; a code of another organisation is reported as not found. */
  lemma RevokeExactly(s: Store, ctx: Ctx, code: string)
    requires code != "" && RequireRole(ctx, Admin).Ok?
    ensures var step := Revoke(s, ctx, Some(code));
            && (step.reply.Ok? <==> code in s.invites && s.invites[code].orgId == GetSessionUser(ctx).value.orgId)
            && (step.reply.Fail? ==> step.reply.failure == NotFound)
            && (step.reply.Ok? ==>
                  && step.store.invites.Keys == s.invites.Keys - {code}
                  && (forall c :: c in step.store.invites ==> step.store.invites[c] == s.invites[c]))
  {
  }

  /** Revoking twice: the second request finds nothing. */
  lemma RevokeTwiceNotFound(s: Store, ctx: Ctx, code: string)
    requires Revoke(s, ctx, Some(code)).reply.Ok?
    ensures Revoke(Revoke(s, ctx, Some(code)).store, ctx, Some(code)) ==
            Step(Revoke(s, ctx, Some(code)).store, Fail(NotFound))
  {
  }

  /** Exec sessions may create and list codes but may not revoke them: revoke wants exactly
      admin, although the gate and requireExecRole admit exec. */
  lemma ExecCreatesButCannotRevoke(s: Store, ctx: Ctx, code: Option<string>, newestFirst: seq<string>)
    requires GetSessionUser(ctx).Some? && GetSessionUser(ctx).value.role == Exec
    ensures RequireExecRole(ctx).Ok?
    ensures ListInviteCodes(s, ctx, newestFirst).Ok?
    ensures Revoke(s, ctx, code) == Step(s, Fail(Forbidden))
  {
  }
}

=== FILE: json.dfy ===
/** The part of JSON.stringify the application's records rely on: string literals, integers,
    and flat objects of such members written in key order. */
module Json {
  import opened Common

  function HexLower(d: int): char
    requires 0 <= d < 16
  {
    "0123456789abcdef"[d]
  }

  function HexValue(c: char): int {
    if '0' <= c <= '9' then c as int - '0' as int
    else if 'a' <= c <= 'f' then c as int - 'a' as int + 10
    else if 'A' <= c <= 'F' then c as int - 'A' as int + 10
    else -1
  }

  /** The escape JSON.stringify writes for one character inside a string literal. */
  function EscapeChar(c: char): (e: string)
    ensures |e| >= 1
    ensures e[0] == '\\' <==> (c == '"' || c == '\\' || c < ' ')
    ensures e[0] != '\\' ==> e == [c]
  {
    if c == '"' then "\\\""
    else if c == '\\' then "\\\\"
    else if c == '\U{08}' then "\\b"
    else if c == '\U{0C}' then "\\f"
    else if c == '\n' then "\\n"
    else if c == '\r' then "\\r"
    else if c == '\t' then "\\t"
    else if c < ' ' then "\\u00" + [HexLower(c as int / 16), HexLower(c as int % 16)]
    else [c]
  }

  /** The characters of JSON.stringify's output between the quotes. */
  function Escape(s: string): (e: string)
    ensures |e| >= |s|
  {
    if s == [] then "" else EscapeChar(s[0]) + Escape(s[1..])
  }

  /** JSON.stringify of a string. */
  function Quote(s: string): (q: string)
    ensures |q| >= 2 && q[0] == '"' && q[|q| - 1] == '"'
  {
    "\"" + Escape(s) + "\""
  }

  /** Reads the body of a string literal back: the inverse of Escape on well-formed input. */
  function Unescape(e: string): Option<string>
    decreases |e|
  {
    if e == [] then Some("")
    else if e[0] != '\\' then
      if e[0] == '"' || e[0] < ' ' then None
      else match Unescape(e[1..]) { case None => None case Some(r) => Some([e[0]] + r) }
    else if |e| < 2 then None
    else
      var k := e[1];
      if k == 'u' then
        if |e| < 6 then None
        else
          var v := HexValue(e[2]) * 4096 + HexValue(e[3]) * 256 + HexValue(e[4]) * 16 + HexValue(e[5]);
          if HexValue(e[2]) < 0 || HexValue(e[3]) < 0 || HexValue(e[4]) < 0 || HexValue(e[5]) < 0 then None
          else if 0xD800 <= v < 0xE000 then None
          else match Unescape(e[6..]) { case None => None case Some(r) => Some([v as char] + r) }
      else
        var c := if k == '"' then Some('"') else if k == '\\' then Some('\\') else if k == '/' then Some('/')
                 else if k == 'b' then Some('\U{08}') else if k == 'f' then Some('\U{0C}') else if k == 'n' then Some('\n')
                 else if k == 'r' then Some('\r') else if k == 't' then Some('\t') else None;
        match c
        case None => None
        case Some(ch) => match Unescape(e[2..]) { case None => None case Some(r) => Some([ch] + r) }
  }

  /** Reading one escaped character off the front of an escaped text. */
  lemma UnescapeChar(c: char, rest: string)
    ensures Unescape(EscapeChar(c) + rest) ==
            match Unescape(rest) { case None => None case Some(r) => Some([c] + r) }
  {
    if c == '"' || c == '\\' || c == '\U{08}' || c == '\U{0C}' || c == '\n' || c == '\r' || c == '\t' {
      UnescapeShort(c, rest);
    } else if c < ' ' {
      UnescapeControl(c, rest);
    } else {
      var e := EscapeChar(c) + rest;
      assert e[0] == c && e[1..] == rest;
    }
  }

  lemma UnescapeShort(c: char, rest: string)
    requires c == '"' || c == '\\' || c == '\U{08}' || c == '\U{0C}' || c == '\n' || c == '\r' || c == '\t'
    ensures Unescape(EscapeChar(c) + rest) ==
            match Unescape(rest) { case None => None case Some(r) => Some([c] + r) }
  {
    var e := EscapeChar(c) + rest;
    assert |EscapeChar(c)| == 2;
    assert e[0] == '\\' && e[1] == EscapeChar(c)[1] && e[2..] == rest;
  }

  lemma UnescapeControl(c: char, rest: string)
    requires c < ' ' && c != '\U{08}' && c != '\U{0C}' && c != '\n' && c != '\r' && c != '\t'
    ensures Unescape(EscapeChar(c) + rest) ==
            match Unescape(rest) { case None => None case Some(r) => Some([c] + r) }
  {
    var hi := c as int / 16;
    var lo := c as int % 16;
    var e := EscapeChar(c) + rest;
    assert EscapeChar(c) == "\\u00" + [HexLower(hi), HexLower(lo)];
    assert e[0] == '\\' && e[1] == 'u' && e[2] == '0' && e[3] == '0';
    assert e[4] == HexLower(hi) && e[5] == HexLower(lo);
    assert HexValue(e[4]) == hi && HexValue(e[5]) == lo;
    assert e[6..] == rest;
    assert (hi * 16 + lo) as char == c;
  }

  /** Escaping loses nothing: the literal's body reads back as the original string. */
  lemma {:induction false} UnescapeEscape(s: string)
    ensures Unescape(Escape(s)) == Some(s)
  {
    if s != [] {
      UnescapeEscape(s[1..]);
      UnescapeChar(s[0], Escape(s[1..]));
      assert [s[0]] + s[1..] == s;
    }
  }

  /** A flat object member: a string or an integer value. */
  datatype Value = Str(s: string) | Int(i: int)

  function Render(v: Value): string {
    match v
    case Str(s) => Quote(s)
    case Int(i) => IntToString(i)
  }

  /** One member: the quoted name, a colon and the rendered value. */
  function Member(m: (string, Value)): string {
    Quote(m.0) + ":" + Render(m.1)
  }

  /** The members separated by commas. */
  function Members(members: seq<(string, Value)>): string {
    if members == [] then ""
    else if |members| == 1 then Member(members[0])
    else Member(members[0]) + ("," + Members(members[1..]))
  }

  /** JSON.stringify of a flat object whose members come in the given order. */
  function Object(members: seq<(string, Value)>): (o: string)
    ensures |o| >= 2 && o[0] == '{' && o[|o| - 1] == '}'
  {
    "{" + Members(members) + "}"
  }

  // ---------------------------------------------------------------------------
  // Reading an object back

  predicate IsDigit(c: char) {
    '0' <= c <= '9'
  }

  /** The length of a string literal's body: the position of the first quote that no
      backslash escapes. */
  function BodyLength(e: string): (n: Option<nat>)
    ensures n.Some? ==> n.value < |e| && e[n.value] == '"'
    decreases |e|
  {
    if e == [] then None
    else if e[0] == '"' then Some(0)
    else if e[0] == '\\' then
      if |e| < 2 then None
      else match BodyLength(e[2..]) { case None => None case Some(k) => Some(k + 2) }
    else match BodyLength(e[1..]) { case None => None case Some(k) => Some(k + 1) }
  }

  /** A string literal at the front of a text: its contents and what follows it. */
  function ReadString(t: string): (r: Option<(string, string)>)
    ensures r.Some? ==> |r.value.1| < |t|
  {
    if t == [] || t[0] != '"' then None
    else match BodyLength(t[1..])
      case None => None
      case Some(n) =>
        match Unescape(t[1..n + 1])
        case None => None
        case Some(s) => Some((s, t[n + 2..]))
  }

  /** The number of decimal digits at the front of a text. */
  function DigitRun(t: string): (n: nat)
    ensures n <= |t|
    ensures forall i :: 0 <= i < n ==> IsDigit(t[i])
  {
    if t == [] || !IsDigit(t[0]) then 0 else 1 + DigitRun(t[1..])
  }

  /** The value of a string of decimal digits. */
  function DigitsValue(d: string): nat
    requires forall i :: 0 <= i < |d| ==> IsDigit(d[i])
  {
    if d == [] then 0
    else
      assert IsDigit(d[|d| - 1]);
      DigitsValue(d[..|d| - 1]) * 10 + (d[|d| - 1] as int - '0' as int)
  }

  /** An integer with an optional minus sign at the front of a text, and what follows. */
  function ReadInt(t: string): (r: Option<(int, string)>)
    ensures r.Some? ==> |r.value.1| < |t|
  {
    var neg := t != [] && t[0] == '-';
    var u := if neg then t[1..] else t;
    var k := DigitRun(u);
    if k == 0 then None
    else
      var n: int := DigitsValue(u[..k]);
      Some((if neg then -n else n, u[k..]))
  }

  /** A member value at the front of a text: a string literal or an integer. */
  function ReadValue(t: string): (r: Option<(Value, string)>)
    ensures r.Some? ==> |r.value.1| < |t|
  {
    if t != [] && t[0] == '"' then
      match ReadString(t) { case None => None case Some(p) => Some((Str(p.0), p.1)) }
    else match ReadInt(t) { case None => None case Some(p) => Some((Int(p.0), p.1)) }
  }

  /** Comma-separated members at the front of a text, and what follows the last one. */
  function ReadMembers(t: string): (r: Option<(seq<(string, Value)>, string)>)
    ensures r.Some? ==> |r.value.1| < |t|
    decreases |t|
  {
    match ReadString(t)
    case None => None
    case Some(name) =>
      var afterName := name.1;
      if afterName == [] || afterName[0] != ':' then None
      else match ReadValue(afterName[1..])
        case None => None
        case Some(value) =>
          var rest := value.1;
          if rest != [] && rest[0] == ',' then
            match ReadMembers(rest[1..])
            case None => None
            case Some(more) => Some(([(name.0, value.0)] + more.0, more.1))
          else Some(([(name.0, value.0)], rest))
  }

  /** The members of a flat object literal. */
  function ReadObject(o: string): Option<seq<(string, Value)>> {
    if o == "{}" then Some([])
    else if o == [] || o[0] != '{' then None
    else match ReadMembers(o[1..])
      case Some((ms, rest)) => if rest == "}" then Some(ms) else None
      case None => None
  }

  /** Scanning one escaped character moves past all of it. */
  lemma BodyLengthChar(c: char, tail: string)
    ensures BodyLength(EscapeChar(c) + tail) ==
            match BodyLength(tail) { case None => None case Some(k) => Some(k + |EscapeChar(c)|) }
  {
    if c == '"' || c == '\\' || c == '\U{08}' || c == '\U{0C}' || c == '\n' || c == '\r' || c == '\t' {
      BodyLengthShort(c, tail);
    } else if c < ' ' {
      BodyLengthControl(c, tail);
    } else {
      var e := EscapeChar(c) + tail;
      assert e[0] == c && e[1..] == tail;
    }
  }

  lemma BodyLengthShort(c: char, tail: string)
    requires c == '"' || c == '\\' || c == '\U{08}' || c == '\U{0C}' || c == '\n' || c == '\r' || c == '\t'
    ensures BodyLength(EscapeChar(c) + tail) ==
            match BodyLength(tail) { case None => None case Some(k) => Some(k + |EscapeChar(c)|) }
  {
    assert |EscapeChar(c)| == 2 && EscapeChar(c)[0] == '\\';
    ScanPair(EscapeChar(c), tail);
  }

  lemma BodyLengthControl(c: char, tail: string)
    requires c < ' ' && c != '\U{08}' && c != '\U{0C}' && c != '\n' && c != '\r' && c != '\t'
    ensures BodyLength(EscapeChar(c) + tail) ==
            match BodyLength(tail) { case None => None case Some(k) => Some(k + |EscapeChar(c)|) }
  {
    var hi, lo := HexLower(c as int / 16), HexLower(c as int % 16);
    HexLowerPlain(c as int / 16);
    HexLowerPlain(c as int % 16);
    assert EscapeChar(c) == ['\\', 'u', '0', '0', hi, lo];
    ScanUnicode(hi, lo, tail);
  }

  /** A backslash and the character after it are skipped together. */
  lemma ScanPair(p: string, tail: string)
    requires |p| == 2 && p[0] == '\\'
    ensures BodyLength(p + tail) ==
            match BodyLength(tail) { case None => None case Some(k) => Some(k + 2) }
  {
    assert (p + tail)[0] == '\\' && (p + tail)[2..] == tail;
  }

  lemma ScanUnicode(hi: char, lo: char, tail: string)
    requires hi != '"' && hi != '\\' && lo != '"' && lo != '\\'
    ensures BodyLength(['\\', 'u', '0', '0', hi, lo] + tail) ==
            match BodyLength(tail) { case None => None case Some(k) => Some(k + 6) }
  {
    var digits := ['0', '0', hi, lo];
    assert (['\\', 'u', '0', '0', hi, lo] + tail)[0] == '\\';
    assert (['\\', 'u', '0', '0', hi, lo] + tail)[2..] == digits + tail;
    PlainPrefix(digits, tail);
  }

  lemma HexLowerPlain(d: int)
    requires 0 <= d < 16
    ensures HexLower(d) != '"' && HexLower(d) != '\\'
  {
  }

  /** Characters other than quotes and backslashes are scanned one at a time. */
  lemma {:induction false} PlainPrefix(p: string, tail: string)
    requires forall i :: 0 <= i < |p| ==> p[i] != '"' && p[i] != '\\'
    ensures BodyLength(p + tail) ==
            match BodyLength(tail) { case None => None case Some(k) => Some(k + |p|) }
  {
    if p != [] {
      PlainPrefix(p[1..], tail);
      var e := p + tail;
      assert e[0] == p[0] && e[0] != '"' && e[0] != '\\';
      assert e[1..] == p[1..] + tail;
      assert BodyLength(e) == match BodyLength(e[1..]) { case None => None case Some(k) => Some(k + 1) };
    } else {
      assert p + tail == tail;
    }
  }

  /** The body of an escaped string ends at the closing quote. */
  lemma {:induction false} BodyLengthEscape(s: string, tail: string)
    requires tail != [] && tail[0] == '"'
    ensures BodyLength(Escape(s) + tail) == Some(|Escape(s)|)
  {
    if s != [] {
      var e := EscapeChar(s[0]);
      var more := Escape(s[1..]) + tail;
      assert BodyLength(more) == Some(|Escape(s[1..])|) by {
        BodyLengthEscape(s[1..], tail);
      }
      assert Escape(s) + tail == e + more && |Escape(s)| == |e| + |Escape(s[1..])| by {
        EscapeSplit(s, tail);
      }
      BodyLengthChar(s[0], more);
    } else {
      assert Escape(s) + tail == tail;
    }
  }

  lemma EscapeSplit(s: string, tail: string)
    requires s != []
    ensures Escape(s) + tail == EscapeChar(s[0]) + (Escape(s[1..]) + tail)
  {
  }

  /** A string literal reads back as the string it quotes. */
  lemma ReadQuote(s: string, rest: string)
    ensures ReadString(Quote(s) + rest) == Some((s, rest))
  {
    var e := Escape(s);
    var t := Quote(s) + rest;
    QuoteSplit(e, rest);
    assert BodyLength(t[1..]) == Some(|e|) by {
      BodyLengthEscape(s, "\"" + rest);
    }
    assert Unescape(t[1..|e| + 1]) == Some(s) by {
      UnescapeEscape(s);
    }
    ReadStringStep(t, |e|, s);
  }

  /** Where the parts of a quoted literal sit in the text that starts with it. */
  lemma QuoteSplit(e: string, rest: string)
    ensures var t := "\"" + e + "\"" + rest;
            t[0] == '"' && t[1..] == e + ("\"" + rest) && t[1..|e| + 1] == e && t[|e| + 2..] == rest
  {
  }

  /** Reading a string literal whose body has length n, over any text. */
  lemma ReadStringStep(t: string, n: nat, s: string)
    requires t != [] && t[0] == '"'
    requires BodyLength(t[1..]) == Some(n) && Unescape(t[1..n + 1]) == Some(s)
    ensures ReadString(t) == Some((s, t[n + 2..]))
  {
  }

  lemma DigitCharValue(d: int)
    requires 0 <= d < 10
    ensures IsDigit(DigitChar(d)) && DigitChar(d) as int - '0' as int == d
  {
    if d == 0 {} else if d == 1 {} else if d == 2 {} else if d == 3 {} else if d == 4 {}
    else if d == 5 {} else if d == 6 {} else if d == 7 {} else if d == 8 {} else {}
  }

  /** Decimal rendering and reading are inverse. */
  lemma {:induction false} DigitsValueOf(n: nat)
    ensures forall i :: 0 <= i < |NatToString(n)| ==> IsDigit(NatToString(n)[i])
    ensures DigitsValue(NatToString(n)) == n
  {
    var d := NatToString(n);
    if n < 10 {
      DigitCharValue(n);
      assert d[..0] == [];
    } else {
      DigitsValueOf(n / 10);
      DigitCharValue(n % 10);
      assert d[..|d| - 1] == NatToString(n / 10);
    }
  }

  /** The digit run stops where the digits stop. */
  lemma {:induction false} DigitRunAppend(d: string, tail: string)
    requires forall i :: 0 <= i < |d| ==> IsDigit(d[i])
    requires tail == [] || !IsDigit(tail[0])
    ensures DigitRun(d + tail) == |d|
  {
    if d != [] {
      DigitRunAppend(d[1..], tail);
      assert (d + tail)[1..] == d[1..] + tail;
    }
  }

  /** A rendered integer reads back when no digit follows it. */
  lemma ReadIntOf(i: int, tail: string)
    requires tail == [] || !IsDigit(tail[0])
    ensures ReadInt(IntToString(i) + tail) == Some((i, tail))
  {
    var n: nat := if i < 0 then -i else i;
    var d := NatToString(n);
    var u := d + tail;
    DigitsValueOf(n);
    ReadDigits(d, tail);
    if i < 0 {
      NegativeSplit(i, tail);
      Prefixed('-', u);
      ReadIntSigned("-" + u, |d|);
    } else {
      ReadIntUnsigned(u, |d|);
    }
  }

  lemma NegativeSplit(i: int, tail: string)
    requires i < 0
    ensures IntToString(i) + tail == "-" + (NatToString(-i) + tail)
  {
  }

  /** Reading a signed run of k digits. */
  lemma ReadIntSigned(t: string, k: nat)
    requires t != [] && t[0] == '-' && 0 < k && DigitRun(t[1..]) == k
    ensures ReadInt(t) == Some((-(DigitsValue(t[1..][..k]) as int), t[1..][k..]))
  {
  }

  /** Reading an unsigned run of k digits. */
  lemma ReadIntUnsigned(t: string, k: nat)
    requires t != [] && t[0] != '-' && 0 < k && DigitRun(t) == k
    ensures ReadInt(t) == Some((DigitsValue(t[..k]) as int, t[k..]))
  {
  }

  /** Digits followed by a non-digit: the run covers exactly the digits. */
  lemma ReadDigits(d: string, tail: string)
    requires d != [] && forall i :: 0 <= i < |d| ==> IsDigit(d[i])
    requires tail == [] || !IsDigit(tail[0])
    ensures var u := d + tail;
            DigitRun(u) == |d| && u[..|d|] == d && u[|d|..] == tail && u[0] != '-' && u[0] != '"'
  {
    DigitRunAppend(d, tail);
    var u := d + tail;
    assert u[0] == d[0];
    assert u[..|d|] == d;
  }

  /** A rendered value reads back when no digit follows it. */
  lemma ReadValueOf(v: Value, tail: string)
    requires tail == [] || !IsDigit(tail[0])
    ensures ReadValue(Render(v) + tail) == Some((v, tail))
  {
    match v
    case Str(s) =>
      ReadQuote(s, tail);
    case Int(i) =>
      ReadIntOf(i, tail);
      var d := NatToString(if i < 0 then -i else i);
      DigitsValueOf(if i < 0 then -i else i);
      assert (IntToString(i) + tail)[0] != '"' by {
        if i >= 0 { assert (IntToString(i) + tail)[0] == d[0]; }
      }
  }

  /** One member reads back, and reading goes on after a comma. */
  lemma ReadMembersCons(m: (string, Value), tail: string)
    requires tail == [] || !IsDigit(tail[0])
    ensures ReadMembers(Member(m) + tail) ==
            if tail != [] && tail[0] == ',' then
              match ReadMembers(tail[1..]) { case None => None case Some(more) => Some(([m] + more.0, more.1)) }
            else Some(([m], tail))
  {
    var value := Render(m.1) + tail;
    var afterName := ":" + value;
    MemberSplit(m, tail);
    Prefixed(':', value);
    ReadQuote(m.0, afterName);
    ReadValueOf(m.1, tail);
    ReadMembersStep(Quote(m.0) + afterName, m.0, afterName, m.1, tail);
  }

  lemma MemberSplit(m: (string, Value), tail: string)
    ensures Member(m) + tail == Quote(m.0) + (":" + (Render(m.1) + tail))
  {
  }

  lemma Prefixed(c: char, x: string)
    ensures ([c] + x)[0] == c && ([c] + x)[1..] == x
  {
  }

  /** One step of the member reader, over any text. */
  lemma ReadMembersStep(t: string, name: string, afterName: string, v: Value, rest: string)
    requires ReadString(t) == Some((name, afterName))
    requires afterName != [] && afterName[0] == ':'
    requires ReadValue(afterName[1..]) == Some((v, rest))
    ensures ReadMembers(t) ==
            if rest != [] && rest[0] == ',' then
              match ReadMembers(rest[1..]) { case None => None case Some(more) => Some(([(name, v)] + more.0, more.1)) }
            else Some(([(name, v)], rest))
  {
  }

  /** The members read back in order, up to the closing brace. */
  lemma {:induction false} ReadMembersOf(ms: seq<(string, Value)>)
    requires ms != []
    ensures ReadMembers(Members(ms) + "}") == Some((ms, "}"))
  {
    if |ms| == 1 {
      ReadMembersLast(ms);
    } else {
      ReadMembersOf(ms[1..]);
      ReadMembersFirst(ms);
    }
  }

  lemma ReadMembersLast(ms: seq<(string, Value)>)
    requires |ms| == 1
    ensures ReadMembers(Members(ms) + "}") == Some((ms, "}"))
  {
    var close := "}";
    assert close[0] == '}';
    MembersSplit(ms, close);
    ReadMembersCons(ms[0], close);
    assert [ms[0]] == ms;
  }

  lemma ReadMembersFirst(ms: seq<(string, Value)>)
    requires |ms| > 1
    requires ReadMembers(Members(ms[1..]) + "}") == Some((ms[1..], "}"))
    ensures ReadMembers(Members(ms) + "}") == Some((ms, "}"))
  {
    HeadTail(ms);
    var close := "}";
    var more := Members(ms[1..]) + close;
    var first := Member(ms[0]);
    assert Members(ms) + close == first + ("," + more) by {
      MembersSplit(ms, close);
    }
    assert ReadMembers(first + ("," + more)) == Some(([ms[0]] + ms[1..], close)) by {
      Prefixed(',', more);
      ReadMembersCons(ms[0], "," + more);
    }
  }

  lemma HeadTail<T>(s: seq<T>)
    requires s != []
    ensures [s[0]] + s[1..] == s
  {
  }

  /** The first member, then the rest after a comma. */
  lemma MembersSplit(ms: seq<(string, Value)>, tail: string)
    requires ms != []
    ensures |ms| == 1 ==> Members(ms) + tail == Member(ms[0]) + tail
    ensures |ms| > 1 ==> Members(ms) + tail == Member(ms[0]) + ("," + (Members(ms[1..]) + tail))
  {
    if |ms| > 1 {
      var a := Member(ms[0]);
      var b := "," + Members(ms[1..]);
      assert Members(ms) == a + b;
      Regroup(a, b, tail);
      Regroup([','], Members(ms[1..]), tail);
    }
  }

  lemma Regroup(a: string, b: string, c: string)
    ensures (a + b) + c == a + (b + c)
  {
  }

  /** The written object reads back as its members, names and values, in order. */
  lemma ObjectReadsBack(ms: seq<(string, Value)>)
    ensures ReadObject(Object(ms)) == Some(ms)
  {
    if ms != [] {
      var body := Members(ms);
      var o := "{" + (body + "}");
      assert Object(ms) == o;
      ReadMembersOf(ms);
      assert o[1..] == body + "}";
      MembersStartWithQuote(ms);
      assert o[1] == '"';
      ReadObjectStep(o, ms);
    }
  }

  lemma MembersStartWithQuote(ms: seq<(string, Value)>)
    requires ms != []
    ensures |Members(ms)| > 0 && Members(ms)[0] == '"'
  {
    var first := Member(ms[0]);
    MemberStartsWithQuote(ms[0]);
    if |ms| > 1 {
      var rest := "," + Members(ms[1..]);
      assert Members(ms) == first + rest;
      assert (first + rest)[0] == first[0];
    }
  }

  lemma MemberStartsWithQuote(m: (string, Value))
    ensures |Member(m)| > 0 && Member(m)[0] == '"'
  {
    var q := Quote(m.0);
    assert Member(m) == q + (":" + Render(m.1));
  }

  /** Reading an object whose members end at the closing brace. */
  lemma ReadObjectStep(o: string, ms: seq<(string, Value)>)
    requires |o| > 1 && o[0] == '{' && o[1] != '}'
    requires ReadMembers(o[1..]) == Some((ms, "}"))
    ensures ReadObject(o) == Some(ms)
  {
    assert o != "{}";
  }
}

=== FILE: jwt.dfy ===
/** The session-token codec (src/lib/jwt.ts): an HS256-signed claim set with a subject,
    a role, an organisation id, an issue time and an expiry.

    Signing is modelled symbolically: a signature is the term `Hs256(key, payload)`, which
    only a holder of `key` is supposed to produce, and verification recomputes it. Time is
    the integer clock `nowMs` (milliseconds since the epoch, like Date.now()); the token
    carries seconds, obtained as Math.floor(nowMs / 1000). */
module Jwt {
  import opened Common
  import opened Permissions

  /** Token lifetime: 90 days. */
  const SESSION_MAX_AGE_SECONDS: int := 60 * 60 * 24 * 90

  datatype Payload = Payload(sub: string, role: Role, orgId: string, iat: int, exp: int)

  /** The MAC of a payload under a key. */
  datatype Signature = Hs256(key: string, signed: Payload)

  /** A cookie value: a compact signed token, or any other string (malformed, empty, forged). */
  datatype Token = Jws(payload: Payload, signature: Signature) | Opaque(raw: string)

  /** The signing key: SESSION_SECRET, or the empty key when the variable is unset. */
  function SecretKey(sessionSecret: Option<string>): (key: string)
    ensures sessionSecret.None? ==> key == ""
    ensures sessionSecret.Some? ==> key == sessionSecret.value
  {
    sessionSecret.GetOr("")
  }

  /** Math.floor(nowMs / 1000); Dafny's division by a positive divisor already floors. */
  function EpochSeconds(nowMs: int): int {
    nowMs / 1000
  }

  /** createSessionToken: sign {role, orgId} with subject userId, iat = now, exp = now + lifetime. */
  function CreateSessionToken(userId: string, role: Role, orgId: string, key: string, nowMs: int): (t: Token)
    ensures t.Jws? && t.signature.key == key
    ensures t.payload.sub == userId && t.payload.role == role && t.payload.orgId == orgId
    ensures t.payload.iat * 1000 <= nowMs < t.payload.iat * 1000 + 1000
    ensures t.payload.exp == t.payload.iat + 7776000
  {
    var iat := EpochSeconds(nowMs);
    var p := Payload(userId, role, orgId, iat, iat + SESSION_MAX_AGE_SECONDS);
    Jws(p, Hs256(key, p))
  }

  /** verifySessionToken: the payload of a token whose signature checks under `key` and
      whose expiry is still in the future (jose rejects exp <= now). */
  function VerifySessionToken(t: Token, key: string, nowMs: int): (r: Option<Payload>)
    ensures r.Some? <==> t.Jws? && t.signature == Hs256(key, t.payload) && EpochSeconds(nowMs) < t.payload.exp
    ensures r.Some? ==> r.value == t.payload
  {
    match t
    case Jws(p, sig) =>
      if sig == Hs256(key, p) && EpochSeconds(nowMs) < p.exp then Some(p) else None
    case Opaque(_) => None
  }

  /** The lifetime is 90 days, and so an issued token expires strictly after it was issued. */
  lemma LifetimeIsNinetyDays(userId: string, role: Role, orgId: string, key: string, nowMs: int)
    ensures SESSION_MAX_AGE_SECONDS == 7776000
    ensures CreateSessionToken(userId, role, orgId, key, nowMs).payload.exp
            > CreateSessionToken(userId, role, orgId, key, nowMs).payload.iat
  {
  }

  /** Verifying a fresh token with the same key before it expires returns its claims. */
  lemma VerifyCreated(userId: string, role: Role, orgId: string, key: string, issuedMs: int, nowMs: int)
    requires EpochSeconds(nowMs) < EpochSeconds(issuedMs) + SESSION_MAX_AGE_SECONDS
    ensures var r := VerifySessionToken(CreateSessionToken(userId, role, orgId, key, issuedMs), key, nowMs);
            r.Some? && r.value.sub == userId && r.value.role == role && r.value.orgId == orgId
  {
  }

  /** A token verifies exactly while its clock second is before the expiry. */
  lemma VerifyCreatedIffUnexpired(userId: string, role: Role, orgId: string, key: string, issuedMs: int, nowMs: int)
    ensures VerifySessionToken(CreateSessionToken(userId, role, orgId, key, issuedMs), key, nowMs).Some?
            <==> nowMs / 1000 < issuedMs / 1000 + 7776000
  {
  }

  /** A token signed under one key never verifies under another. */
  lemma WrongKeyRejected(t: Token, signingKey: string, key: string, nowMs: int)
    requires t.Jws? && t.signature.key == signingKey && signingKey != key
    ensures VerifySessionToken(t, key, nowMs) == None
  {
  }

  /** A token presented at or after its expiry second never verifies, whatever its signature. */
  lemma ExpiredRejected(t: Token, key: string, nowMs: int)
    requires t.Jws? && t.payload.exp <= nowMs / 1000
    ensures VerifySessionToken(t, key, nowMs) == None
  {
  }

  /** With SESSION_SECRET unset, the key is the empty string, and the model signs and
      verifies under it: a token anyone can form with the empty key verifies. Whether the
      HMAC library accepts a zero-length key is outside the model. */
  lemma UnsetSecretIsEmptyKey(p: Payload, nowMs: int)
    requires nowMs / 1000 < p.exp
    ensures SecretKey(None) == ""
    ensures VerifySessionToken(Jws(p, Hs256("", p)), SecretKey(None), nowMs) == Some(p)
  {
  }
}

=== FILE: login.dfy ===
/** Password login (src/app/api/auth/login/route.ts). */
module Login {
  import opened Common
  import opened Permissions
  import opened Auth
  import opened Db

  /** The JSON body; a missing field is rejected exactly like an invalid one. */
  datatype LoginRequest = LoginRequest(email: string, password: string)

  const InvalidInput: Failure := Failure(400, "Invalid input.")
  const InvalidCredentials: Failure := Failure(401, "Invalid credentials.")

  /** loginSchema: an email-shaped address and a password of at least 8 characters. */
  predicate ValidLoginInput(req: LoginRequest) {
    IsEmail(req.email) && |req.password| >= 8
  }

  /** POST: the session cookie to set, or the failure. Login never writes the store. */
  function Login(s: Store, req: LoginRequest, ctx: Ctx): (r: Result<CookieWrite>)
    ensures !ValidLoginInput(req) ==> r == Fail(InvalidInput)
    ensures r.Fail? ==> r.failure in {InvalidInput, InvalidCredentials}
  {
    if !ValidLoginInput(req) then Fail(InvalidInput)
    else
      var email := ToLower(req.email);
      match UserByEmail(s, email)
      case None => Fail(InvalidCredentials)
      case Some(id) =>
        if id !in s.profiles then Fail(InvalidCredentials)
        else if !VerifyPassword(req.password, s.users[id].passwordHash) then Fail(InvalidCredentials)
        else Ok(SessionCookie(id, s.profiles[id].role, s.profiles[id].orgId, ctx))
  }

  /** Login succeeds exactly for a stored user (found by lowercased email) with a profile and
      a matching password, and the session carries that profile's organisation and role. */
  lemma LoginSucceedsExactly(s: Store, req: LoginRequest, ctx: Ctx)
    requires EmailIndexed(s)
    ensures Login(s, req, ctx).Ok? <==>
              ValidLoginInput(req) &&
              exists id :: id in s.users && s.users[id].email == ToLower(req.email)
                        && id in s.profiles && VerifyPassword(req.password, s.users[id].passwordHash)
    ensures Login(s, req, ctx).Ok? ==>
              var id := s.emails[ToLower(req.email)];
              Login(s, req, ctx).value == SessionCookie(id, s.profiles[id].role, s.profiles[id].orgId, ctx)
  {
  }

  /** An unknown address, a user without a profile and a wrong password all get the same
      reply, so the reply does not reveal whether the account exists. */
  lemma FailuresIndistinguishable(s: Store, req: LoginRequest, ctx: Ctx)
    requires ValidLoginInput(req)
    ensures Login(s, req, ctx).Fail? ==> Login(s, req, ctx) == Fail(InvalidCredentials)
  {
  }

  /** The address is compared in lower case: changing its case changes nothing. */
  lemma LoginIgnoresEmailCase(s: Store, req: LoginRequest, ctx: Ctx)
    ensures Login(s, req, ctx) == Login(s, req.(email := ToLower(req.email)), ctx)
  {
    EmailShapeIgnoresCase(req.email);
    ToLowerIdempotent(req.email);
  }
}

=== FILE: permissions.dfy ===
/** Organisation roles and the pure capability predicates over them
    (src/lib/permissions.ts). */
module Permissions {
  import opened Common

  /** OrgRole: member < treasurer < exec < admin. */
  datatype Role = Member | Treasurer | Exec | Admin

  /** The role names as stored in tokens and database rows. */
  function RoleName(r: Role): string {
    match r
    case Member => "member"
    case Treasurer => "treasurer"
    case Exec => "exec"
    case Admin => "admin"
  }

  /** Reads a stored role name back; any other string is not a role. */
  function ParseRole(s: string): (r: Option<Role>)
    ensures r.Some? ==> RoleName(r.value) == s
  {
    if s == "member" then Some(Member)
    else if s == "treasurer" then Some(Treasurer)
    else if s == "exec" then Some(Exec)
    else if s == "admin" then Some(Admin)
    else None
  }

  lemma ParseRoleName(r: Role)
    ensures ParseRole(RoleName(r)) == Some(r)
  {
  }

  /** Roles that may see and process every receipt of the organisation. */
  const AdminRoles: seq<Role> := [Treasurer, Exec, Admin]
  /** Roles that may also change organisation settings and invite codes. */
  const ExecRoles: seq<Role> := [Exec, Admin]

  predicate CanViewAllReceipts(r: Role) {
    r in AdminRoles
  }

  predicate CanApproveReceipts(r: Role) {
    r in AdminRoles
  }

  predicate CanManageOrgSettings(r: Role) {
    r in ExecRoles
  }

  predicate CanAccessAdmin(r: Role) {
    CanApproveReceipts(r)
  }

  /** Position of a role in the hierarchy member < treasurer < exec < admin. */
  function Rank(r: Role): (n: nat)
    ensures n < 4
  {
    match r
    case Member => 0
    case Treasurer => 1
    case Exec => 2
    case Admin => 3
  }

  /** Viewing every receipt is exactly the treasurer/exec/admin set; member is excluded. */
  lemma ViewAllExactly(r: Role)
    ensures CanViewAllReceipts(r) <==> (r == Treasurer || r == Exec || r == Admin)
    ensures !CanViewAllReceipts(Member)
  {
  }

  /** Approval rights coincide with viewing rights, role by role. */
  lemma ApproveEqualsViewAll(r: Role)
    ensures CanApproveReceipts(r) <==> CanViewAllReceipts(r)
  {
  }

  /** Organisation settings are exactly exec and admin. */
  lemma ManageSettingsExactly(r: Role)
    ensures CanManageOrgSettings(r) <==> (r == Exec || r == Admin)
  {
  }

  /** Admin-area access is an alias of approval rights. */
  lemma AccessAdminEqualsApprove(r: Role)
    ensures CanAccessAdmin(r) <==> CanApproveReceipts(r)
  {
  }

  /** The settings capability is narrower than approval: the exec set is inside the admin set. */
  lemma ManageImpliesApprove(r: Role)
    ensures CanManageOrgSettings(r) ==> CanApproveReceipts(r)
    ensures CanApproveReceipts(Treasurer) && !CanManageOrgSettings(Treasurer)
  {
  }

  /** Every predicate is false for member and each is upward closed in the hierarchy,
      i.e. each is a threshold "at least" check. */
  lemma PredicatesAreThresholds(r: Role, s: Role)
    ensures !CanViewAllReceipts(Member) && !CanApproveReceipts(Member)
    ensures !CanManageOrgSettings(Member) && !CanAccessAdmin(Member)
    ensures CanApproveReceipts(r) <==> Rank(r) >= Rank(Treasurer)
    ensures CanManageOrgSettings(r) <==> Rank(r) >= Rank(Exec)
    ensures Rank(r) <= Rank(s) && CanApproveReceipts(r) ==> CanApproveReceipts(s)
    ensures Rank(r) <= Rank(s) && CanManageOrgSettings(r) ==> CanManageOrgSettings(s)
  {
  }
}

=== FILE: profile.dfy ===
/** The profile route (src/app/api/profile/route.ts): reading the session user's profile and
    updating only the fields a request carries. */
module ProfileRoute {
  import opened Common
  import opened Permissions
  import opened Auth
  import opened Db

  const PaymentMethods: seq<string> := ["venmo", "cashapp", "zelle", "paypal", "other"]
  const NAME_MAX: nat := 100
  const PHONE_MAX: nat := 30
  const HANDLE_MAX: nat := 100

  const InvalidInput: Failure := Failure(400, "Invalid input.")
  const ProfileNotFound: Failure := Failure(404, "Profile not found.")

  // ---------------------------------------------------------------------------
  // GET

  /** The response body: each stored column under its camelCase name, the role's name and
      the account's email. */
  datatype View = View(
    firstName: string,
    lastName: string,
    phone: Option<string>,
    paymentMethod: string,
    paymentHandle: Option<string>,
    role: string,
    email: string)

  /** GET. The profile is read together with its user row. */
  function GetProfile(s: Store, ctx: Ctx): (r: Result<View>)
    ensures r.Ok? ==> GetCurrentUserAndProfile(ctx, s.profiles).Some?
  {
    match RequireCurrentUserAndProfile(ctx, s.profiles)
    case Fail(f) => Fail(f)
    case Ok(session) =>
      if session.userId !in s.profiles || session.userId !in s.users then Fail(ProfileNotFound)
      else
        var p := s.profiles[session.userId];
        Ok(View(p.firstName, p.lastName, p.phone, p.paymentMethod, p.paymentHandle, RoleName(p.role),
                s.users[session.userId].email))
  }

  // ---------------------------------------------------------------------------
  // PATCH

  /** The JSON body. A member absent from the body is None; phone and handle may also be
      null, which is Some(None). */
  datatype Patch = Patch(
    firstName: Option<string>,
    lastName: Option<string>,
    phone: Option<Option<string>>,
    paymentMethod: Option<string>,
    paymentHandle: Option<Option<string>>)

  /** The schema. Each length bound is checked on the text as sent, before it is trimmed. */
  predicate ValidPatch(p: Patch) {
    && (p.firstName.Some? ==> 1 <= |p.firstName.value| <= NAME_MAX)
    && (p.lastName.Some? ==> 1 <= |p.lastName.value| <= NAME_MAX)
    && (p.phone.Some? && p.phone.value.Some? ==> |p.phone.value.value| <= PHONE_MAX)
    && (p.paymentMethod.Some? ==> p.paymentMethod.value in PaymentMethods)
    && (p.paymentHandle.Some? && p.paymentHandle.value.Some? ==> |p.paymentHandle.value.value| <= HANDLE_MAX)
  }

  /** A nullable text after trimming: null and the empty text are both stored as null. */
  function StoredText(v: Option<string>): (r: Option<string>)
    ensures r.None? <==> v.None? || IsBlank(v.value)
    ensures r.Some? ==> r.value == Trim(v.value) && r.value != ""
  {
    TrimEmptyIffBlank(v.GetOr(""));
    match v
    case None => None
    case Some(t) => if Trim(t) == "" then None else Some(Trim(t))
  }

  /** The profile with the request's fields written over it. */
  function Patched(prev: Profile, p: Patch): Profile {
    prev.(firstName := if p.firstName.Some? then Trim(p.firstName.value) else prev.firstName,
          lastName := if p.lastName.Some? then Trim(p.lastName.value) else prev.lastName,
          phone := if p.phone.Some? then StoredText(p.phone.value) else prev.phone,
          paymentMethod := if p.paymentMethod.Some? then p.paymentMethod.value else prev.paymentMethod,
          paymentHandle := if p.paymentHandle.Some? then StoredText(p.paymentHandle.value) else prev.paymentHandle)
  }

  /** PATCH. The session is checked before the body. */
  function PatchProfile(s: Store, p: Patch, ctx: Ctx): (step: Step<bool>)
    ensures step.reply.Fail? ==> step.store == s
    ensures step.store.users == s.users && step.store.receipts == s.receipts
  {
    match RequireCurrentUserAndProfile(ctx, s.profiles)
    case Fail(f) => Step(s, Fail(f))
    case Ok(session) =>
      if !ValidPatch(p) then Step(s, Fail(InvalidInput))
      else
        var prev := s.profiles[session.userId];
        Step(s.(profiles := s.profiles[session.userId := Patched(prev, p)]), Ok(true))
  }

  // ---------------------------------------------------------------------------
  // Properties

  /** GET shows the stored profile field for field, with the role by name. */
  lemma GetMapsColumns(s: Store, ctx: Ctx)
    ensures var r := GetProfile(s, ctx);
            r.Ok? <==> GetCurrentUserAndProfile(ctx, s.profiles).Some? &&
                       GetCurrentUserAndProfile(ctx, s.profiles).value.userId in s.users
    ensures var r := GetProfile(s, ctx);
            r.Ok? ==>
              var id := GetCurrentUserAndProfile(ctx, s.profiles).value.userId;
              var p := s.profiles[id];
              && r.value.firstName == p.firstName && r.value.lastName == p.lastName
              && r.value.phone == p.phone && r.value.paymentMethod == p.paymentMethod
              && r.value.paymentHandle == p.paymentHandle
              && ParseRole(r.value.role) == Some(p.role)
              && r.value.email == s.users[id].email
  {
    var r := GetProfile(s, ctx);
    if r.Ok? {
      ParseRoleName(s.profiles[GetCurrentUserAndProfile(ctx, s.profiles).value.userId].role);
    }
  }

  /** PATCH succeeds exactly for a profile-backed session and a body within the bounds. */
  lemma PatchSucceedsExactly(s: Store, p: Patch, ctx: Ctx)
    ensures PatchProfile(s, p, ctx).reply.Ok? <==>
              GetCurrentUserAndProfile(ctx, s.profiles).Some? && ValidPatch(p)
    ensures GetCurrentUserAndProfile(ctx, s.profiles).None? ==> PatchProfile(s, p, ctx).reply == Fail(Unauthorized)
    ensures GetCurrentUserAndProfile(ctx, s.profiles).Some? && !ValidPatch(p) ==>
              PatchProfile(s, p, ctx).reply == Fail(InvalidInput)
  {
  }

  /** Only the session user's profile changes, and in it only the fields the body carries:
      names are trimmed, a null or blank phone or handle is stored as null, and the
      organisation and role never change. */
  lemma PatchChangesOnlyPresentFields(s: Store, p: Patch, ctx: Ctx)
    requires PatchProfile(s, p, ctx).reply.Ok?
    ensures var id := GetCurrentUserAndProfile(ctx, s.profiles).value.userId;
            var t := PatchProfile(s, p, ctx).store;
            var prev := s.profiles[id];
            var next := t.profiles[id];
            && t.profiles.Keys == s.profiles.Keys
            && (forall u :: u in s.profiles && u != id ==> t.profiles[u] == s.profiles[u])
            && next.orgId == prev.orgId && next.role == prev.role
            && (p.firstName.None? ==> next.firstName == prev.firstName)
            && (p.firstName.Some? ==> next.firstName == Trim(p.firstName.value))
            && (p.lastName.None? ==> next.lastName == prev.lastName)
            && (p.lastName.Some? ==> next.lastName == Trim(p.lastName.value))
            && (p.phone.None? ==> next.phone == prev.phone)
            && (p.phone.Some? ==> (next.phone.None? <==> p.phone.value.None? || IsBlank(p.phone.value.value)))
            && (p.paymentMethod.None? ==> next.paymentMethod == prev.paymentMethod)
            && (p.paymentMethod.Some? ==> next.paymentMethod == p.paymentMethod.value)
            && (p.paymentHandle.None? ==> next.paymentHandle == prev.paymentHandle)
            && (p.paymentHandle.Some? ==> (next.paymentHandle.None? <==> p.paymentHandle.value.None? || IsBlank(p.paymentHandle.value.value)))
  {
  }

  /** An empty body changes nothing. */
  lemma EmptyPatchKeepsProfile(s: Store, ctx: Ctx)
    requires GetCurrentUserAndProfile(ctx, s.profiles).Some?
    ensures PatchProfile(s, Patch(None, None, None, None, None), ctx) == Step(s, Ok(true))
  {
    var id := GetCurrentUserAndProfile(ctx, s.profiles).value.userId;
    assert s.profiles[id := s.profiles[id]] == s.profiles;
  }

  /** Sending the same body twice leaves the profile as sending it once: stored values are
      already trimmed and already null when blank. */
  lemma PatchIdempotent(prev: Profile, p: Patch)
    ensures Patched(Patched(prev, p), p) == Patched(prev, p)
  {
  }

  /** What PATCH stores, GET shows: the stored values are trimmed and within the bounds the
      body was checked against. */
  lemma GetAfterPatch(s: Store, p: Patch, ctx: Ctx)
    requires PatchProfile(s, p, ctx).reply.Ok?
    requires GetCurrentUserAndProfile(ctx, s.profiles).value.userId in s.users
    ensures var t := PatchProfile(s, p, ctx).store;
            var v := GetProfile(t, ctx);
            && v.Ok?
            && (p.firstName.Some? ==> v.value.firstName == Trim(p.firstName.value) && |v.value.firstName| <= NAME_MAX)
            && (p.lastName.Some? ==> v.value.lastName == Trim(p.lastName.value) && |v.value.lastName| <= NAME_MAX)
            && (p.phone.Some? && v.value.phone.Some? ==> |v.value.phone.value| <= PHONE_MAX && Trim(v.value.phone.value) == v.value.phone.value)
            && (p.paymentMethod.Some? ==> v.value.paymentMethod in PaymentMethods)
            && (p.paymentHandle.Some? && v.value.paymentHandle.Some? ==> |v.value.paymentHandle.value| <= HANDLE_MAX)
  {
    var id := GetCurrentUserAndProfile(ctx, s.profiles).value.userId;
    var t := PatchProfile(s, p, ctx).store;
    assert t.profiles[id].orgId == s.profiles[id].orgId && t.profiles[id].role == s.profiles[id].role;
    assert GetCurrentUserAndProfile(ctx, t.profiles) == GetCurrentUserAndProfile(ctx, s.profiles);
    if p.phone.Some? && p.phone.value.Some? {
      TrimIdempotent(p.phone.value.value);
    }
  }

  /** Lengths are checked before trimming: a first name of spaces passes and is stored
      empty. */
  lemma BlankNameStoredEmpty(s: Store, ctx: Ctx)
    requires GetCurrentUserAndProfile(ctx, s.profiles).Some?
    ensures var t := PatchProfile(s, Patch(Some("   "), None, None, None, None), ctx);
            && t.reply.Ok?
            && t.store.profiles[GetCurrentUserAndProfile(ctx, s.profiles).value.userId].firstName == ""
  {
    assert Trim("   ") == "";
  }
}

=== FILE: quick_actions.dfy ===
/** The review buttons of a receipt (src/components/QuickActions.tsx): which actions a
    status offers, and the request each button sends to the update and reject routes. */
module QuickActions {
  import opened Common
  import opened Auth
  import opened Db
  import Receipts
  import ReceiptUpdate
  import Review

  datatype Action = ApproveButton | RejectButton | MarkPaidButton

  /** The buttons shown for a status; paid and rejected receipts show only a label. */
  function Offered(status: Status): seq<Action> {
    match status
    case Submitted => [ApproveButton, RejectButton]
    case Approved => [MarkPaidButton]
    case _ => []
  }

  /** The request a click sends, if any. */
  datatype Request =
    | RejectCall(receiptId: string, reason: string)
    | UpdateCall(form: ReceiptUpdate.UpdateForm)
    | NoRequest

  const REASON_MIN: nat := 3

  /** The form an approve or mark-paid click posts: the id, the status and, when marking
      paid a receipt without a payment method, "venmo". */
  function UpdateFormFor(r: Receipt, status: Status): ReceiptUpdate.UpdateForm {
    var paidVia := if status == Paid && r.paidVia.GetOr("") == "" then Some(ReceiptUpdate.DefaultPaidVia) else None;
    ReceiptUpdate.UpdateForm(Some(r.id), Some(StatusName(status)), None, None, None, paidVia, None, None)
  }

  /** A click. `prompt` is what the reason prompt returns (None when it is cancelled); it
      is asked only for a rejection. */
  function Click(r: Receipt, a: Action, prompt: Option<string>): (req: Request)
    ensures a == RejectButton ==> !req.UpdateCall?
    ensures a != RejectButton ==> req.UpdateCall?
  {
    match a
    case RejectButton =>
      if prompt.None? || |Trim(prompt.value)| < REASON_MIN then NoRequest
      else RejectCall(r.id, Trim(prompt.value))
    case ApproveButton => UpdateCall(UpdateFormFor(r, Approved))
    case MarkPaidButton => UpdateCall(UpdateFormFor(r, Paid))
  }

  // ---------------------------------------------------------------------------
  // Properties

  /** Submitted receipts offer approve and reject, approved ones mark-paid, and the other
      statuses nothing: every offered action starts from the status the route it calls
      expects. */
  lemma OfferedFollowsWorkflow(status: Status, a: Action)
    ensures a in Offered(status) <==>
              || (status == Submitted && (a == ApproveButton || a == RejectButton))
              || (status == Approved && a == MarkPaidButton)
    ensures Offered(Paid) == [] && Offered(Rejected) == [] && Offered(NeedsReview) == []
  {
  }

  /** A reject click sends a request exactly when the trimmed reason has at least three
      characters, and then sends it trimmed. */
  lemma RejectClickNeedsReason(r: Receipt, prompt: Option<string>)
    ensures Click(r, RejectButton, prompt).RejectCall? <==> prompt.Some? && |Trim(prompt.value)| >= REASON_MIN
    ensures Click(r, RejectButton, prompt).RejectCall? ==>
              && Click(r, RejectButton, prompt).reason == Trim(prompt.value)
              && Trim(Click(r, RejectButton, prompt).reason) == Click(r, RejectButton, prompt).reason
  {
    if prompt.Some? {
      TrimIdempotent(prompt.value);
    }
  }

  /** The reason a reject click sends passes the reject route's schema unless it is longer
      than 500 characters; a receipt shown as submitted in the session's organisation is then
      rejected with that reason. */
  lemma RejectClickAccepted(s: Store, r: Receipt, prompt: Option<string>, ctx: Ctx)
    requires Click(r, RejectButton, prompt).RejectCall?
    requires IsUuid(r.id) && |Trim(prompt.value)| <= Review.REASON_MAX
    requires RequireAdminRole(ctx).Ok?
    requires Review.Qualifies(s, r.id, RequireAdminRole(ctx).value.orgId, Submitted)
    ensures var req := Click(r, RejectButton, prompt);
            var step := Review.RejectOne(s, Some(req.receiptId), Some(req.reason), ctx);
            step.reply.Ok? && step.store.receipts[r.id].rejectionReason == Some(Trim(prompt.value))
  {
  }

  /** An approve click on a receipt of the session's organisation with a positive amount
      approves it, and as a side effect clears its paid note and payment time. */
  lemma ApproveClickClearsPayment(s: Store, r: Receipt, number: Receipts.Amount, ctx: Ctx)
    requires IsUuid(r.id) && r.id in s.receipts && s.receipts[r.id] == r
    requires RequireAdminRole(ctx).Ok? && r.orgId == RequireAdminRole(ctx).value.orgId
    requires r.amountCents > 0
    ensures var form := Click(r, ApproveButton, None).form;
            var step := ReceiptUpdate.Update(s, form, number, ctx);
            && step.reply.Ok?
            && step.store.receipts[r.id].status == Approved
            && step.store.receipts[r.id].paidNote.None?
            && step.store.receipts[r.id].paidAt.None?
            && step.store.receipts[r.id].amountCents == r.amountCents
  {
    var form := Click(r, ApproveButton, None).form;
    ParseStatusName(Approved);
    assert ReceiptUpdate.ValidForm(form);
    ReceiptUpdate.UpdateTouchesOneReceipt(s, form, number, ctx);
    ReceiptUpdate.UpdatedRow(r, form, Approved, r.amountCents, RequireAdminRole(ctx).value.userId, ctx.nowMs);
  }

  /** A mark-paid click on an approved receipt of the session's organisation with a positive
      amount marks it paid with a nonempty payment method: the stored one if it had one,
      otherwise "venmo". */
  lemma MarkPaidClickRecordsMethod(s: Store, r: Receipt, number: Receipts.Amount, ctx: Ctx)
    requires IsUuid(r.id) && r.id in s.receipts && s.receipts[r.id] == r
    requires RequireAdminRole(ctx).Ok? && r.orgId == RequireAdminRole(ctx).value.orgId
    requires r.amountCents > 0
    ensures var form := Click(r, MarkPaidButton, None).form;
            var step := ReceiptUpdate.Update(s, form, number, ctx);
            && step.reply.Ok?
            && step.store.receipts[r.id].status == Paid
            && step.store.receipts[r.id].paidVia.Some?
            && step.store.receipts[r.id].paidVia.value != ""
            && step.store.receipts[r.id].paidVia == (if r.paidVia.GetOr("") == "" then Some("venmo") else r.paidVia)
            && step.store.receipts[r.id].paidAt.Some?
  {
    var form := Click(r, MarkPaidButton, None).form;
    ParseStatusName(Paid);
    assert ReceiptUpdate.ValidForm(form);
    ReceiptUpdate.UpdateTouchesOneReceipt(s, form, number, ctx);
    ReceiptUpdate.UpdatedRow(r, form, Paid, r.amountCents, RequireAdminRole(ctx).value.userId, ctx.nowMs);
  }

  /** A receipt stored with zero cents (a positive amount under half a cent) cannot be
      approved with the button: the update route finds its amount invalid. */
  lemma ZeroCentReceiptNotApprovable(s: Store, r: Receipt, number: Receipts.Amount, ctx: Ctx)
    requires IsUuid(r.id) && r.id in s.receipts && s.receipts[r.id] == r
    requires RequireAdminRole(ctx).Ok? && r.orgId == RequireAdminRole(ctx).value.orgId
    requires r.amountCents == 0
    ensures var form := Click(r, ApproveButton, None).form;
            ReceiptUpdate.Update(s, form, number, ctx) == Step(s, Fail(ReceiptUpdate.InvalidAmount))
  {
    ParseStatusName(Approved);
  }
}

=== FILE: receipt_review.dfy ===
/** The review decisions on receipts: rejecting one submitted receipt
    (src/app/api/admin/receipts/reject/route.ts) and the bulk approve, reject and mark-paid
    routes (bulk-approve, bulk-reject and bulk-paid under src/app/api/admin/receipts). */
module Review {
  import opened Common
  import opened Auth
  import opened Db

  const MAX_BULK: nat := 100
  const REASON_MIN: nat := 3
  const REASON_MAX: nat := 500
  /** The payment method bulk mark-paid records. */
  const BulkPaidVia: string := "venmo"

  const ReasonRequired: Failure := Failure(400, "Reason required (3\U{2013}500 chars).")
  const InvalidInput: Failure := Failure(400, "Invalid input.")
  const AlreadyProcessed: Failure := Failure(404, "Not found or already processed.")

  predicate ValidReason(reason: string) {
    REASON_MIN <= |reason| <= REASON_MAX
  }

  // ---------------------------------------------------------------------------
  // The three bulk decisions

  datatype Decision = Approve | Reject(reason: string) | MarkPaid

  /** The status a decision applies to. */
  function From(d: Decision): Status {
    if d.MarkPaid? then Approved else Submitted
  }

  /** The status a decision leads to. */
  function To(d: Decision): Status {
    match d
    case Approve => Approved
    case Reject(_) => Rejected
    case MarkPaid => Paid
  }

  function ActionOf(d: Decision): AuditAction {
    match d
    case Approve => ReceiptApproved
    case Reject(_) => ReceiptRejected
    case MarkPaid => ReceiptPaid
  }

  /** The error a schema failure gives, and the one an empty selection gives. */
  function SchemaError(d: Decision): Failure {
    if d.Reject? then ReasonRequired else InvalidInput
  }

  function NothingToDo(d: Decision): Failure {
    match d
    case Approve => Failure(400, "No valid receipts to approve.")
    case Reject(_) => Failure(400, "No valid receipts to reject.")
    case MarkPaid => Failure(400, "No valid receipts to mark paid.")
  }

  /** The row a decision writes. Mark-paid overwrites the payment method and time. */
  function Decide(d: Decision, r: Receipt, editor: UserId, nowMs: int): (r': Receipt)
    ensures r'.status == To(d)
    ensures r'.id == r.id && r'.orgId == r.orgId && r'.userId == r.userId && r'.amountCents == r.amountCents
  {
    match d
    case Approve => r.(status := Approved)
    case Reject(reason) => r.(status := Rejected, rejectionReason := Some(reason), rejectedAt := Some(nowMs), rejectedBy := Some(editor))
    case MarkPaid => r.(status := Paid, paidAt := Some(nowMs), paidVia := Some(BulkPaidVia))
  }

  predicate ValidBulk(d: Decision, ids: seq<string>) {
    && 1 <= |ids| <= MAX_BULK
    && (forall i :: 0 <= i < |ids| ==> IsUuid(ids[i]))
    && (d.Reject? ==> ValidReason(d.reason))
  }

  predicate Qualifies(s: Store, id: ReceiptId, org: OrgId, from: Status) {
    id in s.receipts && s.receipts[id].orgId == org && s.receipts[id].status == from
  }

  predicate NoDuplicates(xs: seq<ReceiptId>) {
    forall i, j :: 0 <= i < j < |xs| ==> xs[i] != xs[j]
  }

  /** The receipts the query finds: the requested ids that name a receipt of the
      organisation in the given status, each once, in order of first request. */
  function Selection(s: Store, ids: seq<string>, org: OrgId, from: Status): (sel: seq<ReceiptId>)
    ensures |sel| <= |ids|
    ensures NoDuplicates(sel)
    ensures forall x :: x in sel <==> x in ids && Qualifies(s, x, org, from)
  {
    if ids == [] then []
    else
      var rest := Selection(s, ids[..|ids| - 1], org, from);
      var x := ids[|ids| - 1];
      assert forall y :: y in ids <==> y in ids[..|ids| - 1] || y == x;
      if Qualifies(s, x, org, from) && x !in rest then rest + [x] else rest
  }

  /** The audit entries of a decision, one per selected receipt in order. */
  function AuditsFor(sel: seq<ReceiptId>, d: Decision, session: SessionUser): (a: seq<AuditEntry>)
    ensures |a| == |sel|
  {
    if sel == [] then []
    else AuditsFor(sel[..|sel| - 1], d, session)
         + [AuditEntry(session.orgId, session.userId, sel[|sel| - 1], ActionOf(d), From(d), To(d))]
  }

  /** The notifications of a decision, one to each selected receipt's owner in order. */
  function NoticesFor(s: Store, sel: seq<ReceiptId>, d: Decision, session: SessionUser): (n: seq<Notification>)
    requires forall x :: x in sel ==> x in s.receipts
    ensures |n| == |sel|
  {
    if sel == [] then []
    else NoticesFor(s, sel[..|sel| - 1], d, session)
         + [Notification(session.orgId, s.receipts[sel[|sel| - 1]].userId, ActionOf(d), sel[|sel| - 1])]
  }

  /** The store after a decision on the selected receipts, as one transaction. */
  function Decided(s: Store, sel: seq<ReceiptId>, d: Decision, session: SessionUser, nowMs: int): Store
    requires forall x :: x in sel ==> x in s.receipts
  {
    s.(receipts := map k | k in s.receipts :: if k in sel then Decide(d, s.receipts[k], session.userId, nowMs) else s.receipts[k],
       audit := s.audit + AuditsFor(sel, d, session),
       notifications := s.notifications + NoticesFor(s, sel, d, session))
  }

  /** POST of a bulk route: the reply lists the ids decided on; its length is the count. */
  function Bulk(s: Store, d: Decision, ids: seq<string>, ctx: Ctx): (step: Step<seq<ReceiptId>>)
    ensures step.reply.Fail? ==> step.store == s
  {
    match RequireAdminRole(ctx)
    case Fail(e) => Step(s, Fail(e))
    case Ok(session) =>
      if !ValidBulk(d, ids) then Step(s, Fail(SchemaError(d)))
      else
        var sel := Selection(s, ids, session.orgId, From(d));
        if sel == [] then Step(s, Fail(NothingToDo(d)))
        else Step(Decided(s, sel, d, session, ctx.nowMs), Ok(sel))
  }

  /** The per-receipt loop of the routes: update, audit entry and notification for one
      receipt after the other; it reaches the same store as the single transaction. */
  method ApplyInOrder(s: Store, sel: seq<ReceiptId>, d: Decision, session: SessionUser, nowMs: int) returns (t: Store)
    requires forall x :: x in sel ==> x in s.receipts
    requires NoDuplicates(sel)
    ensures t == Decided(s, sel, d, session, nowMs)
  {
    t := s;
    var i := 0;
    DecidedEmpty(s, sel, d, session, nowMs);
    while i < |sel|
      invariant 0 <= i <= |sel|
      invariant t == Decided(s, sel[..i], d, session, nowMs)
    {
      var id := sel[i];
      DecidedSnoc(s, sel, i, d, session, nowMs);
      var row := t.receipts[id];
      t := t.(receipts := t.receipts[id := Decide(d, row, session.userId, nowMs)],
              audit := t.audit + [AuditEntry(session.orgId, session.userId, id, ActionOf(d), From(d), To(d))],
              notifications := t.notifications + [Notification(session.orgId, row.userId, ActionOf(d), id)]);
      i := i + 1;
    }
    assert sel[..i] == sel;
  }

  /** Deciding on no receipt changes nothing. */
  lemma DecidedEmpty(s: Store, sel: seq<ReceiptId>, d: Decision, session: SessionUser, nowMs: int)
    ensures Decided(s, sel[..0], d, session, nowMs) == s
  {
    assert sel[..0] == [];
    assert Decided(s, [], d, session, nowMs).receipts == s.receipts;
  }

  /** Deciding one more receipt extends the transaction by that receipt's writes. */
  lemma DecidedSnoc(s: Store, sel: seq<ReceiptId>, i: int, d: Decision, session: SessionUser, nowMs: int)
    requires forall x :: x in sel ==> x in s.receipts
    requires NoDuplicates(sel) && 0 <= i < |sel|
    ensures var t := Decided(s, sel[..i], d, session, nowMs);
            var id := sel[i];
            && t.receipts[id] == s.receipts[id]
            && Decided(s, sel[..i + 1], d, session, nowMs)
               == t.(receipts := t.receipts[id := Decide(d, s.receipts[id], session.userId, nowMs)],
                     audit := t.audit + [AuditEntry(session.orgId, session.userId, id, ActionOf(d), From(d), To(d))],
                     notifications := t.notifications + [Notification(session.orgId, s.receipts[id].userId, ActionOf(d), id)])
  {
    var id := sel[i];
    assert sel[..i + 1][..i] == sel[..i];
    assert sel[..i + 1] == sel[..i] + [id];
    assert id !in sel[..i];
  }

  // ---------------------------------------------------------------------------
  // POST /api/admin/receipts/reject

  /** Rejects one submitted receipt of the session's organisation. The reason is stored as
      sent. */
  function RejectOne(s: Store, receiptId: Option<string>, reason: Option<string>, ctx: Ctx): (step: Step<bool>)
    ensures step.reply.Fail? ==> step.store == s
  {
    match RequireAdminRole(ctx)
    case Fail(e) => Step(s, Fail(e))
    case Ok(session) =>
      if receiptId.None? || !IsUuid(receiptId.value) || reason.None? || !ValidReason(reason.value) then Step(s, Fail(ReasonRequired))
      else if !Qualifies(s, receiptId.value, session.orgId, Submitted) then Step(s, Fail(AlreadyProcessed))
      else
        var id := receiptId.value;
        var row := s.receipts[id];
        Step(s.(receipts := s.receipts[id := Decide(Reject(reason.value), row, session.userId, ctx.nowMs)],
                audit := s.audit + [AuditEntry(session.orgId, session.userId, id, ReceiptRejected, Submitted, Rejected)],
                notifications := s.notifications + [Notification(session.orgId, row.userId, ReceiptRejected, id)]),
             Ok(true))
  }

  // ---------------------------------------------------------------------------
  // Properties

  /** A bulk decision succeeds exactly when the session has an admin-level role, the
      request is well formed and at least one requested id names a receipt of the session's
      organisation in the decision's starting status. */
  lemma BulkSucceedsExactly(s: Store, d: Decision, ids: seq<string>, ctx: Ctx)
    ensures var step := Bulk(s, d, ids, ctx);
            step.reply.Ok? <==>
              && RequireAdminRole(ctx).Ok? && ValidBulk(d, ids)
              && exists i :: 0 <= i < |ids| && Qualifies(s, ids[i], RequireAdminRole(ctx).value.orgId, From(d))
    ensures var step := Bulk(s, d, ids, ctx);
            RequireAdminRole(ctx).Ok? && !ValidBulk(d, ids) ==> step.reply == Fail(SchemaError(d))
  {
    if RequireAdminRole(ctx).Ok? && ValidBulk(d, ids) {
      var org := RequireAdminRole(ctx).value.orgId;
      var sel := Selection(s, ids, org, From(d));
      if sel != [] {
        assert sel[0] in ids;
        var i :| 0 <= i < |ids| && ids[i] == sel[0];
      }
    }
  }

  /** Exactly the qualifying requested receipts move to the decision's status, each once;
      every other receipt is untouched. There is one audit entry and one notification to
      the owner per decided receipt, and the reply's count is their number. */
  lemma BulkEffect(s: Store, d: Decision, ids: seq<string>, ctx: Ctx)
    requires Bulk(s, d, ids, ctx).reply.Ok?
    ensures var step := Bulk(s, d, ids, ctx);
            var session := RequireAdminRole(ctx).value;
            var sel := step.reply.value;
            && NoDuplicates(sel)
            && 1 <= |sel| <= |ids| <= MAX_BULK
            && step.store.receipts.Keys == s.receipts.Keys
            && (forall k :: k in s.receipts ==>
                  (k in sel <==> k in ids && Qualifies(s, k, session.orgId, From(d))))
            && (forall k :: k in s.receipts && k in sel ==>
                  step.store.receipts[k] == Decide(d, s.receipts[k], session.userId, ctx.nowMs))
            && (forall k :: k in s.receipts && k !in sel ==> step.store.receipts[k] == s.receipts[k])
            && |step.store.audit| == |s.audit| + |sel|
            && |step.store.notifications| == |s.notifications| + |sel|
            && (forall i :: 0 <= i < |sel| ==>
                  step.store.audit[|s.audit| + i] == AuditEntry(session.orgId, session.userId, sel[i], ActionOf(d), From(d), To(d)))
            && (forall i :: 0 <= i < |sel| ==>
                  && sel[i] in s.receipts
                  && step.store.notifications[|s.notifications| + i]
                     == Notification(session.orgId, s.receipts[sel[i]].userId, ActionOf(d), sel[i]))
            && step.store.users == s.users && step.store.profiles == s.profiles && step.store.edits == s.edits
  {
    var session := RequireAdminRole(ctx).value;
    var sel := Selection(s, ids, session.orgId, From(d));
    assert Bulk(s, d, ids, ctx) == Step(Decided(s, sel, d, session, ctx.nowMs), Ok(sel));
    DecidedEffect(s, sel, d, session, ctx.nowMs);
  }

  /** The transaction's writes: the selected receipts are decided and every other one is
      kept, with one audit entry and one notification per selected receipt, in order. */
  lemma DecidedEffect(s: Store, sel: seq<ReceiptId>, d: Decision, session: SessionUser, nowMs: int)
    requires forall x :: x in sel ==> x in s.receipts
    ensures var t := Decided(s, sel, d, session, nowMs);
            && t.receipts.Keys == s.receipts.Keys
            && (forall k :: k in s.receipts && k in sel ==> t.receipts[k] == Decide(d, s.receipts[k], session.userId, nowMs))
            && (forall k :: k in s.receipts && k !in sel ==> t.receipts[k] == s.receipts[k])
            && |t.audit| == |s.audit| + |sel|
            && |t.notifications| == |s.notifications| + |sel|
            && (forall i :: 0 <= i < |sel| ==>
                  t.audit[|s.audit| + i] == AuditEntry(session.orgId, session.userId, sel[i], ActionOf(d), From(d), To(d)))
            && (forall i :: 0 <= i < |sel| ==>
                  t.notifications[|s.notifications| + i] == Notification(session.orgId, s.receipts[sel[i]].userId, ActionOf(d), sel[i]))
            && t.users == s.users && t.profiles == s.profiles && t.edits == s.edits
  {
    var t := Decided(s, sel, d, session, nowMs);
    var audits := AuditsFor(sel, d, session);
    var notices := NoticesFor(s, sel, d, session);
    assert t.audit == s.audit + audits;
    assert t.notifications == s.notifications + notices;
    AuditsAt(sel, d, session);
    NoticesAt(s, sel, d, session);
    forall i | 0 <= i < |sel|
      ensures t.audit[|s.audit| + i] == AuditEntry(session.orgId, session.userId, sel[i], ActionOf(d), From(d), To(d))
      ensures t.notifications[|s.notifications| + i] == Notification(session.orgId, s.receipts[sel[i]].userId, ActionOf(d), sel[i])
    {
      assert t.audit[|s.audit| + i] == audits[i];
      assert t.notifications[|s.notifications| + i] == notices[i];
    }
  }

  lemma {:induction false} AuditsAt(sel: seq<ReceiptId>, d: Decision, session: SessionUser)
    ensures forall i :: 0 <= i < |sel| ==>
              AuditsFor(sel, d, session)[i] == AuditEntry(session.orgId, session.userId, sel[i], ActionOf(d), From(d), To(d))
  {
    if sel != [] {
      AuditsAt(sel[..|sel| - 1], d, session);
    }
  }

  lemma {:induction false} NoticesAt(s: Store, sel: seq<ReceiptId>, d: Decision, session: SessionUser)
    requires forall x :: x in sel ==> x in s.receipts
    ensures forall i :: 0 <= i < |sel| ==>
              NoticesFor(s, sel, d, session)[i] == Notification(session.orgId, s.receipts[sel[i]].userId, ActionOf(d), sel[i])
  {
    if sel != [] {
      NoticesAt(s, sel[..|sel| - 1], d, session);
    }
  }

  /** Repeating a bulk request that succeeded finds nothing left to decide: it answers 400
      and changes nothing. */
  lemma BulkNotRepeated(s: Store, d: Decision, ids: seq<string>, ctx: Ctx, later: Ctx)
    requires Bulk(s, d, ids, ctx).reply.Ok?
    requires RequireAdminRole(later) == RequireAdminRole(ctx)
    ensures var s1 := Bulk(s, d, ids, ctx).store;
            Bulk(s1, d, ids, later) == Step(s1, Fail(NothingToDo(d)))
  {
    var session := RequireAdminRole(ctx).value;
    var s1 := Bulk(s, d, ids, ctx).store;
    BulkEffect(s, d, ids, ctx);
    forall k | k in ids
      ensures !Qualifies(s1, k, session.orgId, From(d))
    {
      DecisionsMoveForward(d);
    }
    EmptySelection(s1, ids, session.orgId, From(d));
  }

  /** When no requested id qualifies the selection is empty. */
  lemma {:induction false} EmptySelection(s: Store, ids: seq<string>, org: OrgId, from: Status)
    requires forall k :: k in ids ==> !Qualifies(s, k, org, from)
    ensures Selection(s, ids, org, from) == []
  {
    if ids != [] {
      EmptySelection(s, ids[..|ids| - 1], org, from);
      assert ids[|ids| - 1] in ids;
    }
  }

  /** Rejecting one receipt is the bulk rejection of that receipt alone, once both accept
      the request. */
  lemma RejectOneIsBulkOfOne(s: Store, id: string, reason: string, ctx: Ctx)
    requires RejectOne(s, Some(id), Some(reason), ctx).reply.Ok?
    ensures Bulk(s, Reject(reason), [id], ctx).reply == Ok([id])
    ensures Bulk(s, Reject(reason), [id], ctx).store == RejectOne(s, Some(id), Some(reason), ctx).store
  {
    var session := RequireAdminRole(ctx).value;
    SelectionOfOne(s, id, session.orgId, Submitted);
    DecidedOne(s, id, Reject(reason), session, ctx.nowMs);
  }

  lemma SelectionOfOne(s: Store, id: string, org: OrgId, from: Status)
    requires Qualifies(s, id, org, from)
    ensures Selection(s, [id], org, from) == [id]
  {
    assert [id][..0] == [];
  }

  /** The transaction on a single receipt. */
  lemma DecidedOne(s: Store, id: ReceiptId, d: Decision, session: SessionUser, nowMs: int)
    requires id in s.receipts
    ensures Decided(s, [id], d, session, nowMs)
            == s.(receipts := s.receipts[id := Decide(d, s.receipts[id], session.userId, nowMs)],
                  audit := s.audit + [AuditEntry(session.orgId, session.userId, id, ActionOf(d), From(d), To(d))],
                  notifications := s.notifications + [Notification(session.orgId, s.receipts[id].userId, ActionOf(d), id)])
  {
    assert [id][..0] == [];
    assert Decided(s, [id], d, session, nowMs).receipts == s.receipts[id := Decide(d, s.receipts[id], session.userId, nowMs)];
  }

  /** Rejection fails with the same 404 for a receipt of another organisation, a missing
      receipt and one that is no longer submitted. */
  lemma RejectOnlySubmitted(s: Store, id: string, reason: string, ctx: Ctx)
    requires RequireAdminRole(ctx).Ok? && IsUuid(id) && ValidReason(reason)
    ensures RejectOne(s, Some(id), Some(reason), ctx).reply.Ok?
            <==> Qualifies(s, id, RequireAdminRole(ctx).value.orgId, Submitted)
    ensures !Qualifies(s, id, RequireAdminRole(ctx).value.orgId, Submitted) ==>
              RejectOne(s, Some(id), Some(reason), ctx) == Step(s, Fail(AlreadyProcessed))
  {
  }

  /** Approve, reject and mark-paid each leave the starting status and never return to it,
      and only mark-paid starts from approved. */
  lemma DecisionsMoveForward(d: Decision)
    ensures From(d) != To(d)
    ensures From(d) == Approved <==> d.MarkPaid?
    ensures To(d) == Approved ==> d.Approve?
  {
  }
}

=== FILE: receipt_update.dfy ===
/** The free-form admin update of one receipt (src/app/api/admin/receipts/update/route.ts):
    the derivation of the stored row from the form, the audit entry and notification on a
    status change, and one edit record per changed field. */
module ReceiptUpdate {
  import opened Common
  import opened Auth
  import opened Db
  import Receipts

  const PaidViaValues: seq<string> := ["venmo", "zelle", "paypal", "cash"]
  /** The method assumed when a receipt is marked paid without one. */
  const DefaultPaidVia: string := "venmo"
  const AdminHome: string := "/app/admin"

  const InvalidInput: Failure := Failure(400, "Invalid input.")
  const NotFound: Failure := Failure(404, "Not found.")
  const InvalidAmount: Failure := Failure(400, "Invalid amount.")
  const ReasonRequired: Failure := Failure(400, "Rejection reason required (min 3 characters).")

  /** The form fields; an absent field is None. */
  datatype UpdateForm = UpdateForm(
    receiptId: Option<string>,
    status: Option<string>,
    amount: Option<string>,
    description: Option<string>,
    category: Option<string>,
    paidVia: Option<string>,
    paidNote: Option<string>,
    rejectionReason: Option<string>)

  /** The schema. An optional enum accepts an absent field but not an empty one, except
      paidVia, which also accepts ""; the reason's length is checked untrimmed. */
  predicate ValidForm(f: UpdateForm) {
    && f.receiptId.Some? && IsUuid(f.receiptId.value)
    && f.status.Some? && ParseStatus(f.status.value).Some?
    && (f.category.None? || Receipts.ParseCategory(f.category.value).Some?)
    && (f.paidVia.None? || f.paidVia.value == "" || f.paidVia.value in PaidViaValues)
    && (f.rejectionReason.None? || f.rejectionReason.value == "" || 3 <= |f.rejectionReason.value| <= 500)
  }

  /** The new amount in cents, or None when it is not a positive finite number. A nonblank
      amount field is read by Number() (given as `number`); otherwise the stored amount
      stays, and must itself be positive. */
  function NewAmount(prev: Receipt, amount: Option<string>, number: Receipts.Amount): Option<int> {
    if amount.Some? && Trim(amount.value) != "" then
      if number.Finite? && number.positive then Some(number.cents) else None
    else if prev.amountCents > 0 then Some(prev.amountCents)
    else None
  }

  /** paid_via: "" clears it, a given method is kept, and otherwise marking paid fills in
      the stored method or "venmo"; any other status keeps the stored method. */
  function NewPaidVia(prev: Receipt, status: Status, paidVia: Option<string>): Option<string> {
    if paidVia == Some("") then None
    else if paidVia.Some? then paidVia
    else if status == Paid then Some(prev.paidVia.GetOr(DefaultPaidVia))
    else prev.paidVia
  }

  /** paid_at: the stored time or now for a paid receipt, and cleared for any other status. */
  function NewPaidAt(prev: Receipt, status: Status, nowMs: int): Option<int> {
    if status == Paid then Some(prev.paidAt.GetOr(nowMs)) else None
  }

  /** The trimmed reason of a rejection, if it is not blank. */
  function RejectionReason(status: Status, reason: Option<string>): Option<string> {
    if status == Rejected && reason.Some? && Trim(reason.value) != "" then Some(Trim(reason.value)) else None
  }

  /** The stored row after the update. The rejection fields change only on a rejection. */
  function Updated(prev: Receipt, f: UpdateForm, status: Status, cents: int, editor: UserId, nowMs: int): (r: Receipt)
    requires ValidForm(f)
  {
    var description := if f.description.Some? && Trim(f.description.value) != "" then Trim(f.description.value) else prev.description;
    var category := if f.category.Some? then Receipts.ParseCategory(f.category.value).value else prev.category;
    var r := prev.(status := status, amountCents := cents, description := description, category := category,
                  paidVia := NewPaidVia(prev, status, f.paidVia), paidNote := f.paidNote,
                  paidAt := NewPaidAt(prev, status, nowMs));
    if status == Rejected then
      r.(rejectionReason := RejectionReason(status, f.rejectionReason), rejectedAt := Some(nowMs), rejectedBy := Some(editor))
    else r
  }

  /** The audit action recorded for a status change. */
  function ActionFor(status: Status): AuditAction {
    match status
    case Approved => ReceiptApproved
    case Paid => ReceiptPaid
    case Rejected => ReceiptRejected
    case _ => ReceiptUpdated
  }

  /** The statuses whose change notifies the receipt's owner. */
  predicate Notifies(status: Status) {
    status == Approved || status == Paid || status == Rejected
  }

  /** A time as text in an edit record; see the README on Date.toISOString. */
  function TimestampText(ms: Option<int>): string {
    match ms
    case None => ""
    case Some(t) => IntToString(t)
  }

  function EditIf(changed: bool, id: ReceiptId, editor: UserId, field: string, oldValue: string, newValue: string): seq<ReceiptEdit> {
    if changed then [ReceiptEdit(id, editor, field, oldValue, newValue)] else []
  }

  /** The route's edit records, field by field in the route's order. */
  function RouteEdits(id: ReceiptId, prev: Receipt, r: Receipt, editor: UserId): seq<ReceiptEdit> {
    EditIf(prev.status != r.status, id, editor, "status", StatusName(prev.status), StatusName(r.status))
    + (EditIf(prev.amountCents != r.amountCents, id, editor, "amount_cents", IntToString(prev.amountCents), IntToString(r.amountCents))
    + (EditIf(prev.description != r.description, id, editor, "description", prev.description, r.description)
    + (EditIf(prev.category != r.category, id, editor, "category", CategoryName(prev.category), CategoryName(r.category))
    + (EditIf(prev.paidVia != r.paidVia, id, editor, "paid_via", prev.paidVia.GetOr(""), r.paidVia.GetOr(""))
    + (EditIf(prev.paidNote != r.paidNote, id, editor, "paid_note", prev.paidNote.GetOr(""), r.paidNote.GetOr(""))
    + EditIf(prev.paidAt != r.paidAt, id, editor, "paid_at", TimestampText(prev.paidAt), TimestampText(r.paidAt)))))))
  }

  /** The writes of a successful update of `prev` to `r`: the row, an audit entry when the
      status changed, a notification to the owner when it changed to a decision, and the
      edit records. */
  function Commit(s: Store, session: SessionUser, id: ReceiptId, prev: Receipt, r: Receipt): Store {
    var changed := prev.status != r.status;
    var audit := if changed then [AuditEntry(session.orgId, session.userId, id, ActionFor(r.status), prev.status, r.status)] else [];
    var notes := if changed && Notifies(r.status) then [Notification(session.orgId, prev.userId, ActionFor(r.status), id)] else [];
    s.(receipts := s.receipts[id := r],
       audit := s.audit + audit,
       notifications := s.notifications + notes,
       edits := s.edits + RouteEdits(id, prev, r, session.userId))
  }

  /** Whether the form passes every check for this session; the row it then writes. */
  function Accepted(s: Store, f: UpdateForm, number: Receipts.Amount, session: SessionUser): (ok: bool)
    ensures ok ==> ValidForm(f) && f.receiptId.value in s.receipts
  {
    && ValidForm(f)
    && f.receiptId.value in s.receipts
    && s.receipts[f.receiptId.value].orgId == session.orgId
    && NewAmount(s.receipts[f.receiptId.value], f.amount, number).Some?
    && (ParseStatus(f.status.value).value == Rejected ==> RejectionReason(Rejected, f.rejectionReason).Some?)
  }

  function NewRow(s: Store, f: UpdateForm, number: Receipts.Amount, session: SessionUser, nowMs: int): Receipt
    requires Accepted(s, f, number, session)
  {
    var prev := s.receipts[f.receiptId.value];
    Updated(prev, f, ParseStatus(f.status.value).value, NewAmount(prev, f.amount, number).value, session.userId, nowMs)
  }

  /** POST (form). `number` is what Number() makes of the trimmed amount field. On success
      the reply is the redirect target. */
  function Update(s: Store, f: UpdateForm, number: Receipts.Amount, ctx: Ctx): (step: Step<string>)
    ensures step.reply.Fail? ==> step.store == s
    ensures step.reply.Ok? <==> RequireAdminRole(ctx).Ok? && Accepted(s, f, number, RequireAdminRole(ctx).value)
    ensures step.reply.Ok? ==>
              && step.reply.value == AdminHome
              && step.store == Commit(s, RequireAdminRole(ctx).value, f.receiptId.value, s.receipts[f.receiptId.value],
                                      NewRow(s, f, number, RequireAdminRole(ctx).value, ctx.nowMs))
  {
    match RequireAdminRole(ctx)
    case Fail(e) => Step(s, Fail(e))
    case Ok(session) =>
      if !ValidForm(f) then Step(s, Fail(InvalidInput))
      else
        var id := f.receiptId.value;
        if id !in s.receipts || s.receipts[id].orgId != session.orgId then Step(s, Fail(NotFound))
        else
          var prev := s.receipts[id];
          var status := ParseStatus(f.status.value).value;
          match NewAmount(prev, f.amount, number)
          case None => Step(s, Fail(InvalidAmount))
          case Some(cents) =>
            if status == Rejected && RejectionReason(status, f.rejectionReason).None? then Step(s, Fail(ReasonRequired))
            else Step(Commit(s, session, id, prev, Updated(prev, f, status, cents, session.userId, ctx.nowMs)), Ok(AdminHome))
  }

  // ---------------------------------------------------------------------------
  // The edit history as a diff of two rows

  /** A column value of a receipt row, as the edit history sees it. */
  datatype Column = Text(text: string) | Number(n: int) | Time(ms: int) | Null

  function ColumnText(c: Column): string {
    match c
    case Text(t) => t
    case Number(n) => IntToString(n)
    case Time(ms) => TimestampText(Some(ms))
    case Null => ""
  }

  function OptionalText(o: Option<string>): Column {
    match o
    case None => Null
    case Some(t) => Text(t)
  }

  function OptionalTime(o: Option<int>): Column {
    match o
    case None => Null
    case Some(t) => Time(t)
  }

  /** The tracked columns of a row, by name. */
  function Columns(r: Receipt): (cs: seq<(string, Column)>)
    ensures |cs| == 7
  {
    [("status", Text(StatusName(r.status))),
     ("amount_cents", Number(r.amountCents)),
     ("description", Text(r.description)),
     ("category", Text(CategoryName(r.category))),
     ("paid_via", OptionalText(r.paidVia)),
     ("paid_note", OptionalText(r.paidNote)),
     ("paid_at", OptionalTime(r.paidAt))]
  }

  /** The edit records of a row change: one per column whose value differs, in column order. */
  function Diff(id: ReceiptId, editor: UserId, before: seq<(string, Column)>, after: seq<(string, Column)>): (d: seq<ReceiptEdit>)
    requires |before| == |after|
    ensures |d| <= |before|
  {
    if before == [] then [] else Entry(id, editor, before[0], after[0]) + Diff(id, editor, before[1..], after[1..])
  }

  /** The diff is empty exactly when no column changed, holds an entry for every changed
      column, and only entries for this receipt and editor. */
  lemma {:induction false} DiffExactly(id: ReceiptId, editor: UserId, before: seq<(string, Column)>, after: seq<(string, Column)>)
    requires |before| == |after|
    ensures var d := Diff(id, editor, before, after);
            && (d == [] <==> forall i :: 0 <= i < |before| ==> before[i].1 == after[i].1)
            && (forall i :: 0 <= i < |before| && before[i].1 != after[i].1 ==>
                  ReceiptEdit(id, editor, before[i].0, ColumnText(before[i].1), ColumnText(after[i].1)) in d)
            && (forall e :: e in d ==> e.receiptId == id && e.editor == editor)
  {
    if before != [] {
      DiffExactly(id, editor, before[1..], after[1..]);
      assert forall i :: 1 <= i < |before| ==> before[i] == before[1..][i - 1] && after[i] == after[1..][i - 1];
    }
  }

  lemma StatusNameInjective(a: Status, b: Status)
    ensures StatusName(a) == StatusName(b) ==> a == b
  {
    ParseStatusName(a);
    ParseStatusName(b);
  }

  lemma CategoryNameInjective(a: Category, b: Category)
    ensures CategoryName(a) == CategoryName(b) ==> a == b
  {
    Receipts.ParseCategoryName(a);
    Receipts.ParseCategoryName(b);
  }

  /** The route's field-by-field comparison is the diff of the stored row before and after:
      an edit is written for exactly the tracked columns that changed. */
  lemma RouteEditsAreDiff(id: ReceiptId, prev: Receipt, r: Receipt, editor: UserId)
    ensures RouteEdits(id, prev, r, editor) == Diff(id, editor, Columns(prev), Columns(r))
  {
    var a := Columns(prev);
    var b := Columns(r);
    DiffOfSeven(id, editor, a, b);
    assert EditIf(prev.status != r.status, id, editor, "status", StatusName(prev.status), StatusName(r.status))
           == Entry(id, editor, a[0], b[0]) by {
      StatusNameInjective(prev.status, r.status);
    }
    assert EditIf(prev.amountCents != r.amountCents, id, editor, "amount_cents", IntToString(prev.amountCents), IntToString(r.amountCents))
           == Entry(id, editor, a[1], b[1]);
    assert EditIf(prev.description != r.description, id, editor, "description", prev.description, r.description)
           == Entry(id, editor, a[2], b[2]);
    assert EditIf(prev.category != r.category, id, editor, "category", CategoryName(prev.category), CategoryName(r.category))
           == Entry(id, editor, a[3], b[3]) by {
      CategoryNameInjective(prev.category, r.category);
    }
    assert a[4] == ("paid_via", OptionalText(prev.paidVia)) && b[4] == ("paid_via", OptionalText(r.paidVia));
    OptionalTextEntry(id, editor, "paid_via", prev.paidVia, r.paidVia);
    assert a[5] == ("paid_note", OptionalText(prev.paidNote)) && b[5] == ("paid_note", OptionalText(r.paidNote));
    OptionalTextEntry(id, editor, "paid_note", prev.paidNote, r.paidNote);
    assert a[6] == ("paid_at", OptionalTime(prev.paidAt)) && b[6] == ("paid_at", OptionalTime(r.paidAt));
    OptionalTimeEntry(id, editor, prev.paidAt, r.paidAt);
  }

  /** The diff of two seven-column rows, column by column. */
  lemma DiffOfSeven(id: ReceiptId, editor: UserId, a: seq<(string, Column)>, b: seq<(string, Column)>)
    requires |a| == 7 && |b| == 7
    ensures Diff(id, editor, a, b)
            == Entry(id, editor, a[0], b[0]) + (Entry(id, editor, a[1], b[1]) + (Entry(id, editor, a[2], b[2])
               + (Entry(id, editor, a[3], b[3]) + (Entry(id, editor, a[4], b[4]) + (Entry(id, editor, a[5], b[5])
               + Entry(id, editor, a[6], b[6]))))))
  {
    assert a[0..] == a && b[0..] == b;
    DiffAt(id, editor, a, b, 0);
    DiffAt(id, editor, a, b, 1);
    DiffAt(id, editor, a, b, 2);
    DiffAt(id, editor, a, b, 3);
    DiffAt(id, editor, a, b, 4);
    DiffAt(id, editor, a, b, 5);
    DiffAt(id, editor, a, b, 6);
    assert Diff(id, editor, a[7..], b[7..]) == [];
    assert Entry(id, editor, a[6], b[6]) + [] == Entry(id, editor, a[6], b[6]);
  }

  /** The entry the diff makes for one column. */
  function Entry(id: ReceiptId, editor: UserId, before: (string, Column), after: (string, Column)): seq<ReceiptEdit> {
    if before.1 != after.1 then [ReceiptEdit(id, editor, before.0, ColumnText(before.1), ColumnText(after.1))] else []
  }

  lemma OptionalTextEntry(id: ReceiptId, editor: UserId, name: string, x: Option<string>, y: Option<string>)
    ensures EditIf(x != y, id, editor, name, x.GetOr(""), y.GetOr(""))
            == Entry(id, editor, (name, OptionalText(x)), (name, OptionalText(y)))
  {
  }

  lemma OptionalTimeEntry(id: ReceiptId, editor: UserId, x: Option<int>, y: Option<int>)
    ensures EditIf(x != y, id, editor, "paid_at", TimestampText(x), TimestampText(y))
            == Entry(id, editor, ("paid_at", OptionalTime(x)), ("paid_at", OptionalTime(y)))
  {
  }

  /** One step of the diff, from column k on. */
  lemma DiffAt(id: ReceiptId, editor: UserId, before: seq<(string, Column)>, after: seq<(string, Column)>, k: int)
    requires |before| == |after| && 0 <= k < |before|
    ensures Diff(id, editor, before[k..], after[k..])
            == Entry(id, editor, before[k], after[k]) + Diff(id, editor, before[k + 1..], after[k + 1..])
  {
    assert before[k..][1..] == before[k + 1..] && after[k..][1..] == after[k + 1..];
  }

  // ---------------------------------------------------------------------------
  // Properties

  /** The update succeeds exactly for an admin-level session, a valid form naming a receipt
      of the session's organisation, a positive amount and, for a rejection, a nonblank
      reason; the errors come in that order. */
  lemma UpdateSucceedsExactly(s: Store, f: UpdateForm, number: Receipts.Amount, ctx: Ctx)
    ensures var step := Update(s, f, number, ctx);
            step.reply.Ok? <==>
              && RequireAdminRole(ctx).Ok?
              && ValidForm(f)
              && f.receiptId.value in s.receipts
              && s.receipts[f.receiptId.value].orgId == RequireAdminRole(ctx).value.orgId
              && NewAmount(s.receipts[f.receiptId.value], f.amount, number).Some?
              && (f.status.value == "rejected" ==> RejectionReason(Rejected, f.rejectionReason).Some?)
    ensures var step := Update(s, f, number, ctx);
            RequireAdminRole(ctx).Ok? && ValidForm(f)
            && (f.receiptId.value !in s.receipts || s.receipts[f.receiptId.value].orgId != RequireAdminRole(ctx).value.orgId)
            ==> step == Step(s, Fail(NotFound))
  {
    if RequireAdminRole(ctx).Ok? && ValidForm(f) {
      var status := ParseStatus(f.status.value).value;
      StatusNameParses(f.status.value, status);
      ParseStatusName(Rejected);
    }
  }

  /** The row an accepted form writes: paid_via, paid_at and the rejection fields derived
      as the route promises, the description and category kept unless given, and a paid
      note replaced (or cleared) by the form's. */
  lemma UpdatedRow(prev: Receipt, f: UpdateForm, status: Status, cents: int, editor: UserId, nowMs: int)
    requires ValidForm(f) && ParseStatus(f.status.value) == Some(status)
    requires status == Rejected ==> RejectionReason(status, f.rejectionReason).Some?
    ensures var r := Updated(prev, f, status, cents, editor, nowMs);
            && r.id == prev.id && r.orgId == prev.orgId && r.userId == prev.userId
            && r.photoKey == prev.photoKey && r.createdAt == prev.createdAt
            && StatusName(r.status) == f.status.value
            && r.amountCents == cents
            && (f.description.None? || IsBlank(f.description.value) ==> r.description == prev.description)
            && (f.description.Some? && !IsBlank(f.description.value) ==> r.description == Trim(f.description.value))
            && (f.category.None? ==> r.category == prev.category)
            && (f.category.Some? ==> CategoryName(r.category) == f.category.value)
            && r.paidNote == f.paidNote
            && (f.paidVia == Some("") ==> r.paidVia.None?)
            && (f.paidVia.Some? && f.paidVia.value != "" ==> r.paidVia == f.paidVia)
            && (f.paidVia.None? && status == Paid ==> r.paidVia.Some? && (prev.paidVia.Some? ==> r.paidVia == prev.paidVia))
            && (f.paidVia.None? && status != Paid ==> r.paidVia == prev.paidVia)
            && (r.status == Paid <==> r.paidAt.Some?)
            && (r.status == Paid && prev.paidAt.Some? ==> r.paidAt == prev.paidAt)
            && (r.status == Paid && prev.paidAt.None? ==> r.paidAt == Some(nowMs))
            && (r.status == Rejected ==>
                  && r.rejectionReason.Some? && !IsBlank(r.rejectionReason.value)
                  && Trim(r.rejectionReason.value) == r.rejectionReason.value
                  && r.rejectedAt == Some(nowMs) && r.rejectedBy == Some(editor))
            && (r.status != Rejected ==>
                  r.rejectionReason == prev.rejectionReason && r.rejectedAt == prev.rejectedAt && r.rejectedBy == prev.rejectedBy)
  {
    StatusNameParses(f.status.value, status);
    if f.description.Some? {
      TrimEmptyIffBlank(f.description.value);
    }
    var r := Updated(prev, f, status, cents, editor, nowMs);
    if status == Rejected {
      TrimIdempotent(f.rejectionReason.value);
      TrimEmptyIffBlank(Trim(f.rejectionReason.value));
      assert r.rejectionReason == Some(Trim(f.rejectionReason.value));
    } else {
      assert r.rejectionReason == prev.rejectionReason;
    }
  }

  lemma StatusNameParses(name: string, status: Status)
    requires ParseStatus(name) == Some(status)
    ensures StatusName(status) == name
  {
  }

  /** A successful update changes its own receipt and no other; the amount it stores is
      positive. */
  lemma UpdateTouchesOneReceipt(s: Store, f: UpdateForm, number: Receipts.Amount, ctx: Ctx)
    requires Update(s, f, number, ctx).reply.Ok?
    ensures var step := Update(s, f, number, ctx);
            var id := f.receiptId.value;
            && step.store.receipts.Keys == s.receipts.Keys
            && (forall other :: other in s.receipts && other != id ==> step.store.receipts[other] == s.receipts[other])
            && step.store.receipts[id] == NewRow(s, f, number, RequireAdminRole(ctx).value, ctx.nowMs)
            && (f.amount.None? || Trim(f.amount.value) == "" ==>
                  step.store.receipts[id].amountCents == s.receipts[id].amountCents > 0)
  {
    var session := RequireAdminRole(ctx).value;
    var id := f.receiptId.value;
    var prev := s.receipts[id];
    var r := NewRow(s, f, number, session, ctx.nowMs);
    var cents := NewAmount(prev, f.amount, number).value;
    assert r.amountCents == cents;
    assert Update(s, f, number, ctx).store.receipts == s.receipts[id := r];
  }

  /** A status change writes one audit entry with the previous and new status and the action
      the new status names, and notifies the receipt's owner for approved, paid and
      rejected; an unchanged status writes neither. The edit records are the diff of the
      tracked columns of the row before and after. */
  lemma CommitRecordsChange(s: Store, session: SessionUser, id: ReceiptId, prev: Receipt, r: Receipt)
    ensures var s1 := Commit(s, session, id, prev, r);
            && (prev.status != r.status ==>
                  s1.audit == s.audit + [AuditEntry(session.orgId, session.userId, id, ActionFor(r.status), prev.status, r.status)])
            && (prev.status == r.status ==> s1.audit == s.audit)
            && (prev.status != r.status && Notifies(r.status) ==>
                  s1.notifications == s.notifications + [Notification(session.orgId, prev.userId, ActionFor(r.status), id)])
            && (prev.status == r.status || !Notifies(r.status) ==> s1.notifications == s.notifications)
            && s1.edits == s.edits + Diff(id, session.userId, Columns(prev), Columns(r))
  {
    RouteEditsAreDiff(id, prev, r, session.userId);
  }

  /** Applying an accepted form to the row it produced gives the same row again, up to the
      rejection time. */
  lemma UpdatedTwice(prev: Receipt, f: UpdateForm, status: Status, cents: int, editor: UserId, nowMs: int, later: int)
    requires ValidForm(f) && ParseStatus(f.status.value) == Some(status)
    requires status == Rejected ==> RejectionReason(status, f.rejectionReason).Some?
    ensures var r1 := Updated(prev, f, status, cents, editor, nowMs);
            var r2 := Updated(r1, f, status, cents, editor, later);
            r2 == r1.(rejectedAt := r2.rejectedAt)
  {
    var r1 := Updated(prev, f, status, cents, editor, nowMs);
    var r2 := Updated(r1, f, status, cents, editor, later);
    if f.description.Some? && Trim(f.description.value) != "" {
      TrimIdempotent(f.description.value);
    }
    assert r2.description == r1.description;
    assert r2.paidVia == r1.paidVia;
    assert r2.paidAt == r1.paidAt;
    assert r2.rejectionReason == r1.rejectionReason;
    assert r2.rejectedBy == r1.rejectedBy;
  }

  /** Sending the same form again, by the same session at any later time, is accepted,
      changes nothing but the rejection time, and writes no edit, audit entry or
      notification. */
  lemma UpdateIdempotent(s: Store, f: UpdateForm, number: Receipts.Amount, ctx: Ctx, later: Ctx)
    requires Update(s, f, number, ctx).reply.Ok?
    requires RequireAdminRole(later) == RequireAdminRole(ctx)
    ensures var s1 := Update(s, f, number, ctx).store;
            var step := Update(s1, f, number, later);
            var id := f.receiptId.value;
            && step.reply.Ok?
            && step.store.receipts == s1.receipts[id := s1.receipts[id].(rejectedAt := step.store.receipts[id].rejectedAt)]
            && step.store.edits == s1.edits
            && step.store.audit == s1.audit
            && step.store.notifications == s1.notifications
  {
    var session := RequireAdminRole(ctx).value;
    var s1 := Update(s, f, number, ctx).store;
    var id := f.receiptId.value;
    ResubmitAccepted(s, f, number, ctx, later.nowMs);
    var r1 := NewRow(s, f, number, session, ctx.nowMs);
    var r2 := NewRow(s1, f, number, session, later.nowMs);
    assert Columns(r1) == Columns(r2);
    DiffSame(id, session.userId, Columns(r1));
    CommitRecordsChange(s1, session, id, r1, r2);
  }

  /** After an accepted update the same form is accepted again, and derives the same row up
      to the rejection time. */
  lemma ResubmitAccepted(s: Store, f: UpdateForm, number: Receipts.Amount, ctx: Ctx, later: int)
    requires Update(s, f, number, ctx).reply.Ok?
    ensures var session := RequireAdminRole(ctx).value;
            var s1 := Update(s, f, number, ctx).store;
            var r1 := NewRow(s, f, number, session, ctx.nowMs);
            && s1 == Commit(s, session, f.receiptId.value, s.receipts[f.receiptId.value], r1)
            && s1.receipts[f.receiptId.value] == r1
            && Accepted(s1, f, number, session)
            && NewRow(s1, f, number, session, later) == r1.(rejectedAt := NewRow(s1, f, number, session, later).rejectedAt)
  {
    var session := RequireAdminRole(ctx).value;
    var s1 := Update(s, f, number, ctx).store;
    var id := f.receiptId.value;
    var prev := s.receipts[id];
    var status := ParseStatus(f.status.value).value;
    var cents := NewAmount(prev, f.amount, number).value;
    var r1 := Updated(prev, f, status, cents, session.userId, ctx.nowMs);
    assert NewRow(s, f, number, session, ctx.nowMs) == r1;
    assert s1.receipts[id] == r1;
    assert NewAmount(r1, f.amount, number) == Some(cents);
    UpdatedTwice(prev, f, status, cents, session.userId, ctx.nowMs, later);
  }

  /** A row compared with itself has no edits. */
  lemma {:induction false} DiffSame(id: ReceiptId, editor: UserId, a: seq<(string, Column)>)
    ensures Diff(id, editor, a, a) == []
  {
    if a != [] {
      DiffSame(id, editor, a[1..]);
    }
  }

  /** An empty paid note replaces a missing one: the edit record then shows the same empty
      text on both sides. */
  lemma EmptyNoteEditLooksUnchanged(id: ReceiptId, prev: Receipt, r: Receipt, editor: UserId)
    requires prev.paidNote.None? && r.paidNote == Some("")
    ensures ReceiptEdit(id, editor, "paid_note", "", "") in RouteEdits(id, prev, r, editor)
  {
  }
}

=== FILE: receipts.dfy ===
/** Receipt submission and the role-scoped receipt list (src/app/api/receipts/route.ts),
    together with the receipt queries the pages and routes share. */
module Receipts {
  import opened Common
  import opened Permissions
  import opened Auth
  import opened Db
  import Json

  // ---------------------------------------------------------------------------
  // Queries

  /** The where-clause of a receipts query: the organisation, optionally one owner and
      optionally one status. */
  predicate Matches(r: Receipt, org: OrgId, owner: Option<UserId>, status: Option<Status>) {
    && r.orgId == org
    && (owner.Some? ==> r.userId == owner.value)
    && (status.Some? ==> r.status == status.value)
  }

  /** findMany over the rows in the order the database returns them. */
  function Where(rows: seq<Receipt>, org: OrgId, owner: Option<UserId>, status: Option<Status>): (r: seq<Receipt>)
    ensures |r| <= |rows|
    ensures forall x :: x in r <==> x in rows && Matches(x, org, owner, status)
  {
    if rows == [] then []
    else
      var rest := Where(rows[1..], org, owner, status);
      if Matches(rows[0], org, owner, status) then [rows[0]] + rest else rest
  }

  /** The query keeps the database order: it is the subsequence of matching rows, so a
      prefix of the table gives a prefix of the answer. */
  lemma {:induction false} WhereDistributes(a: seq<Receipt>, b: seq<Receipt>, org: OrgId, owner: Option<UserId>, status: Option<Status>)
    ensures Where(a + b, org, owner, status) == Where(a, org, owner, status) + Where(b, org, owner, status)
  {
    if a == [] {
      assert a + b == b;
    } else {
      assert (a + b)[1..] == a[1..] + b;
      WhereDistributes(a[1..], b, org, owner, status);
    }
  }

  /** Adding the status condition to a query is the same as filtering its answer again. */
  lemma {:induction false} WhereStatusRefines(rows: seq<Receipt>, org: OrgId, owner: Option<UserId>, status: Status)
    ensures Where(rows, org, owner, Some(status)) == Where(Where(rows, org, owner, None), org, None, Some(status))
  {
    if rows != [] {
      WhereStatusRefines(rows[1..], org, owner, status);
    }
  }

  /** The sum of the amounts of some receipts. */
  function TotalCents(rs: seq<Receipt>): int {
    if rs == [] then 0 else rs[0].amountCents + TotalCents(rs[1..])
  }

  /** Totals add up over a concatenation. */
  lemma {:induction false} TotalCentsAppend(a: seq<Receipt>, b: seq<Receipt>)
    ensures TotalCents(a + b) == TotalCents(a) + TotalCents(b)
  {
    if a == [] {
      assert a + b == b;
    } else {
      assert (a + b)[1..] == a[1..] + b;
      TotalCentsAppend(a[1..], b);
    }
  }

  /** One more row raises a status's total by its amount when it has that status. */
  lemma TotalWhereSnoc(prefix: seq<Receipt>, r: Receipt, org: OrgId, st: Status)
    requires r.orgId == org
    ensures TotalCents(Where(prefix + [r], org, None, Some(st)))
            == TotalCents(Where(prefix, org, None, Some(st))) + (if r.status == st then r.amountCents else 0)
  {
    WhereDistributes(prefix, [r], org, None, Some(st));
    TotalCentsAppend(Where(prefix, org, None, Some(st)), Where([r], org, None, Some(st)));
  }

  // ---------------------------------------------------------------------------
  // POST /api/receipts

  const InvalidInput: Failure := Failure(400, "Invalid input.")
  const InvalidAmount: Failure := Failure(400, "Invalid amount.")
  /** A receipt id that is already taken violates the primary key; the error is not caught. */
  const InsertFailed: Failure := Failure(500, "Internal Server Error")

  /** Reads a category field; anything outside the five names is not a category. */
  function ParseCategory(s: string): (r: Option<Category>)
    ensures r.Some? ==> CategoryName(r.value) == s
  {
    if s == "food" then Some(Food)
    else if s == "drinks" then Some(Drinks)
    else if s == "hardware" then Some(Hardware)
    else if s == "lights" then Some(Lights)
    else if s == "other" then Some(Other)
    else None
  }

  lemma ParseCategoryName(c: Category)
    ensures ParseCategory(CategoryName(c)) == Some(c)
  {
  }

  /** What Number(amount) gives: not a finite number, or a finite number of which the route
      uses only its sign and Math.round(x * 100). */
  datatype Amount = NotFinite | Finite(positive: bool, cents: int)

  /** A finite number's rounded cents cannot have the opposite sign. */
  predicate AmountWellFormed(a: Amount) {
    a.Finite? ==> (a.positive ==> a.cents >= 0) && (!a.positive ==> a.cents <= 0)
  }

  /** The JSON body; absent members are None. */
  datatype CreateRequest = CreateRequest(
    receiptId: Option<string>,
    description: Option<string>,
    amount: Option<string>,
    category: Option<string>,
    photoKey: Option<string>)

  predicate ValidCreateRequest(req: CreateRequest) {
    && req.receiptId.Some? && IsUuid(req.receiptId.value)
    && req.description.Some? && |req.description.value| >= 1
    && req.amount.Some? && |req.amount.value| >= 1
    && req.category.Some? && ParseCategory(req.category.value).Some?
    && req.photoKey.Some? && |req.photoKey.value| >= 1
  }

  /** The "created" edit records the new row as a JSON object of five members. */
  function Snapshot(r: Receipt): string {
    Json.Object([("description", Json.Str(r.description)),
                 ("amount_cents", Json.Int(r.amountCents)),
                 ("category", Json.Str(CategoryName(r.category))),
                 ("status", Json.Str(StatusName(r.status))),
                 ("photo_key", Json.Str(r.photoKey))])
  }

  /** The row a valid request creates for the session user. */
  function NewReceipt(req: CreateRequest, session: SessionUser, cents: int, nowMs: int): Receipt
    requires ValidCreateRequest(req)
  {
    Receipt(req.receiptId.value, session.orgId, session.userId, req.description.value, cents,
            ParseCategory(req.category.value).value, Submitted, req.photoKey.value, nowMs,
            None, None, None, None, None, None)
  }

  /** POST. `number` is what Number() makes of the amount text. The reply is the new id. */
  function CreateReceipt(s: Store, req: CreateRequest, number: Amount, ctx: Ctx): (step: Step<ReceiptId>)
    ensures step.reply.Fail? ==> step.store == s
    ensures !ValidCreateRequest(req) ==> step.reply == Fail(InvalidInput)
    ensures ValidCreateRequest(req) && RequireCurrentUserAndProfile(ctx, s.profiles).Fail? ==> step.reply == Fail(Unauthorized)
    ensures step.reply.Ok? ==> step.store.audit == s.audit && step.store.notifications == s.notifications
  {
    if !ValidCreateRequest(req) then Step(s, Fail(InvalidInput))
    else match RequireCurrentUserAndProfile(ctx, s.profiles)
      case Fail(f) => Step(s, Fail(f))
      case Ok(session) =>
        if number.NotFinite? || !number.positive then Step(s, Fail(InvalidAmount))
        else if req.receiptId.value in s.receipts then Step(s, Fail(InsertFailed))
        else
          var r := NewReceipt(req, session, number.cents, ctx.nowMs);
          var edit := ReceiptEdit(r.id, session.userId, "created", "", Snapshot(r));
          Step(s.(receipts := s.receipts[r.id := r], edits := s.edits + [edit]), Ok(r.id))
  }

  /** Submission succeeds exactly for a valid body from a profile-backed session with a
      finite positive amount and a fresh id. The new receipt is submitted, belongs to the
      session's organisation and user, carries the rounded cents, has no payment or
      rejection data, and exactly one "created" edit with an empty old value describes it. */
  lemma CreateSucceedsExactly(s: Store, req: CreateRequest, number: Amount, ctx: Ctx)
    ensures var step := CreateReceipt(s, req, number, ctx);
            step.reply.Ok? <==>
              && ValidCreateRequest(req)
              && GetCurrentUserAndProfile(ctx, s.profiles).Some?
              && number.Finite? && number.positive
              && req.receiptId.value !in s.receipts
  {
  }

  /** The stored receipt: a new submitted row of the session's organisation and user, with
      the request's fields and the parsed amount, recorded in the edit history. */
  lemma CreateReceiptFields(s: Store, req: CreateRequest, number: Amount, ctx: Ctx)
    ensures var step := CreateReceipt(s, req, number, ctx);
            step.reply.Ok? ==>
              var session := GetCurrentUserAndProfile(ctx, s.profiles).value;
              var id := req.receiptId.value;
              var r := step.store.receipts[id];
              && step.reply.value == id
              && step.store.receipts == s.receipts[id := r]
              && r.status == Submitted
              && r.orgId == session.orgId && r.orgId == s.profiles[session.userId].orgId
              && r.userId == session.userId
              && r.amountCents == number.cents
              && r.description == req.description.value
              && CategoryName(r.category) == req.category.value
              && r.photoKey == req.photoKey.value
              && r.createdAt == ctx.nowMs
              && r.paidAt.None? && r.paidVia.None? && r.paidNote.None?
              && r.rejectionReason.None? && r.rejectedAt.None? && r.rejectedBy.None?
              && step.store.edits == s.edits + [ReceiptEdit(id, session.userId, "created", "", Snapshot(r))]
  {
    var step := CreateReceipt(s, req, number, ctx);
    if step.reply.Ok? {
      var session := GetCurrentUserAndProfile(ctx, s.profiles).value;
      assert RequireCurrentUserAndProfile(ctx, s.profiles) == Ok(session);
      var r := NewReceipt(req, session, number.cents, ctx.nowMs);
      assert step.store == s.(receipts := s.receipts[r.id := r],
                              edits := s.edits + [ReceiptEdit(r.id, session.userId, "created", "", Snapshot(r))]);
    }
  }

  /** Amounts are checked before rounding: a positive amount below half a cent passes the
      check and is stored as zero cents, while zero itself is refused. */
  lemma PositiveAmountMayRoundToZero(s: Store, req: CreateRequest, ctx: Ctx)
    requires ValidCreateRequest(req) && GetCurrentUserAndProfile(ctx, s.profiles).Some?
    requires req.receiptId.value !in s.receipts
    ensures var step := CreateReceipt(s, req, Finite(true, 0), ctx);
            step.reply.Ok? && step.store.receipts[req.receiptId.value].amountCents == 0
    ensures CreateReceipt(s, req, Finite(false, 0), ctx) == Step(s, Fail(InvalidAmount))
  {
  }

  /** The snapshot is a JSON object whose description member reads back exactly. */
  lemma SnapshotQuotesDescription(r: Receipt)
    ensures var q := Json.Quote(r.description);
            Json.Unescape(q[1..|q| - 1]) == Some(r.description)
  {
    var q := Json.Quote(r.description);
    assert q[1..|q| - 1] == Json.Escape(r.description);
    Json.UnescapeEscape(r.description);
  }

  // ---------------------------------------------------------------------------
  // GET /api/receipts

  /** The rows the list query selects: the session organisation's, and only the session
      user's own for a member. `rows` is the table in descending creation order. */
  function ListQuery(s: Store, ctx: Ctx, rows: seq<Receipt>): (r: Result<seq<Receipt>>)
    ensures r.Fail? <==> GetCurrentUserAndProfile(ctx, s.profiles).None?
    ensures r.Ok? ==> |r.value| <= |rows|
  {
    match RequireCurrentUserAndProfile(ctx, s.profiles)
    case Fail(f) => Fail(f)
    case Ok(session) =>
      Ok(Where(rows, session.orgId, if session.role == Member then Some(session.userId) else None, None))
  }

  /** The columns the list sends to the client. */
  datatype ListedReceipt = ListedReceipt(
    id: ReceiptId,
    description: string,
    amountCents: int,
    category: Category,
    status: Status,
    photoKey: string,
    createdAt: int)

  /** The select-clause of the list query. */
  function Listed(x: Receipt): (l: ListedReceipt)
    ensures l.id == x.id && l.description == x.description && l.amountCents == x.amountCents
    ensures l.category == x.category && l.status == x.status && l.photoKey == x.photoKey && l.createdAt == x.createdAt
  {
    ListedReceipt(x.id, x.description, x.amountCents, x.category, x.status, x.photoKey, x.createdAt)
  }

  /** GET: the selected rows, in order, cut down to the selected columns. */
  function ListReceipts(s: Store, ctx: Ctx, rows: seq<Receipt>): (r: Result<seq<ListedReceipt>>)
    ensures r.Fail? <==> GetCurrentUserAndProfile(ctx, s.profiles).None?
    ensures r.Ok? ==> |r.value| == |ListQuery(s, ctx, rows).value|
    ensures r.Ok? ==> forall i :: 0 <= i < |r.value| ==>
              r.value[i].id == ListQuery(s, ctx, rows).value[i].id
              && r.value[i].amountCents == ListQuery(s, ctx, rows).value[i].amountCents
              && r.value[i].status == ListQuery(s, ctx, rows).value[i].status
              && r.value[i].description == ListQuery(s, ctx, rows).value[i].description
              && r.value[i].category == ListQuery(s, ctx, rows).value[i].category
              && r.value[i].photoKey == ListQuery(s, ctx, rows).value[i].photoKey
              && r.value[i].createdAt == ListQuery(s, ctx, rows).value[i].createdAt
  {
    match ListQuery(s, ctx, rows)
    case Fail(f) => Fail(f)
    case Ok(selected) => Ok(seq(|selected|, i requires 0 <= i < |selected| => Listed(selected[i])))
  }

  /** The owner, the organisation, the payment note and the rejection fields never reach the
      client: two rows differing only in those columns are listed alike. */
  lemma ListHidesPrivateColumns(x: Receipt, userId: UserId, orgId: OrgId, paidAt: Option<int>, paidVia: Option<string>,
                                paidNote: Option<string>, reason: Option<string>, rejectedAt: Option<int>, rejectedBy: Option<UserId>)
    ensures Listed(x) == Listed(x.(userId := userId, orgId := orgId, paidAt := paidAt, paidVia := paidVia, paidNote := paidNote,
                                   rejectionReason := reason, rejectedAt := rejectedAt, rejectedBy := rejectedBy))
  {
  }

  /** Every listed receipt is in the caller's organisation; a member sees exactly their own,
      any other role sees every receipt of the organisation. */
  lemma ListScopedToSession(s: Store, ctx: Ctx, rows: seq<Receipt>)
    requires GetCurrentUserAndProfile(ctx, s.profiles).Some?
    ensures var session := GetCurrentUserAndProfile(ctx, s.profiles).value;
            var listed := ListQuery(s, ctx, rows).value;
            && (forall x :: x in listed ==> x in rows && x.orgId == session.orgId)
            && (session.role == Member ==> forall x :: x in rows ==> (x in listed <==> x.orgId == session.orgId && x.userId == session.userId))
            && (session.role != Member ==> forall x :: x in rows ==> (x in listed <==> x.orgId == session.orgId))
  {
  }

  /** The route's "role is member" test is the permission predicate's complement. */
  lemma MemberFilterIsNotViewAll(role: Role)
    ensures (role == Member) <==> !CanViewAllReceipts(role)
  {
  }
}

=== FILE: receipts_page.dfy ===
/** The receipts page (src/app/app/receipts/page.tsx): the optional status filter, the
    role-scoped list, and the running totals shown to members. */
module ReceiptsPage {
  import opened Common
  import opened Permissions
  import opened Auth
  import opened Db
  import Receipts

  /** The filter: the requested status when it is one of the five, otherwise none. */
  function StatusFilter(param: Option<string>): Option<Status> {
    if param.Some? && param.value != "" && ParseStatus(param.value).Some? then ParseStatus(param.value) else None
  }

  datatype Totals = Totals(total: int, submitted: int, approved: int, paid: int)

  /** The reduce over the listed receipts. */
  function MemberTotals(rs: seq<Receipt>): Totals {
    if rs == [] then Totals(0, 0, 0, 0)
    else
      var t := MemberTotals(rs[..|rs| - 1]);
      var r := rs[|rs| - 1];
      Totals(t.total + r.amountCents,
             t.submitted + (if r.status == Submitted then r.amountCents else 0),
             t.approved + (if r.status == Approved then r.amountCents else 0),
             t.paid + (if r.status == Paid then r.amountCents else 0))
  }

  datatype Page = Page(filter: Option<Status>, listed: seq<Receipt>, totals: Option<Totals>)

  /** The page for a request. `rows` is the receipts table in descending creation order. */
  function ReceiptsFor(s: Store, ctx: Ctx, param: Option<string>, rows: seq<Receipt>): (r: Result<Page>)
    ensures r.Fail? <==> GetCurrentUserAndProfile(ctx, s.profiles).None?
  {
    match RequireCurrentUserAndProfile(ctx, s.profiles)
    case Fail(f) => Fail(f)
    case Ok(session) =>
      var viewAll := CanViewAllReceipts(session.role);
      var filter := StatusFilter(param);
      var listed := Receipts.Where(rows, session.orgId, if !viewAll then Some(session.userId) else None, filter);
      Ok(Page(filter, listed, if !viewAll then Some(MemberTotals(listed)) else None))
  }

  // ---------------------------------------------------------------------------
  // Properties

  /** The filter is the requested status exactly when that names a status, and none for
      anything else. */
  lemma StatusFilterValidated(param: Option<string>)
    ensures StatusFilter(param).Some? <==> param.Some? && ParseStatus(param.value).Some?
    ensures StatusFilter(param).Some? ==> StatusName(StatusFilter(param).value) == param.value
  {
  }

  /** The list is the organisation's receipts, only the session user's own for a role that
      cannot view all receipts, with the filter's status when there is one; without a
      filter it is the list the receipts API returns, and with one it is that list
      filtered again. */
  lemma PageScoped(s: Store, ctx: Ctx, param: Option<string>, rows: seq<Receipt>)
    requires GetCurrentUserAndProfile(ctx, s.profiles).Some?
    ensures var session := GetCurrentUserAndProfile(ctx, s.profiles).value;
            var p := ReceiptsFor(s, ctx, param, rows).value;
            var api := Receipts.ListQuery(s, ctx, rows).value;
            && (forall x :: x in p.listed <==>
                  && x in rows && x.orgId == session.orgId
                  && (!CanViewAllReceipts(session.role) ==> x.userId == session.userId)
                  && (p.filter.Some? ==> x.status == p.filter.value))
            && (p.filter.None? ==> p.listed == api)
            && (p.filter.Some? ==> p.listed == Receipts.Where(api, session.orgId, None, p.filter))
            && (p.totals.Some? <==> !CanViewAllReceipts(session.role))
  {
    var session := GetCurrentUserAndProfile(ctx, s.profiles).value;
    var p := ReceiptsFor(s, ctx, param, rows).value;
    var owner := if !CanViewAllReceipts(session.role) then Some(session.userId) else None;
    Receipts.MemberFilterIsNotViewAll(session.role);
    if p.filter.Some? {
      Receipts.WhereStatusRefines(rows, session.orgId, owner, p.filter.value);
    }
  }

  /** The totals are the sums over the listed receipts and over those with each status. */
  lemma {:induction false} TotalsAreSums(rs: seq<Receipt>, org: OrgId)
    requires forall r :: r in rs ==> r.orgId == org
    ensures var t := MemberTotals(rs);
            && t.total == Receipts.TotalCents(rs)
            && t.submitted == Receipts.TotalCents(Receipts.Where(rs, org, None, Some(Submitted)))
            && t.approved == Receipts.TotalCents(Receipts.Where(rs, org, None, Some(Approved)))
            && t.paid == Receipts.TotalCents(Receipts.Where(rs, org, None, Some(Paid)))
  {
    if rs != [] {
      var prefix := rs[..|rs| - 1];
      var r := rs[|rs| - 1];
      assert rs == prefix + [r];
      TotalsAreSums(prefix, org);
      Receipts.TotalCentsAppend(prefix, [r]);
      Receipts.TotalWhereSnoc(prefix, r, org, Submitted);
      Receipts.TotalWhereSnoc(prefix, r, org, Approved);
      Receipts.TotalWhereSnoc(prefix, r, org, Paid);
    }
  }

  /** With no negative amount, submitted, approved and paid together never exceed the
      total; the rest is rejected or under review. */
  lemma {:induction false} TotalsBounded(rs: seq<Receipt>)
    requires forall r :: r in rs ==> r.amountCents >= 0
    ensures var t := MemberTotals(rs);
            && 0 <= t.submitted && 0 <= t.approved && 0 <= t.paid
            && t.submitted + t.approved + t.paid <= t.total
  {
    if rs != [] {
      var prefix := rs[..|rs| - 1];
      assert forall r :: r in prefix ==> r in rs;
      TotalsBounded(prefix);
    }
  }

  /** A member's totals describe exactly the receipts on their page. */
  lemma MemberTotalsOfPage(s: Store, ctx: Ctx, param: Option<string>, rows: seq<Receipt>)
    requires GetCurrentUserAndProfile(ctx, s.profiles).Some?
    requires GetCurrentUserAndProfile(ctx, s.profiles).value.role == Member
    ensures var session := GetCurrentUserAndProfile(ctx, s.profiles).value;
            var p := ReceiptsFor(s, ctx, param, rows).value;
            && p.totals.Some?
            && p.totals.value.total == Receipts.TotalCents(p.listed)
            && p.totals.value.approved == Receipts.TotalCents(Receipts.Where(p.listed, session.orgId, None, Some(Approved)))
            && (forall x :: x in p.listed ==> x.userId == session.userId)
  {
    var session := GetCurrentUserAndProfile(ctx, s.profiles).value;
    var p := ReceiptsFor(s, ctx, param, rows).value;
    TotalsAreSums(p.listed, session.orgId);
  }
}

=== FILE: reset_password.dfy ===
/** Completing a password reset (src/app/api/auth/reset-password/route.ts): the form and the
    JSON variants, single-use tokens, and the session that follows a reset. */
module ResetPassword {
  import opened Common
  import opened Auth
  import opened Db
  import Login
  import ForgotPassword

  /** The body: a url-encoded form (missing fields read as "") or JSON (missing fields fail
      the schema). */
  datatype ResetBody =
    | Form(formToken: Option<string>, formPassword: Option<string>)
    | Json(jsonToken: Option<string>, jsonPassword: Option<string>)

  /** A redirect with its query parameters, in the order they are set, and maybe a cookie. */
  datatype Response =
    | RedirectTo(path: string, query: seq<(string, string)>, setCookie: Option<CookieWrite>)
    | JsonError(failure: Failure)

  datatype Outcome = Outcome(store: Store, response: Response)

  const ShortPasswordMessage: string := "Password must be at least 8 characters."
  const FormLinkMessage: string := "Invalid or expired reset link. Request a new one."
  const InvalidInput: Failure := Failure(400, "Invalid input.")
  const InvalidLink: Failure := Failure(400, "Invalid or expired reset link. Please request a new one.")

  /** The token and password the schema sees, if both are present. */
  function Fields(body: ResetBody): Option<(string, string)> {
    match body
    case Form(t, p) => Some((t.GetOr(""), p.GetOr("")))
    case Json(t, p) => if t.Some? && p.Some? then Some((t.value, p.value)) else None
  }

  /** The schema: a nonempty token and a password of at least 8 characters. */
  predicate ValidFields(f: Option<(string, string)>) {
    f.Some? && |f.value.0| >= 1 && |f.value.1| >= 8
  }

  /** The reset row a token names, if it is still unexpired and its user has a profile. */
  function UsableRecord(s: Store, token: string, nowMs: int): (r: Option<Digest>)
    ensures r.Some? ==> r.value == HashToken(token) && r.value in s.resetTokens
                        && s.resetTokens[r.value].expiresAt > nowMs
                        && s.resetTokens[r.value].userId in s.users
                        && s.resetTokens[r.value].userId in s.profiles
  {
    var d := HashToken(token);
    if d in s.resetTokens && s.resetTokens[d].expiresAt > nowMs
       && s.resetTokens[d].userId in s.users && s.resetTokens[d].userId in s.profiles
    then Some(d) else None
  }

  /** POST. `salt` is the password hash's salt. */
  function ResetPassword(s: Store, body: ResetBody, ctx: Ctx, salt: nat): (o: Outcome)
    ensures o.response.RedirectTo? && o.response.setCookie.None? ==> o.store == s
    ensures o.response.JsonError? ==> o.store == s
    ensures body.Json? ==> !o.response.RedirectTo? || o.response.path == "/app"
  {
    var f := Fields(body);
    if !ValidFields(f) then
      var token := if body.Form? then body.formToken.GetOr("") else "";
      if body.Form? then
        Outcome(s, RedirectTo("/reset-password",
                              (if token != "" then [("token", token)] else []) + [("error", ShortPasswordMessage)],
                              None))
      else Outcome(s, JsonError(InvalidInput))
    else
      var (token, password) := f.value;
      match UsableRecord(s, token, ctx.nowMs)
      case None =>
        if body.Form? then
          Outcome(s, RedirectTo("/reset-password", [("token", token), ("error", FormLinkMessage)], None))
        else Outcome(s, JsonError(InvalidLink))
      case Some(d) =>
        var row := s.resetTokens[d];
        var user := s.users[row.userId];
        var profile := s.profiles[row.userId];
        var s' := s.(users := s.users[row.userId := user.(passwordHash := HashPassword(password, salt))],
                     resetTokens := s.resetTokens - {d});
        Outcome(s', RedirectTo("/app", [], Some(SessionCookie(row.userId, profile.role, profile.orgId, ctx))))
  }

  /** A reset succeeds exactly for a well-formed body whose token names an unexpired row of a
      user with a profile. It then sets that user's password, deletes that one row (other
      rows, the user's included, stay), and signs the user in with the profile's role. */
  lemma ResetSucceedsExactly(s: Store, body: ResetBody, ctx: Ctx, salt: nat)
    ensures var o := ResetPassword(s, body, ctx, salt);
            var f := Fields(body);
            && (o.store != s <==> ValidFields(f) && UsableRecord(s, f.value.0, ctx.nowMs).Some?)
            && (o.response.RedirectTo? && o.response.setCookie.Some?
                <==> ValidFields(f) && UsableRecord(s, f.value.0, ctx.nowMs).Some?)
    ensures var o := ResetPassword(s, body, ctx, salt);
            var f := Fields(body);
            ValidFields(f) && UsableRecord(s, f.value.0, ctx.nowMs).Some? ==>
              var d := HashToken(f.value.0);
              var uid := s.resetTokens[d].userId;
              && o.store.users.Keys == s.users.Keys
              && o.store.users[uid].email == s.users[uid].email
              && o.store.users[uid].passwordHash == HashPassword(f.value.1, salt)
              && (forall id :: id in s.users && id != uid ==> o.store.users[id] == s.users[id])
              && o.store.resetTokens == s.resetTokens - {d}
              && o.store.profiles == s.profiles
              && o.response.path == "/app" && o.response.query == []
              && o.response.setCookie == Some(SessionCookie(uid, s.profiles[uid].role, s.profiles[uid].orgId, ctx))
  {
  }

  /** A token is good for one reset: replaying the same body afterwards is refused. */
  lemma ReplayRefused(s: Store, body: ResetBody, ctx: Ctx, salt: nat, later: Ctx, salt2: nat)
    requires ResetPassword(s, body, ctx, salt).response.RedirectTo?
    requires ResetPassword(s, body, ctx, salt).response.setCookie.Some?
    ensures var s1 := ResetPassword(s, body, ctx, salt).store;
            var o := ResetPassword(s1, body, later, salt2);
            o.store == s1 && !(o.response.RedirectTo? && o.response.setCookie.Some?)
  {
    var f := Fields(body);
    ResetSucceedsExactly(s, body, ctx, salt);
    var s1 := ResetPassword(s, body, ctx, salt).store;
    assert HashToken(f.value.0) !in s1.resetTokens;
    assert UsableRecord(s1, f.value.0, later.nowMs).None?;
  }

  /** A row whose expiry is not after now is refused; the form keeps the token in the
      redirect and the JSON variant answers 400. */
  lemma ExpiredTokenRefused(s: Store, body: ResetBody, ctx: Ctx, salt: nat)
    requires ValidFields(Fields(body))
    requires var d := HashToken(Fields(body).value.0);
             d in s.resetTokens && s.resetTokens[d].expiresAt <= ctx.nowMs
    ensures var o := ResetPassword(s, body, ctx, salt);
            var token := Fields(body).value.0;
            o.store == s
            && o.response == (if body.Form? then RedirectTo("/reset-password", [("token", token), ("error", FormLinkMessage)], None)
                              else JsonError(InvalidLink))
  {
  }

  /** A form submission with a short password goes back to the page with the error, keeping
      the token only when one was sent. */
  lemma ShortFormPasswordRedirects(s: Store, token: Option<string>, password: string, ctx: Ctx, salt: nat)
    requires |password| < 8
    ensures var o := ResetPassword(s, Form(token, Some(password)), ctx, salt);
            var t := token.GetOr("");
            o == Outcome(s, RedirectTo("/reset-password",
                                       (if t != "" then [("token", t)] else []) + [("error", ShortPasswordMessage)], None))
  {
  }

  /** After a reset the user logs in with the new password, as the same user in the same
      organisation, and no longer with any other password. */
  lemma ResetThenLogin(s: Store, body: ResetBody, ctx: Ctx, salt: nat, loginEmail: string, oldPassword: string)
    requires EmailIndexed(s)
    requires ValidFields(Fields(body)) && UsableRecord(s, Fields(body).value.0, ctx.nowMs).Some?
    requires IsEmail(loginEmail)
    requires ToLower(loginEmail) == s.users[s.resetTokens[HashToken(Fields(body).value.0)].userId].email
    ensures var f := Fields(body);
            var uid := s.resetTokens[HashToken(f.value.0)].userId;
            var s1 := ResetPassword(s, body, ctx, salt).store;
            && EmailIndexed(s1)
            && Login.Login(s1, Login.LoginRequest(loginEmail, f.value.1), ctx)
               == Ok(SessionCookie(uid, s.profiles[uid].role, s.profiles[uid].orgId, ctx))
            && (oldPassword != f.value.1 ==> Login.Login(s1, Login.LoginRequest(loginEmail, oldPassword), ctx).Fail?)
  {
    var f := Fields(body);
    ResetSucceedsExactly(s, body, ctx, salt);
    var uid := s.resetTokens[HashToken(f.value.0)].userId;
    var s1 := ResetPassword(s, body, ctx, salt).store;
    assert s1.emails == s.emails;
    assert EmailIndexed(s1);
    assert s1.emails[ToLower(loginEmail)] == uid;
  }

  /** The link mailed by a reset request resets the password until the hour is over. */
  lemma MailedLinkResets(s: Store, req: ForgotPassword.ForgotRequest, env: ForgotPassword.Env, nowMs: int,
                         rawToken: string, sent: bool, password: string, ctx: Ctx, salt: nat)
    requires ForgotPassword.RequestReset(s, req, env, nowMs, rawToken, sent).store != s
    requires rawToken != "" && |password| >= 8
    requires nowMs <= ctx.nowMs < nowMs + ForgotPassword.RESET_TOKEN_TTL_MS
    requires UserByEmail(s, ToLower(req.email)).Some? && UserByEmail(s, ToLower(req.email)).value in s.profiles
    ensures var s1 := ForgotPassword.RequestReset(s, req, env, nowMs, rawToken, sent).store;
            ResetPassword(s1, Json(Some(rawToken), Some(password)), ctx, salt).store != s1
  {
    ForgotPassword.IssuesExactly(s, req, env, nowMs, rawToken, sent);
  }
}

=== FILE: signup.dfy ===
/** Signup with an invite code (src/app/api/auth/signup/route.ts): one transaction that
    checks the code, creates the user and the profile, and consumes one use of the code. */
module Signup {
  import opened Common
  import opened Permissions
  import opened Auth
  import opened Db
  import InviteCheck

  datatype SignupRequest = SignupRequest(
    code: string,
    firstName: string,
    lastName: string,
    email: string,
    password: string,
    paymentMethod: string,
    paymentHandle: Option<string>)

  /** The errors the transaction throws, plus schema failure and any other failure. */
  datatype SignupError = InvalidInput | InvalidCode | ExpiredCode | UsedUpCode | EmailExists | SignupFailed

  function ErrorReply(e: SignupError): Failure {
    match e
    case InvalidInput => Failure(400, "Invalid input.")
    case InvalidCode => Failure(400, "Invite code is invalid.")
    case ExpiredCode => Failure(400, "Invite code has expired.")
    case UsedUpCode => Failure(400, "Invite code has no remaining uses.")
    case EmailExists => Failure(409, "Email already exists.")
    case SignupFailed => Failure(500, "Signup failed.")
  }

  const SignupPaymentMethods: seq<string> := ["venmo", "zelle", "paypal"]

  /** signupSchema. */
  predicate ValidSignupInput(req: SignupRequest) {
    && |req.code| >= 3
    && |req.firstName| >= 1
    && |req.lastName| >= 1
    && IsEmail(req.email)
    && |req.password| >= 8
    && req.paymentMethod in SignupPaymentMethods
  }

  /** The first check of the transaction that fails, in the route's order; None if all pass. */
  function FirstError(s: Store, req: SignupRequest, nowMs: int, newUserId: UserId): Option<SignupError> {
    if !ValidSignupInput(req) then Some(InvalidInput)
    else if req.code !in s.invites then Some(InvalidCode)
    else if InviteCheck.Expired(s.invites[req.code], nowMs) then Some(ExpiredCode)
    else if InviteCheck.Exhausted(s.invites[req.code]) then Some(UsedUpCode)
    else if UserByEmail(s, ToLower(req.email)).Some? then Some(EmailExists)
    else if newUserId in s.users || newUserId in s.profiles || ToLower(req.email) in s.emails then Some(SignupFailed)
    else None
  }

  /** POST. `newUserId` is the id the database generates and `salt` the hash salt; a
      generated id that is already taken fails the insert, which rolls everything back. */
  function Signup(s: Store, req: SignupRequest, ctx: Ctx, newUserId: UserId, salt: nat): (step: Step<CookieWrite>)
    ensures step.reply.Fail? ==> step.store == s
    ensures step.reply.Fail? <==> FirstError(s, req, ctx.nowMs, newUserId).Some?
    ensures step.reply.Fail? ==> step.reply.failure == ErrorReply(FirstError(s, req, ctx.nowMs, newUserId).value)
  {
    match FirstError(s, req, ctx.nowMs, newUserId)
    case Some(e) => Step(s, Fail(ErrorReply(e)))
    case None =>
      var inv := s.invites[req.code];
      var email := ToLower(req.email);
      var user := User(email, HashPassword(req.password, salt));
      var profile := Profile(inv.orgId, req.firstName, req.lastName, None, req.paymentMethod,
                             req.paymentHandle, inv.role);
      var s' := s.(users := s.users[newUserId := user],
                   emails := s.emails[email := newUserId],
                   profiles := s.profiles[newUserId := profile],
                   invites := s.invites[req.code := inv.(uses := inv.uses + 1)]);
      Step(s', Ok(SessionCookie(newUserId, inv.role, inv.orgId, ctx)))
  }

  /** A successful signup creates exactly one user, under the lowercased address, and its
      profile with the invite's organisation and role. */
  lemma SignupCreatesAccount(s: Store, req: SignupRequest, ctx: Ctx, newUserId: UserId, salt: nat)
    requires Signup(s, req, ctx, newUserId, salt).reply.Ok?
    ensures var s' := Signup(s, req, ctx, newUserId, salt).store;
            var inv := s.invites[req.code];
            && newUserId !in s.users && s'.users.Keys == s.users.Keys + {newUserId}
            && s'.users[newUserId].email == ToLower(req.email)
            && VerifyPassword(req.password, s'.users[newUserId].passwordHash)
            && s'.profiles.Keys == s.profiles.Keys + {newUserId}
            && s'.profiles[newUserId].orgId == inv.orgId
            && s'.profiles[newUserId].role == inv.role
  {
    assert FirstError(s, req, ctx.nowMs, newUserId).None?;
  }

  /** The users table grows by exactly one row on success and not at all on failure. */
  lemma SignupUserCount(s: Store, req: SignupRequest, ctx: Ctx, newUserId: UserId, salt: nat)
    ensures var step := Signup(s, req, ctx, newUserId, salt);
            |step.store.users| == if step.reply.Ok? then |s.users| + 1 else |s.users|
  {
    var step := Signup(s, req, ctx, newUserId, salt);
    if step.reply.Ok? {
      assert FirstError(s, req, ctx.nowMs, newUserId).None?;
      var user := User(ToLower(req.email), HashPassword(req.password, salt));
      assert step.store.users == s.users[newUserId := user];
      AddKeyCardinality(s.users, newUserId, user);
    }
  }

  /** A successful signup uses up one use of its code and leaves every other code, the
      receipts, the reset tokens and the organisations alone. */
  lemma SignupConsumesOneUse(s: Store, req: SignupRequest, ctx: Ctx, newUserId: UserId, salt: nat)
    requires Signup(s, req, ctx, newUserId, salt).reply.Ok?
    ensures var s' := Signup(s, req, ctx, newUserId, salt).store;
            && req.code in s.invites
            && s'.invites.Keys == s.invites.Keys
            && s'.invites[req.code].uses == s.invites[req.code].uses + 1
            && s'.invites[req.code].maxUses == s.invites[req.code].maxUses
            && (forall c :: c in s.invites && c != req.code ==> s'.invites[c] == s.invites[c])
            && s'.receipts == s.receipts && s'.resetTokens == s.resetTokens && s'.orgs == s.orgs
  {
    assert FirstError(s, req, ctx.nowMs, newUserId).None?;
  }

  /** A successful signup signs the new user in with the invite's organisation and role. */
  lemma SignupSignsIn(s: Store, req: SignupRequest, ctx: Ctx, newUserId: UserId, salt: nat)
    requires Signup(s, req, ctx, newUserId, salt).reply.Ok?
    ensures var inv := s.invites[req.code];
            GetSessionUser(ctx.(cookie := Some(Signup(s, req, ctx, newUserId, salt).reply.value.value)))
            == Some(SessionUser(newUserId, inv.role, inv.orgId))
  {
    assert FirstError(s, req, ctx.nowMs, newUserId).None?;
    var inv := s.invites[req.code];
    SessionRoundTrip(newUserId, inv.role, inv.orgId, ctx, ctx.(cookie := Some(SessionCookie(newUserId, inv.role, inv.orgId, ctx).value)));
  }

  /** Signup keeps every invite code within its use limit and keeps the email index exact. */
  lemma SignupPreservesInvariants(s: Store, req: SignupRequest, ctx: Ctx, newUserId: UserId, salt: nat)
    requires InvitesWithinLimits(s) && EmailIndexed(s)
    ensures InvitesWithinLimits(Signup(s, req, ctx, newUserId, salt).store)
    ensures EmailIndexed(Signup(s, req, ctx, newUserId, salt).store)
  {
    var step := Signup(s, req, ctx, newUserId, salt);
    if step.reply.Ok? {
      var s' := step.store;
      var email := ToLower(req.email);
      assert email !in s.emails;
      forall e | e in s'.emails
        ensures s'.emails[e] in s'.users && s'.users[s'.emails[e]].email == e
      {
        if e != email {
          assert s'.emails[e] == s.emails[e] != newUserId;
        }
      }
      forall id | id in s'.users
        ensures s'.users[id].email in s'.emails && s'.emails[s'.users[id].email] == id
      {
        if id != newUserId {
          assert s.users[id].email != email;
        }
      }
    }
  }

  /** The invite checks of signup are those of the invite page: for a well-formed request,
      signup gets past the code checks exactly when the page calls the code valid. */
  lemma SignupAgreesWithInvitePage(s: Store, req: SignupRequest, ctx: Ctx, newUserId: UserId)
    requires ValidSignupInput(req)
    ensures var e := FirstError(s, req, ctx.nowMs, newUserId);
            (e.None? || e.value !in {InvalidCode, ExpiredCode, UsedUpCode})
            <==> InviteCheck.CheckInvite(s, Some(req.code), ctx.nowMs).Ok?
  {
  }

  /** Two signups racing for the last use of a code: executed one after the other as the
      transactions are, the first succeeds and the second is refused as used up. */
  lemma LastUseConsumedOnce(s: Store, r1: SignupRequest, r2: SignupRequest, ctx: Ctx,
                            id1: UserId, id2: UserId, salt: nat)
    requires r1.code == r2.code && r1.code in s.invites
    requires s.invites[r1.code].uses + 1 == s.invites[r1.code].maxUses
    requires Signup(s, r1, ctx, id1, salt).reply.Ok?
    requires ValidSignupInput(r2)
    ensures var s1 := Signup(s, r1, ctx, id1, salt).store;
            Signup(s1, r2, ctx, id2, salt) == Step(s1, Fail(ErrorReply(UsedUpCode)))
  {
  }
}

=== FILE: storage.dfy ===
/** Storage object keys (src/lib/storage.ts): the extension a content type gets, the keys of
    receipt photos and organisation logos, and the prefix check in front of every signed view
    URL. The storage service itself is not modelled; a signed URL is the key it is for and
    its lifetime. */
module Storage {
  import opened Common

  /** Signed view URLs last ten minutes. */
  const VIEW_URL_SECONDS: int := 60 * 10

  const Extensions: set<string> := {"jpg", "png", "heic", "heif", "webp", "bin"}

  /** The file extension for an upload's content type; unknown types are stored as "bin". */
  function ExtensionFor(contentType: string): (ext: string)
    ensures ext in Extensions
  {
    if contentType == "image/jpeg" then "jpg"
    else if contentType == "image/png" then "png"
    else if contentType == "image/heic" then "heic"
    else if contentType == "image/heif" then "heif"
    else if contentType == "image/webp" then "webp"
    else "bin"
  }

  /** A receipt photo's key: the organisation, a slash, the receipt id and the extension. */
  function UploadKey(orgId: string, receiptId: string, contentType: string): (key: string)
    ensures StartsWith(key, orgId + "/")
  {
    orgId + "/" + receiptId + "." + ExtensionFor(contentType)
  }

  /** An organisation logo's key. */
  function LogoKey(orgId: string, contentType: string): (key: string)
    ensures StartsWith(key, "logo-" + orgId)
  {
    "logo-" + orgId + "." + ExtensionFor(contentType)
  }

  /** The check before signing: the key lies under the organisation's folder or starts like
      its logo. */
  predicate ViewAllowed(orgId: string, key: string) {
    StartsWith(key, orgId + "/") || StartsWith(key, "logo-" + orgId)
  }

  datatype SignedUrl = SignedUrl(key: string, expiresIn: int)

  /** createSignedViewUrl: a key outside the organisation throws "Unauthorized". */
  function SignedViewUrl(orgId: string, key: string): (r: Result<SignedUrl>)
    ensures r.Ok? <==> ViewAllowed(orgId, key)
    ensures r.Ok? ==> r.value.key == key && r.value.expiresIn == VIEW_URL_SECONDS
    ensures r.Fail? ==> r.failure == Unauthorized
  {
    if !ViewAllowed(orgId, key) then Fail(Unauthorized) else Ok(SignedUrl(key, VIEW_URL_SECONDS))
  }

  // ---------------------------------------------------------------------------
  // Properties

  /** The five image types get their own extension and every other type gets "bin". */
  lemma ExtensionExactly(contentType: string)
    ensures ExtensionFor(contentType) != "bin" <==>
              contentType in {"image/jpeg", "image/png", "image/heic", "image/heif", "image/webp"}
    ensures contentType == "image/jpeg" ==> ExtensionFor(contentType) == "jpg"
    ensures contentType in {"image/png", "image/heic", "image/heif", "image/webp"} ==>
              ExtensionFor(contentType) == contentType[6..]
  {
  }

  /** Keys an organisation's uploads and logo are stored under always pass its own check. */
  lemma OwnKeysViewable(orgId: string, receiptId: string, contentType: string)
    ensures ViewAllowed(orgId, UploadKey(orgId, receiptId, contentType))
    ensures ViewAllowed(orgId, LogoKey(orgId, contentType))
  {
  }

  /** Between organisations with uuid ids, the check refuses the other organisation's
      photo and logo keys. */
  lemma OtherOrgKeysRefused(orgId: string, other: string, receiptId: string, contentType: string)
    requires IsUuid(orgId) && IsUuid(other) && orgId != other
    ensures !ViewAllowed(orgId, UploadKey(other, receiptId, contentType))
    ensures !ViewAllowed(orgId, LogoKey(other, contentType))
  {
    var up := UploadKey(other, receiptId, contentType);
    var logo := LogoKey(other, contentType);
    SamePrefix(orgId + "/", other + "/", up);
    SamePrefix("logo-" + orgId, "logo-" + other, logo);
    assert (orgId + "/")[..36] == orgId && (other + "/")[..36] == other;
    assert ("logo-" + orgId)[5..] == orgId && ("logo-" + other)[5..] == other;
    assert IsHexDigit(orgId[0]) && IsHexDigit(other[0]);
    assert up[0] == other[0] && logo[0] == 'l';
  }

  /** Two prefixes of one string with the same length are equal. */
  lemma SamePrefix(a: string, b: string, s: string)
    requires |a| == |b|
    ensures a <= s && b <= s ==> a == b
  {
  }

  /** The logo branch of the check is a bare prefix test: for identifiers of different
      lengths, one organisation's logo key can pass another's check. */
  lemma LogoPrefixIsLoose(contentType: string)
    ensures ViewAllowed("a", LogoKey("ab", contentType))
  {
    assert "logo-ab." + ExtensionFor(contentType) == LogoKey("ab", contentType);
    assert ("logo-ab." + ExtensionFor(contentType))[..6] == "logo-a";
  }

  /** For uuid identifiers the upload key determines the organisation, the receipt and the
      extension: two uploads share a key only when all three agree. */
  lemma UploadKeyInjective(orgId: string, receiptId: string, contentType: string,
                           other: string, otherReceipt: string, otherType: string)
    requires IsUuid(orgId) && IsUuid(other) && IsUuid(receiptId) && IsUuid(otherReceipt)
    requires UploadKey(orgId, receiptId, contentType) == UploadKey(other, otherReceipt, otherType)
    ensures orgId == other && receiptId == otherReceipt
    ensures ExtensionFor(contentType) == ExtensionFor(otherType)
  {
    var k := UploadKey(orgId, receiptId, contentType);
    var k2 := UploadKey(other, otherReceipt, otherType);
    assert k[..36] == orgId;
    assert k2[..36] == other;
    assert k[37..73] == receiptId;
    assert k2[37..73] == otherReceipt;
    assert k[74..] == ExtensionFor(contentType);
    assert k2[74..] == ExtensionFor(otherType);
  }
}

=== FILE: store.dfy ===
/** The persistent state the routes read and write, as finite maps, together with the
    symbolic password and token hashing. Each route's database transaction is one step
    from a Store to a Store. */
module Db {
  import opened Common
  import opened Permissions

  type UserId = string
  type OrgId = string
  type ReceiptId = string

  /** A salted one-way password hash; the salt is the hashing library's random choice. */
  datatype PasswordHash = Salted(salt: nat, password: string)

  function HashPassword(password: string, salt: nat): PasswordHash {
    Salted(salt, password)
  }

  /** Password verification accepts exactly the password the hash was made from. */
  predicate VerifyPassword(password: string, h: PasswordHash) {
    h.password == password
  }

  lemma VerifyHashedPassword(password: string, other: string, salt: nat)
    ensures VerifyPassword(password, HashPassword(password, salt))
    ensures other != password ==> !VerifyPassword(other, HashPassword(password, salt))
  {
  }

  /** The SHA-256 digest of a reset token, as a collision-free term. */
  datatype Digest = Sha256(preimage: string)

  function HashToken(raw: string): Digest {
    Sha256(raw)
  }

  datatype User = User(email: string, passwordHash: PasswordHash)

  datatype Profile = Profile(
    orgId: OrgId,
    firstName: string,
    lastName: string,
    phone: Option<string>,
    paymentMethod: string,
    paymentHandle: Option<string>,
    role: Role)

  datatype InviteCode = InviteCode(orgId: OrgId, role: Role, maxUses: int, uses: int, expiresAt: Option<int>)

  /** A password-reset token row, keyed in the store by the digest of its raw token. */
  datatype ResetToken = ResetToken(userId: UserId, expiresAt: int, createdAt: int)

  datatype Organization = Organization(name: string)

  datatype Status = Submitted | Approved | Paid | Rejected | NeedsReview

  function StatusName(s: Status): string {
    match s
    case Submitted => "submitted"
    case Approved => "approved"
    case Paid => "paid"
    case Rejected => "rejected"
    case NeedsReview => "needs_review"
  }

  /** Reads a status query parameter; anything outside the five names is not a status. */
  function ParseStatus(s: string): (r: Option<Status>)
    ensures r.Some? ==> StatusName(r.value) == s
  {
    if s == "submitted" then Some(Submitted)
    else if s == "approved" then Some(Approved)
    else if s == "paid" then Some(Paid)
    else if s == "rejected" then Some(Rejected)
    else if s == "needs_review" then Some(NeedsReview)
    else None
  }

  lemma ParseStatusName(s: Status)
    ensures ParseStatus(StatusName(s)) == Some(s)
  {
  }

  datatype Category = Food | Drinks | Hardware | Lights | Other

  function CategoryName(c: Category): string {
    match c
    case Food => "food"
    case Drinks => "drinks"
    case Hardware => "hardware"
    case Lights => "lights"
    case Other => "other"
  }

  datatype Receipt = Receipt(
    id: ReceiptId,
    orgId: OrgId,
    userId: UserId,
    description: string,
    amountCents: int,
    category: Category,
    status: Status,
    photoKey: string,
    createdAt: int,
    paidAt: Option<int>,
    paidVia: Option<string>,
    paidNote: Option<string>,
    rejectionReason: Option<string>,
    rejectedAt: Option<int>,
    rejectedBy: Option<UserId>)

  /** One row of the per-field edit history of a receipt. */
  datatype ReceiptEdit = ReceiptEdit(receiptId: ReceiptId, editor: UserId, field: string, oldValue: string, newValue: string)

  datatype AuditAction = ReceiptApproved | ReceiptPaid | ReceiptRejected | ReceiptUpdated

  datatype AuditEntry = AuditEntry(orgId: OrgId, actor: UserId, receiptId: ReceiptId, action: AuditAction, previous: Status, next: Status)

  datatype Notification = Notification(orgId: OrgId, userId: UserId, kind: AuditAction, receiptId: ReceiptId)

  /** The database. `emails` is the unique index on users.email. */
  datatype Store = Store(
    orgs: map<OrgId, Organization>,
    users: map<UserId, User>,
    emails: map<string, UserId>,
    profiles: map<UserId, Profile>,
    invites: map<string, InviteCode>,
    resetTokens: map<Digest, ResetToken>,
    receipts: map<ReceiptId, Receipt>,
    edits: seq<ReceiptEdit>,
    audit: seq<AuditEntry>,
    notifications: seq<Notification>)

  /** One atomic transition of a route: the store afterwards and the reply. */
  datatype Step<+T> = Step(store: Store, reply: Result<T>)

  /** The email index and the users table agree, entry for entry. */
  ghost predicate EmailIndexed(s: Store) {
    && (forall e :: e in s.emails ==> s.emails[e] in s.users && s.users[s.emails[e]].email == e)
    && (forall id :: id in s.users ==> s.users[id].email in s.emails && s.emails[s.users[id].email] == id)
  }

  /** users.findUnique({ where: { email } }). */
  function UserByEmail(s: Store, email: string): (r: Option<UserId>)
    ensures r.Some? ==> r.value in s.users && s.users[r.value].email == email
    ensures EmailIndexed(s) && r.None? ==> forall id :: id in s.users ==> s.users[id].email != email
  {
    if email in s.emails && s.emails[email] in s.users && s.users[s.emails[email]].email == email
    then Some(s.emails[email])
    else None
  }

  /** No invite code has been used more often than it allows. */
  ghost predicate InvitesWithinLimits(s: Store) {
    forall c :: c in s.invites ==> 0 <= s.invites[c].uses <= s.invites[c].maxUses
  }
}

=== FILE: uri.dfy ===
/** JavaScript's encodeURIComponent, used to put invite codes and error messages into
    redirect URLs: characters outside the unreserved set are written as the UTF-8 bytes of
    their code point, each as "%" and two upper-case hex digits. */
module Uri {

  /** The characters encodeURIComponent leaves alone. */
  predicate Unreserved(c: char) {
    ('A' <= c <= 'Z') || ('a' <= c <= 'z') || ('0' <= c <= '9')
    || c in {'-', '_', '.', '!', '~', '*', '\'', '(', ')'}
  }

  function HexUpper(d: int): char
    requires 0 <= d < 16
  {
    if d < 10 then ('0' as int + d) as char else ('A' as int + d - 10) as char
  }

  /** The UTF-8 encoding of one Unicode scalar value. */
  function Utf8(c: char): (bytes: seq<int>)
    ensures 1 <= |bytes| <= 4
    ensures forall i :: 0 <= i < |bytes| ==> 0 <= bytes[i] < 256
    ensures (c as int < 0x80) <==> |bytes| == 1
  {
    var cp := c as int;
    if cp < 0x80 then [cp]
    else if cp < 0x800 then [0xC0 + cp / 64, 0x80 + cp % 64]
    else if cp < 0x10000 then [0xE0 + cp / 4096, 0x80 + (cp / 64) % 64, 0x80 + cp % 64]
    else [0xF0 + cp / 262144, 0x80 + (cp / 4096) % 64, 0x80 + (cp / 64) % 64, 0x80 + cp % 64]
  }

  function PercentBytes(bytes: seq<int>): (s: string)
    requires forall i :: 0 <= i < |bytes| ==> 0 <= bytes[i] < 256
    ensures |s| == 3 * |bytes|
    ensures forall i :: 0 <= i < |s| ==> s[i] == '%' || ('0' <= s[i] <= '9') || ('A' <= s[i] <= 'F')
  {
    if bytes == [] then ""
    else ['%', HexUpper(bytes[0] / 16), HexUpper(bytes[0] % 16)] + PercentBytes(bytes[1..])
  }

  function EncodeChar(c: char): (s: string)
    ensures Unreserved(c) ==> s == [c]
    ensures !Unreserved(c) ==> 3 <= |s| <= 12 && s[0] == '%'
  {
    if Unreserved(c) then [c] else PercentBytes(Utf8(c))
  }

  /** encodeURIComponent. */
  function EncodeUriComponent(s: string): (r: string)
    ensures |r| >= |s|
  {
    if s == [] then "" else EncodeChar(s[0]) + EncodeUriComponent(s[1..])
  }

  /** A string of unreserved characters is its own encoding. */
  lemma {:induction false} EncodeUnreservedIdentity(s: string)
    requires forall i :: 0 <= i < |s| ==> Unreserved(s[i])
    ensures EncodeUriComponent(s) == s
  {
    if s != [] {
      EncodeUnreservedIdentity(s[1..]);
    }
  }

  /** An encoding consists of unreserved characters and '%' only, so it can never carry a
      '&', '=', '#' or '?' that would end or split the query parameter. */
  lemma {:induction false} EncodingIsQuerySafe(s: string)
    ensures forall i :: 0 <= i < |EncodeUriComponent(s)| ==>
              Unreserved(EncodeUriComponent(s)[i]) || EncodeUriComponent(s)[i] == '%'
  {
    if s != [] {
      EncodingIsQuerySafe(s[1..]);
      var head := EncodeChar(s[0]);
      var tail := EncodeUriComponent(s[1..]);
      assert EncodeUriComponent(s) == head + tail;
      forall i | 0 <= i < |head|
        ensures Unreserved(head[i]) || head[i] == '%'
      {
      }
    }
  }

  /** A reserved character changes under encoding: the result is longer than the input. */
  lemma {:induction false} EncodingGrowsOnReserved(s: string, k: int)
    requires 0 <= k < |s| && !Unreserved(s[k])
    ensures |EncodeUriComponent(s)| >= |s| + 2
  {
    if k > 0 {
      EncodingGrowsOnReserved(s[1..], k - 1);
    }
  }
}

=== FILE: view_url.dfy ===
/** The photo view-URL route (src/app/api/storage/view-url/route.ts): which session may
    obtain a signed URL for which stored key. */
module PhotoAccess {
  import opened Common
  import opened Permissions
  import opened Auth
  import opened Db
  import Storage

  const InvalidInput: Failure := Failure(400, "Invalid input.")
  const NotFound: Failure := Failure(404, "Not found.")

  /** The lookup's where-clause: a receipt of the session's organisation with this photo,
      and the session user's own unless the role may view every receipt. */
  predicate Visible(r: Receipt, key: string, session: SessionUser) {
    && r.photoKey == key
    && r.orgId == session.orgId
    && (!CanViewAllReceipts(session.role) ==> r.userId == session.userId)
  }

  predicate AnyVisible(s: Store, key: string, session: SessionUser) {
    exists id :: id in s.receipts && Visible(s.receipts[id], key, session)
  }

  /** GET. `key` is the query parameter, None when it is missing. The key is checked before
      the session; the storage prefix check runs last, with the session's organisation. */
  function ViewUrl(s: Store, key: Option<string>, ctx: Ctx): (r: Result<Storage.SignedUrl>)
    ensures key.None? || key.value == "" ==> r == Fail(InvalidInput)
    ensures r.Ok? ==> r.value.key == key.value && r.value.expiresIn == Storage.VIEW_URL_SECONDS
  {
    if key.None? || |key.value| < 1 then Fail(InvalidInput)
    else match RequireCurrentUserAndProfile(ctx, s.profiles)
      case Fail(f) => Fail(f)
      case Ok(session) =>
        if !AnyVisible(s, key.value, session) then Fail(NotFound)
        else Storage.SignedViewUrl(session.orgId, key.value)
  }

  // ---------------------------------------------------------------------------
  // Properties

  /** A URL is issued exactly for a nonempty key of a receipt the profile-backed session may
      see, when that key also lies under the session's organisation. */
  lemma ViewUrlExactly(s: Store, key: Option<string>, ctx: Ctx)
    ensures var r := ViewUrl(s, key, ctx);
            r.Ok? <==>
              && key.Some? && key.value != ""
              && GetCurrentUserAndProfile(ctx, s.profiles).Some?
              && AnyVisible(s, key.value, GetCurrentUserAndProfile(ctx, s.profiles).value)
              && Storage.ViewAllowed(GetCurrentUserAndProfile(ctx, s.profiles).value.orgId, key.value)
    ensures key.Some? && key.value != "" && GetCurrentUserAndProfile(ctx, s.profiles).None? ==>
              ViewUrl(s, key, ctx) == Fail(Unauthorized)
    ensures key.Some? && key.value != "" && GetCurrentUserAndProfile(ctx, s.profiles).Some? &&
            !AnyVisible(s, key.value, GetCurrentUserAndProfile(ctx, s.profiles).value) ==>
              ViewUrl(s, key, ctx) == Fail(NotFound)
  {
  }

  /** A session whose stored role cannot view all receipts (a member) obtains URLs only for
      photos of its own receipts in its own organisation. */
  lemma MemberSeesOnlyOwnPhotos(s: Store, key: Option<string>, ctx: Ctx)
    requires ViewUrl(s, key, ctx).Ok?
    ensures var session := GetCurrentUserAndProfile(ctx, s.profiles).value;
            exists id :: id in s.receipts && s.receipts[id].photoKey == key.value
                         && s.receipts[id].orgId == session.orgId
                         && (session.role == Member ==> s.receipts[id].userId == session.userId)
  {
    var session := GetCurrentUserAndProfile(ctx, s.profiles).value;
    var id :| id in s.receipts && Visible(s.receipts[id], key.value, session);
    assert s.receipts[id].photoKey == key.value;
  }

  /** The photo key of a receipt is whatever its submitter sent. A receipt of the session's
      organisation that names another organisation's upload key passes the lookup, and the
      storage prefix check refuses it. */
  lemma ForeignKeyStopsAtPrefixCheck(s: Store, ctx: Ctx, id: ReceiptId, other: string, receiptId: string, contentType: string)
    requires GetCurrentUserAndProfile(ctx, s.profiles).Some?
    requires var session := GetCurrentUserAndProfile(ctx, s.profiles).value;
             IsUuid(session.orgId) && IsUuid(other) && other != session.orgId
    requires id in s.receipts
    requires Visible(s.receipts[id], Storage.UploadKey(other, receiptId, contentType), GetCurrentUserAndProfile(ctx, s.profiles).value)
    ensures ViewUrl(s, Some(Storage.UploadKey(other, receiptId, contentType)), ctx) == Fail(Unauthorized)
  {
    var session := GetCurrentUserAndProfile(ctx, s.profiles).value;
    Storage.OtherOrgKeysRefused(session.orgId, other, receiptId, contentType);
  }

  /** A session obtains a URL for a photo it uploaded to its own organisation's folder and
      recorded on one of its own receipts. */
  lemma OwnPhotoViewable(s: Store, ctx: Ctx, id: ReceiptId, contentType: string)
    requires GetCurrentUserAndProfile(ctx, s.profiles).Some?
    requires id in s.receipts
    requires var session := GetCurrentUserAndProfile(ctx, s.profiles).value;
             && s.receipts[id].photoKey == Storage.UploadKey(session.orgId, id, contentType)
             && s.receipts[id].orgId == session.orgId && s.receipts[id].userId == session.userId
    ensures ViewUrl(s, Some(s.receipts[id].photoKey), ctx).Ok?
  {
    var session := GetCurrentUserAndProfile(ctx, s.profiles).value;
    Storage.OwnKeysViewable(session.orgId, id, contentType);
    assert Visible(s.receipts[id], s.receipts[id].photoKey, session);
  }
}
